=== FILE: README.md ===
# VideoSummarizer in Dafny

VideoSummarizer is a Streamlit app. It takes an uploaded video ad and produces:
- key frames, one every two seconds;
- a speech transcript;
- a PDF report (title page, one page per frame with its share of the transcript, and a closing appendix that holds the full transcript);
- optionally, a marketing analysis from a language model.

This project models the app's text and decision logic and proves what that logic promises. The model covers:
- **Utils** (`utils.py`): `format_time`, `validate_video_file`, `get_file_size_mb`, `clean_text`, `estimate_processing_time`, `create_safe_filename` and `format_file_size`.
- **VideoProcessor** (`video_processor.py`):
  - which stream's duration ffprobe yields;
  - how `r_frame_rate` is read;
  - which rasterised frame files become frames, with which timestamp, name and size;
  - how a transcription attempt ends, including how a speech-service error is classified.
- **VideoCompressor** (`video_compressor.py`):
  - the fast path for small inputs;
  - trimming of long inputs;
  - the bitrate formula with its 200 kbps floor;
  - the two-pass → single-pass → input fallback chain;
  - the removal of the two-pass log files.
- **PdfGenerator** (`pdf_generator.py`):
  - segmentation of the transcript across frames;
  - reflow of text into sentences and about 100-word paragraphs;
  - fitting each image into a 5in × 3.5in box;
  - the order of the report's "story", as a sequence of abstract elements (paragraphs with a style, spacers, images, page breaks).
- **App** (`app.py`):
  - the processing block run by a press of "Full Analysis" or "Transcribe Only": extension normalisation, the compression trigger, frame extraction, transcript placeholder substitution, the analysis/basic-PDF routing, and the `processed_data` dictionary;
  - the two session-state entries, as a class;
  - the results page's safe name, download names and analysis preview.
- **Strings** (shared): the Python string operations the code relies on, written over `seq<char>`:
  - `str.split()`, `str.split(sep)`, `join`, `strip`/`rstrip`, `replace` and `lower`;
  - `in` on strings, `float()` of decimals and zero-padded integer formatting;
  - `sorted` on strings and `os.path.splitext`.

External programs and services become parameters:
- ffprobe's stream list and duration text;
- whether each ffmpeg command succeeds, and the files it leaves;
- how PIL decodes each frame file;
- the speech service's reply;
- whether `ANTHROPIC_API_KEY` is set, and what the analysis returned;
- which paths exist;
- the names handed out for temporary files.

Code that updates state step by step is modelled as methods with loops, proved against specification functions. This covers the frame loop, the segment and sentence loops, the story builders, the pass-log clean-up, the character loop of `create_safe_filename`, and the session. The properties are proved about those functions.

## Model

| member | source | states |
|---|---|---|
| Utils.Trunc | VideoSummarizer/utils.py:114 | `int()` of a float truncates toward zero: the result lies within one of the input, on the side of zero |
| Utils.FloorDivWhole | VideoSummarizer/utils.py:18 | for non-negative seconds, Python's float `//` by a whole number agrees with integer division of the whole seconds |
| Utils.FloatModWhole | VideoSummarizer/utils.py:19-20 | for non-negative seconds, Python's float `%` by a whole number is non-negative, and its whole part is the integer remainder of the whole seconds |
| Utils.TimeFields | VideoSummarizer/utils.py:15-20 | minutes and seconds are below 60; for non-negative input, hours·3600 + minutes·60 + seconds is the whole number of seconds; negative input gives all zero |
| Utils.TimeSplit | VideoSummarizer/utils.py:18-20 | each of the three float expressions of `format_time` computes the corresponding integer field of the whole seconds, and the fields recombine to them |
| Utils.Pad2Digits | VideoSummarizer/utils.py:22 | `{n:02d}` is at least two digits, holds no ':' and reads back as n |
| Utils.FormatTimeReadsBack | VideoSummarizer/utils.py:5-22 | the text splits at ':' into exactly three fields, each at least two digits; minutes and seconds read below 60; the fields recombine to the whole seconds; negative input reads as 00:00:00 |
| Utils.FormatTime | VideoSummarizer/utils.py:5-22 | `format_time`; its contract is `Utils.FormatTimeReadsBack` (the function itself carries none) |
| Utils.ValidateVideoFile | VideoSummarizer/utils.py:24-52 | valid exactly when the file exists, is not empty, has a `video/` MIME type and an extension from the list (in lower case); each failed test, taken in that order, gives its own message ("File does not exist", "File is empty", "File is not a video format", "Unsupported file extension: " with the lower-cased extension), and success gives "Valid video file" |
| Utils.ValidateIgnoresExtensionCase | VideoSummarizer/utils.py:46-50 | two paths whose extensions differ only in case are judged alike |
| Utils.FileSizeMb | VideoSummarizer/utils.py:54-68 | a missing file gives 0; otherwise the size in MB times 1024·1024 is the byte count; never negative |
| Utils.FormatFileSize | VideoSummarizer/utils.py:152-169 | bytes are shown as such exactly below 1024; otherwise the shown value times the unit is the size, at least 1 and below 1024 except in GB |
| Utils.FormatFileSizeMonotone | VideoSummarizer/utils.py:162-169 | a larger size never gets a smaller unit |
| Utils.JoinedWordsSpaced | VideoSummarizer/utils.py:84 | after `' '.join(text.split())` every character is a space or a non-whitespace character |
| Utils.CleanTextClean | VideoSummarizer/utils.py:70-89 | the cleaned text holds no character below code 32 and neither starts nor ends with whitespace (empty input gives "") |
| Utils.CleanTextKeepsWords | VideoSummarizer/utils.py:80-89 | on text without control characters, cleaning keeps exactly the whitespace-separated words |
| Utils.CleanText | VideoSummarizer/utils.py:70-89 | `clean_text`; its contract is `Utils.CleanTextClean` (the function itself carries none) |
| Utils.EstimateProcessingTime | VideoSummarizer/utils.py:91-114 | the estimate is at most 600; at least 30 for non-negative size and duration; exactly 600 once the raw total reaches 601 |
| Utils.EstimateMonotone | VideoSummarizer/utils.py:102-114 | a larger file and a longer video never get a smaller estimate |
| Utils.Sanitize | VideoSummarizer/utils.py:133-138 | the stem is mapped character for character: an allowed character (alphanumeric or one of `-_. `) is kept, any other becomes '_' |
| Utils.CreateSafeFilename | VideoSummarizer/utils.py:116-150 | the loop builds what `SafeFilename` specifies: "output" for an empty name; otherwise the stripped sanitised stem, "video_summary" when that is empty, cut to 50 and stripped again |
| Utils.StemSafe | VideoSummarizer/utils.py:129-140 | the stripped sanitised stem is empty or a safe name |
| Utils.VideoSummarySafe | VideoSummarizer/utils.py:143-144 | the fallback name is itself a safe name |
| Utils.CutSafe | VideoSummarizer/utils.py:147-148 | cutting a safe name to 50 characters and stripping it leaves a safe name of at most 50 |
| Utils.SafeFilenameSafe | VideoSummarizer/utils.py:116-150 | the result is never empty, has at most 50 characters, all allowed, and neither starts nor ends with whitespace |
| Utils.SafeFilenameKeepsSafe | VideoSummarizer/utils.py:126-150 | a name that is already safe, has no extension and fits in 50 comes back unchanged |
| Utils.SafeFilename | VideoSummarizer/utils.py:116-150 | `create_safe_filename` as a specification; its contract is `Utils.SafeFilenameSafe` (the function itself carries none) |
| Strings.SplitExt | VideoSummarizer/utils.py:47 | `os.path.splitext`: stem and extension concatenate to the path; the extension is empty or one '.' followed by no '.' and no '/' |
| Strings.Filter | VideoSummarizer/utils.py:87 | a comprehension with an `if` clause (also app.py:293 and video_processor.py:51): every element kept satisfies the test, nothing is added (a sub-multiset of the input, never longer), and an input whose elements all pass comes back unchanged |
| Strings.FilterMembers | VideoSummarizer/video_processor.py:51 | an element is kept exactly when it occurs in the input and passes the test |
| Strings.FilterAppend | VideoSummarizer/app.py:293 | filtering a concatenation is the concatenation of the filtered parts: kept elements stay in input order |
| Strings.FilterSingle | VideoSummarizer/utils.py:87 | a one-element input is kept exactly when its element passes |
| Strings.FilterCons | VideoSummarizer/app.py:293 | the first element is kept, in front, exactly when it passes |
| Strings.FilterCount | VideoSummarizer/video_processor.py:51 | an element that passes is kept as many times as it occurs |
| Strings.FilterKeeps | VideoSummarizer/utils.py:87 | whatever holds of every input element holds of every kept one |
| Strings.SplitJoinWords | VideoSummarizer/pdf_generator.py:320 | joining words with spaces and splitting again gives the same words |
| Strings.SplitJoin | VideoSummarizer/pdf_generator.py:362 | splitting texts joined with spaces gives the words of all the texts, in order |
| Strings.SplitStrip | VideoSummarizer/pdf_generator.py:345-349 | stripping a sentence does not change its words |
| Strings.StripEnds | VideoSummarizer/utils.py:89 | `strip()` leaves no whitespace at either end |
| Strings.RStripShape | VideoSummarizer/app.py:293 | `rstrip()` keeps a prefix that does not end in whitespace, and drops only whitespace |
| Strings.SortCorrect | VideoSummarizer/video_processor.py:51 | `sorted` gives an ordered permutation of its input |
| Strings.SortedUnique | VideoSummarizer/video_processor.py:51 | two ordered permutations of the same names are equal, so the sorted order is unique |
| Strings.ZeroPadValue | VideoSummarizer/video_processor.py:77 | `{n:04d}` is all digits and reads back as n |
| Strings.ParseFloatNat | VideoSummarizer/video_processor.py:212 | `float()` of a whole number's digits is that number |
| VideoProcessor.FirstPositive | VideoSummarizer/video_processor.py:175-180 | the probed duration is never negative |
| VideoProcessor.FirstPositiveReported | VideoSummarizer/video_processor.py:175-179 | when a video stream has a positive duration and every video stream before it was read and not positive, its duration is the result |
| VideoProcessor.FirstPositiveFound | VideoSummarizer/video_processor.py:175-180 | a positive result is the duration of such a stream |
| VideoProcessor.DurationOfFirstPositive | VideoSummarizer/video_processor.py:156-183 | `_get_video_duration` is positive exactly when some video stream has a positive duration and every video stream before it was read and not positive, and then it is that stream's duration |
| VideoProcessor.GetVideoDuration | VideoSummarizer/video_processor.py:156-183 | the stream loop returns the duration specified above, 0 when the probe fails |
| VideoProcessor.FirstVideo | VideoSummarizer/video_processor.py:204 | the stream chosen is a video stream with no video stream before it; none is chosen exactly when there is no video stream |
| VideoProcessor.FpsMalformed | VideoSummarizer/video_processor.py:208-215 | a rate without '/' or with more than one reads as 0 |
| VideoProcessor.FpsFromParts | VideoSummarizer/video_processor.py:210-215 | a rate `num/den` whose two parts parse reads as num/den, and as 0 when den is 0 |
| VideoProcessor.RateSplits | VideoSummarizer/video_processor.py:212 | a rate written as two digit strings splits at '/' into exactly those two |
| VideoProcessor.FpsFromWholeRate | VideoSummarizer/video_processor.py:209-215 | a rate of two whole numbers reads as their quotient, or 0 when the denominator is 0; this includes the default "0/1" |
| VideoProcessor.FpsFromRate | VideoSummarizer/video_processor.py:208-215 | reading `r_frame_rate`; its contract is `VideoProcessor.FpsFromParts` (the function itself carries none) |
| VideoProcessor.GetVideoInfo | VideoSummarizer/video_processor.py:185-226 | a failed probe, a probe with no video stream, or a first video stream whose duration does not parse gives the all-zero record; otherwise the record is that stream's duration, its width and height (0 when absent) and its frame rate as read above |
| VideoProcessor.Resize | VideoSummarizer/video_processor.py:61-64 | a frame at most 800 wide keeps its size; a wider one becomes 800 wide and `int(h·800/w)` high, i.e. within one pixel below the proportional height; when that height is 0 (h·800 < w) the image library refuses the resize, so there is no result |
| VideoProcessor.ScaledHeight | VideoSummarizer/video_processor.py:62-63 | `int(h * (800 / w))` is at most 0 exactly when h·800 < w, and for h ≥ 0 lies within one pixel below h·800/w |
| VideoProcessor.ResizeTooFlat | VideoSummarizer/video_processor.py:61-64 | a 1601×1 frame has no resized size, while a 1600×2 frame becomes 800×1 |
| VideoProcessor.FrameNameReadsBack | VideoSummarizer/video_processor.py:77 | `frame_{i+1:04d}.jpg` starts with "frame_", ends with ".jpg", and its digits read back as i+1 |
| VideoProcessor.FrameNameInjective | VideoSummarizer/video_processor.py:77 | different positions get different names |
| VideoProcessor.FrameFilesSorted | VideoSummarizer/video_processor.py:51 | the frame files are sorted and are a permutation of the "frame_" names of the listing |
| VideoProcessor.Readable | VideoSummarizer/video_processor.py:53-82 | the positions of the processed files (decoded and resized) form a strictly increasing list holding every such position and no other |
| VideoProcessor.EmittedReadable | VideoSummarizer/video_processor.py:53-82 | the k-th frame emitted comes from the k-th processed file (one that decodes and whose resize succeeds): failures are skipped and later files are still processed, so there are never more frames than files |
| VideoProcessor.EmittedIncreasing | VideoSummarizer/video_processor.py:55 | for a positive rate the emitted timestamps strictly increase |
| VideoProcessor.EmittedFrameOrigin | VideoSummarizer/video_processor.py:53-78 | each emitted frame comes from a processed file at some position i, and carries timestamp i/fps and the name `frame_{i+1:04d}.jpg` |
| VideoProcessor.EmittedFromListing | VideoSummarizer/video_processor.py:51-78 | every emitted frame comes from a "frame_" file of the listing that is processed, and carries the timestamp and name of its position among the sorted frame files |
| VideoProcessor.ReadableNotSkipped | VideoSummarizer/video_processor.py:58-82 | a file that decodes and resizes always yields its frame |
| VideoProcessor.ExtractFrames | VideoSummarizer/video_processor.py:17-88 | the loop returns what `ExtractedFrames` specifies: nothing when the duration is not positive, when rasterising fails, or when a zero rate raises; otherwise the frames of the processed sorted frame files |
| VideoProcessor.ExtractedFramesFacts | VideoSummarizer/video_processor.py:28-88 | no frame when the duration is not positive, rasterising fails or the rate is 0; otherwise exactly the frames emitted for the sorted frame files (so a failing frame is skipped and later ones are still processed); timestamps strictly increase for a positive rate |
| VideoProcessor.ExtractedFrames | VideoSummarizer/video_processor.py:17-88 | what `extract_frames` returns; its contract is `VideoProcessor.ExtractedFramesFacts` (the function itself carries none) |
| VideoProcessor.ClassifyApiErrorIff | VideoSummarizer/video_processor.py:134-142 | quota message exactly when the error mentions "insufficient_quota" or "429"; invalid-key message exactly when it does not but mentions "401" or "unauthorized" in any case; otherwise exactly "Transcription failed: " followed by the error message |
| VideoProcessor.ClassifyApiError | VideoSummarizer/video_processor.py:137-142 | the text for a failed speech request; its contract is `VideoProcessor.ClassifyApiErrorIff` (the function itself carries none) |
| VideoProcessor.TranscribeAudio | VideoSummarizer/video_processor.py:90-146 | the early returns give the text `Transcription` specifies, and report whether the speech service was asked |
| VideoProcessor.TranscriptionOutcome | VideoSummarizer/video_processor.py:100-146 | the service is asked exactly when there is non-empty audio; without it the text is a fixed message or the failure text; never empty; a spoken transcript comes back unchanged; an empty one gives the no-speech message; a service error gives its classified text |
| VideoProcessor.Transcription | VideoSummarizer/video_processor.py:90-146 | how `transcribe_audio` ends; its contract is `VideoProcessor.TranscriptionOutcome` (the function itself carries none) |
| VideoCompressor.TargetBitrateBounds | VideoSummarizer/video_compressor.py:40-45 | for a positive duration the bitrate exists and is at least 200 kbps; above the floor it fits the target (bitrate × duration ≤ target kilobits < (bitrate+1) × duration) |
| VideoCompressor.TargetBitrateAntitone | VideoSummarizer/video_compressor.py:41-45 | a longer duration never gets a higher bitrate |
| VideoCompressor.TargetBitrate | VideoSummarizer/video_compressor.py:41-45 | no bitrate exactly when the duration is 0 (the division raises); otherwise at least 200 kbps |
| VideoCompressor.FirstSuccess | VideoSummarizer/video_compressor.py:121-132 | a fallback chain returns the output of the first attempt that succeeds, and the fallback when none does |
| VideoCompressor.EncodeChainFirstSuccess | VideoSummarizer/video_compressor.py:99-168 | `_compress_with_ffmpeg` is that chain over two-pass, then single-pass, with the encoder's input as last resort |
| VideoCompressor.EncodeChain | VideoSummarizer/video_compressor.py:99-143 | the path is the two-pass output, the single-pass output or the input; the two-pass output when both passes work; the input when neither two-pass nor single pass works |
| VideoCompressor.Workdir.RemovePassLogs | VideoSummarizer/video_compressor.py:134-137 | the clean-up loop removes exactly the two pass-log names from the directory and runs no encoder |
| VideoCompressor.Workdir.TrimVideo | VideoSummarizer/video_compressor.py:76-97 | the trimmed copy when ffmpeg succeeds, the input otherwise |
| VideoCompressor.Workdir.CompressSinglePass | VideoSummarizer/video_compressor.py:145-168 | the single-pass output when ffmpeg succeeds, the input otherwise; one single-pass run on the input at the given bitrate is logged and the directory is unchanged |
| VideoCompressor.Workdir.CompressWithFfmpeg | VideoSummarizer/video_compressor.py:99-143 | returns the chain's path; pass 1 leaves its logs, which are removed only after pass 2 succeeds; the runs logged are pass 1, pass 2 when pass 1 worked, and the single pass when either failed, all on the input at the given bitrate |
| VideoCompressor.Workdir.CompressVideo | VideoSummarizer/video_compressor.py:11-57 | returns `CompressedPath`, leaves the directory as `FilesAfter` describes, and logs exactly the encoder runs of `CompressionRuns`: none without a computed bitrate, otherwise the chain on the encoder input at that bitrate |
| VideoCompressor.SmallInputUntouched | VideoSummarizer/video_compressor.py:25-29 | an input no larger than the target comes back unchanged, with no bitrate computed and the directory untouched |
| VideoCompressor.CompressedPathCases | VideoSummarizer/video_compressor.py:11-57 | the result is the input, the trimmed copy (only when the input was too long and trimming worked), the two-pass output (only when both passes worked) or the single-pass output (only when two-pass did not) |
| VideoCompressor.CompressedPath | VideoSummarizer/video_compressor.py:11-57 | an input no larger than the target comes back; any result is the input, the trimmed copy or an encoder output |
| VideoCompressor.UsedBitrateFloor | VideoSummarizer/video_compressor.py:34-45 | the encoders, when run, get at least 200 kbps, computed from a duration of at most the maximum |
| VideoCompressor.CompressionRunsBitrate | VideoSummarizer/video_compressor.py:34-57 | the encoders run exactly when a bitrate is computed; every run reads the encoder input (trimmed copy or original) and gets that one bitrate, at least 200 kbps; the last run is pass 2 exactly when the two-pass output is returned |
| VideoCompressor.FailedProbeReturnsInput | VideoSummarizer/video_compressor.py:55-74 | a failed probe makes the division raise: the input comes back and the directory is untouched |
| VideoCompressor.LongInputTrimmed | VideoSummarizer/video_compressor.py:34-48 | a too-long input uses the bitrate for the maximum duration; the trimmed copy is encoded, or the untrimmed input when trimming fails |
| VideoCompressor.PassLogsCleaned | VideoSummarizer/video_compressor.py:121-139 | after a successful two-pass run no pass log is left; after a failed pass 2 the logs of pass 1 stay; no other entry changes |
| PdfGenerator.WordsPerSegment | VideoSummarizer/pdf_generator.py:307 | at least one word per segment, and no more than the words divided by the frames unless that is 1 |
| PdfGenerator.SegmentTranscript | VideoSummarizer/pdf_generator.py:290-322 | the loop returns what `Segments` specifies |
| PdfGenerator.SegmentShape | VideoSummarizer/pdf_generator.py:307-318 | every segment but the last holds at most k words, exactly k while that many remain; the last holds every word from (n-1)·k on |
| PdfGenerator.SegmentsPrefix | VideoSummarizer/pdf_generator.py:309-320 | the words of the first m segments are the first m·k words |
| PdfGenerator.SegmentsLossless | VideoSummarizer/pdf_generator.py:290-322 | `[transcript]` when it is empty or there is at most one frame, otherwise one segment per frame; the words of all segments, in order, are the transcript's words, even with fewer words than frames |
| PdfGenerator.Segments | VideoSummarizer/pdf_generator.py:290-322 | `_segment_transcript`; its contract is `PdfGenerator.SegmentsLossless` (the function itself carries none) |
| PdfGenerator.FormatTranscriptText | VideoSummarizer/pdf_generator.py:324-364 | the method returns what `FormattedParagraphs` specifies |
| PdfGenerator.ReflowParagraphs | VideoSummarizer/pdf_generator.py:340-362 | the sentence loop and the closing of the last paragraph give the paragraphs `Groups` specifies, each joined with spaces |
| PdfGenerator.WordsOfKept | VideoSummarizer/pdf_generator.py:345-347 | dropping a blank sentence or stripping a kept one loses no word |
| PdfGenerator.ReflowStepOk | VideoSummarizer/pdf_generator.py:344-358 | one turn of the loop keeps its invariant: the count is the open paragraph's words, closed paragraphs follow the 100-word rule, and the paragraphs hold exactly the kept sentences in order |
| PdfGenerator.ReflowInvariant | VideoSummarizer/pdf_generator.py:344-358 | the invariant holds after any number of sentences |
| PdfGenerator.FormattedNeverEmpty | VideoSummarizer/pdf_generator.py:334-364 | never an empty list: `[""]` for empty text, `[text]` when no sentence is non-blank, the grouped paragraphs otherwise |
| PdfGenerator.GroupsEmpty | VideoSummarizer/pdf_generator.py:361-364 | there is a paragraph exactly when some sentence is non-blank |
| PdfGenerator.GroupsFollowRule | VideoSummarizer/pdf_generator.py:340-362 | every paragraph but the last holds more than 100 words; each held at most 100 before its last sentence; together they hold exactly the non-blank stripped sentences, in order, so no sentence is split |
| PdfGenerator.WordsOfNonBlank | VideoSummarizer/pdf_generator.py:344-347 | the kept sentences hold the same words as all the sentences |
| PdfGenerator.WordsOfJoinEach | VideoSummarizer/pdf_generator.py:353 | joining each paragraph's sentences keeps their words |
| PdfGenerator.SentencesRejoin | VideoSummarizer/pdf_generator.py:338 | for text without '|', the sentence cut loses no word |
| PdfGenerator.FormattedKeepsWords | VideoSummarizer/pdf_generator.py:324-364 | for text without '|', the words of the paragraphs, in order, are the words of the text |
| PdfGenerator.FormattedParagraphs | VideoSummarizer/pdf_generator.py:324-364 | `_format_transcript_text`; its contract is `PdfGenerator.FormattedKeepsWords` (the function itself carries none) |
| PdfGenerator.FitImageFits | VideoSummarizer/pdf_generator.py:214-229 | the fitted image lies in the 5in × 3.5in box, keeps the original aspect ratio and touches the box in its constraining dimension |
| PdfGenerator.FitImage | VideoSummarizer/pdf_generator.py:214-229 | the size an image is drawn at; its contract is `PdfGenerator.FitImageFits` (the function itself carries none) |
| PdfGenerator.AddParagraphs | VideoSummarizer/pdf_generator.py:257-259 | one paragraph per text, in order, in the given style |
| PdfGenerator.AddFrameImage | VideoSummarizer/pdf_generator.py:200-245 | the image part of a frame's page: fitted image, caption and spacer, or the error paragraph and spacer |
| PdfGenerator.AddSegment | VideoSummarizer/pdf_generator.py:247-262 | the transcript part of a frame's page: heading and formatted paragraphs, the no-audio line for a blank segment, nothing for an empty or missing one |
| PdfGenerator.AddFrame | VideoSummarizer/pdf_generator.py:192-266 | a frame's page: heading, spacer, image part, transcript part, and a page break unless it is the last frame |
| PdfGenerator.CreateFramePages | VideoSummarizer/pdf_generator.py:180-268 | the loop concatenates the frames' pages, with segments cut only when there is a transcript and more than one frame |
| PdfGenerator.CreateTranscriptOnlyPages | VideoSummarizer/pdf_generator.py:270-288 | heading, spacer, then the formatted paragraphs or the no-transcript line |
| PdfGenerator.AddAppendixParagraphs | VideoSummarizer/pdf_generator.py:381-385 | each non-blank paragraph followed by a spacer, in order |
| PdfGenerator.CreateFullTranscriptSection | VideoSummarizer/pdf_generator.py:366-390 | page break, heading, spacer, then the appendix paragraphs or the no-transcript line |
| PdfGenerator.CreatePdf | VideoSummarizer/pdf_generator.py:89-129 | returns the temporary PDF path, and renders the title page, then the frame pages or the transcript-only page, then the appendix |
| PdfGenerator.SegmentBlockPlain | VideoSummarizer/pdf_generator.py:247-262 | a frame's transcript part holds no page break, frame heading or image |
| PdfGenerator.AppendixPlain | VideoSummarizer/pdf_generator.py:379-385 | the appendix paragraphs hold no page break, frame heading or image |
| PdfGenerator.ImageBlockShape | VideoSummarizer/pdf_generator.py:200-245 | the fitted image when the picture opens with a height; the error paragraph when it raises, including "division by zero" for a zero height; no marker, and every image in the box |
| PdfGenerator.FrameBlockCounts | VideoSummarizer/pdf_generator.py:192-266 | each frame's page opens with its "Frame at" heading, holds exactly one, keeps its image in the box, and ends in a page break exactly when it is not the last; just before that break (or at the end) it holds the "Transcript" heading and the reflowed stripped segment when the segment has non-whitespace text, or the heading and the no-audio line when it is whitespace only |
| PdfGenerator.PagesCount | VideoSummarizer/pdf_generator.py:264-266 | pages with one heading each and a break after all but the last add up to one heading per page and one break fewer than pages |
| PdfGenerator.FramePagesCounts | VideoSummarizer/pdf_generator.py:180-268 | the frame pages hold one heading per frame and a break after every frame but the last, whatever the pictures turn out to be; every image fits |
| PdfGenerator.TitlePageCounts | VideoSummarizer/pdf_generator.py:131-165 | the title page is six elements, opens with the report title, ends in its one page break and holds no frame heading or image |
| PdfGenerator.HeadedSection | VideoSummarizer/pdf_generator.py:370-376 | a page break and the appendix heading over plain elements give one break and no heading or image |
| PdfGenerator.AppendixBodyPlain | VideoSummarizer/pdf_generator.py:378-388 | what follows the appendix heading holds no marker and no image |
| PdfGenerator.AppendixCounts | VideoSummarizer/pdf_generator.py:366-390 | the appendix opens with a page break and its heading, and holds no other break, no frame heading and no image; after the heading's spacer come the non-blank reflowed paragraphs of the transcript, or "No transcript available" for an empty one |
| PdfGenerator.ContentCounts | VideoSummarizer/pdf_generator.py:167-178 | the content pages hold one frame heading per frame and one break fewer than frames; the transcript-only page holds neither |
| PdfGenerator.ContentOpening | VideoSummarizer/pdf_generator.py:167-178 | the content opens with the first frame's "Frame at" heading when there are frames, otherwise with the transcript-only page: its heading, a spacer, then the formatted paragraphs or the no-transcript line |
| PdfGenerator.StoryShape | VideoSummarizer/pdf_generator.py:114-127 | title page first, ending with a page break; then the first frame's "Frame at" heading, or without frames the transcript-only page (heading, spacer, formatted paragraphs or the no-transcript line); the appendix opens with a page break and its heading; one frame heading per frame; page breaks number frames + 1 (2 without frames); every image fits the box; the appendix body after its heading and spacer is the non-blank reflowed paragraphs, or "No transcript available" |
| PdfGenerator.Story | VideoSummarizer/pdf_generator.py:114-127 | the report's story; its contract is `PdfGenerator.StoryShape` (the function itself carries none) |
| PdfGenerator.SegmentBlockTexts | VideoSummarizer/pdf_generator.py:247-262 | the transcript-style paragraphs of a frame's transcript part: none for a missing or empty segment, the reflowed stripped segment, or the single no-audio line for a whitespace-only segment |
| PdfGenerator.FrameBlockTexts | VideoSummarizer/pdf_generator.py:192-266 | on a frame's page only the transcript part is set in the transcript style: heading, image, caption, error line and break add no transcript text |
| PdfGenerator.SegmentKeepsWords | VideoSummarizer/pdf_generator.py:247-259 | a segment without '|' that is empty or holds a word keeps exactly its words, in order, on its frame's page |
| PdfGenerator.SegmentsWellFormed | VideoSummarizer/pdf_generator.py:290-322 | with more than one frame there is one segment per frame, and each segment of a transcript without '|' is free of '|' and is empty or holds a word |
| PdfGenerator.ManyFramesKeepWords | VideoSummarizer/pdf_generator.py:180-268 | with more than one frame, the words of the frame pages' transcript paragraphs, in order, are the transcript's words |
| PdfGenerator.OneFrameTexts | VideoSummarizer/pdf_generator.py:185-190 | a single frame's page carries the transcript's words, or the no-audio line when the transcript is whitespace only |
| PdfGenerator.FramePagesKeepWords | VideoSummarizer/pdf_generator.py:180-268 | the frame pages carry the transcript's words in order, for any number of frames above zero, except the no-audio line for a single frame and a whitespace-only transcript |
| PdfGenerator.TranscriptOnlyTexts | VideoSummarizer/pdf_generator.py:270-288 | the transcript-only page carries the transcript's words in order, or "No transcript available." for an empty transcript |
| PdfGenerator.ContentKeepsWords | VideoSummarizer/pdf_generator.py:167-178 | the content pages carry the transcript's words, with the two fixed-line exceptions stated in full |
| PdfGenerator.AppendixWords | VideoSummarizer/pdf_generator.py:379-385 | dropping blank paragraphs from the appendix drops no word: its paragraphs hold the words of all the texts, in order |
| PdfGenerator.AppendixKeepsWords | VideoSummarizer/pdf_generator.py:366-390 | for a transcript without '|', the words of the appendix paragraphs, in order, are the transcript's words; an empty transcript gives the one "No transcript available" paragraph |
| PdfGenerator.StoryTexts | VideoSummarizer/pdf_generator.py:114-124 | the story's transcript-style paragraphs are those of the content pages, and its appendix-style paragraphs are those of the appendix |
| PdfGenerator.StoryKeepsWords | VideoSummarizer/pdf_generator.py:114-124 | the report carries the transcript twice: the appendix paragraphs and the pages before it each hold the transcript's words in order, apart from the fixed lines for an empty transcript and for a whitespace-only transcript with a single frame |
| App.UploadExtension | VideoSummarizer/app.py:95-97 | the suffix is `.mp4` or `.mov`: the lower-cased extension when it is one of them, `.mp4` otherwise |
| App.UploadExtensionsLower | VideoSummarizer/app.py:96 | both accepted suffixes are already lower case |
| App.TempPathExtension | VideoSummarizer/app.py:94-101 | the temporary file's name splits back into the suffix it was given, and normalising it again changes nothing |
| App.Session.constructor | VideoSummarizer/app.py:21-25 | a new session is not processing and holds no results |
| App.Session.Process | VideoSummarizer/app.py:55-248 | when the upload is at most 150 MB and a button is pressed, processing ends cleared and `processed_data` is what the run specifies; otherwise the session is unchanged |
| App.ProcessBlock | VideoSummarizer/app.py:92-217 | the block's steps give what `Run` specifies: nothing when full mode finds no frames, the results dictionary otherwise |
| App.SaveAndCompress | VideoSummarizer/app.py:94-119 | the processors work on the temporary upload up to 25 MB, and on the compressor's result (target 45 MB, five minutes) above |
| App.KeepTranscript | VideoSummarizer/app.py:146-149 | the transcript kept is `FinalTranscript` of the transcriber's text |
| App.FinalTranscript | VideoSummarizer/app.py:147-149 | never empty; the placeholder exactly when the text is empty, holds "failed" or "recognition failed" in any case, or already is the placeholder; otherwise the text itself |
| App.CreateReports | VideoSummarizer/app.py:151-197 | nothing in transcribe-only mode; the enhanced PDF and analysis when the key is set and the analysis gave an existing path; otherwise the basic PDF, or none when it raises, with analysis and enhanced path cleared |
| App.CreateBasicPdf | VideoSummarizer/app.py:193-197 | the basic PDF's path, or nothing when building it raises |
| App.SmallUploadUnchanged | VideoSummarizer/app.py:110-119 | up to 45 MB the processors see the upload itself: up to 25 MB the compressor is not called, and up to 45 MB it hands its input back |
| App.RunDependsOn | VideoSummarizer/app.py:203-214 | the stored results are fixed by the frames, the transcript and step 3's outcome |
| App.CompressorIrrelevantWhenSmall | VideoSummarizer/app.py:110-119 | whatever the compressor's probe, names and encoders would do, an upload of at most 45 MB gives the same results |
| App.TranscribeOnlyIgnoresFramesAndReports | VideoSummarizer/app.py:121-159 | in transcribe-only mode neither the frame extractor, nor the analysis, nor the PDF builder affects the results |
| App.RunShape | VideoSummarizer/app.py:121-214 | nothing is stored exactly when full mode finds no frames; the frame count, the transcript length (never 0) and the file name are stored; the transcript itself is kept exactly in transcribe-only mode, where there is no PDF, analysis or frame |
| App.Run | VideoSummarizer/app.py:121-214 | what the processing block stores; its contract is `App.RunShape` (the function itself carries none) |
| App.HasAiAnalysisIff | VideoSummarizer/app.py:160-211 | `has_ai_analysis` exactly when full mode has the key and an existing enhanced PDF; then that PDF is the main one and the analysis is kept; otherwise both are cleared and full mode falls back to the basic PDF |
| App.PlainReportMatchesResults | VideoSummarizer/app.py:189-211 | when the basic PDF is built it is the stored PDF, with one frame heading per counted frame and one page break more than frames |
| App.RecognitionFailedRedundant | VideoSummarizer/app.py:147 | the "recognition failed" test adds nothing to the "failed" test |
| App.KeptUnlessFailed | VideoSummarizer/app.py:147-149 | a non-empty text without "failed" in any case is kept as it is |
| App.FailurePrefixFails | VideoSummarizer/app.py:147 | any "Transcription failed: ..." text triggers the placeholder test |
| App.ExtractionFailureReplaced | VideoSummarizer/app.py:144-149 | a failed or raising audio extraction ends in the placeholder |
| App.NoAudioKept | VideoSummarizer/app.py:147-149 | the no-audio message passes through |
| App.NoSpeechKept | VideoSummarizer/app.py:147-149 | the no-speech message passes through |
| App.QuotaKept | VideoSummarizer/app.py:147-149 | the quota message passes through |
| App.InvalidKeyKept | VideoSummarizer/app.py:147-149 | the invalid-key message passes through |
| App.ApiErrorOutcome | VideoSummarizer/app.py:144-149 | a speech-service error keeps the quota or invalid-key message, and any other error gives the placeholder |
| App.TranscriptOutcomes | VideoSummarizer/app.py:144-149 | the full table of what the block keeps for each transcriber outcome. These pass through: the quota, invalid-key, no-audio and no-speech messages, and a spoken transcript without "failed". These give the placeholder: a failed extraction, any other service error, and a transcript that mentions "failed" |
| App.DisplayNameShape | VideoSummarizer/app.py:291-293 | `safe_name` holds only letters, digits, space, '-' and '_', does not end with a space, and is the filtered stem up to trailing whitespace |
| App.DisplayNameIdempotent | VideoSummarizer/app.py:293 | the safe name of a safe name is itself |
| App.DisplayName | VideoSummarizer/app.py:291-293 | `safe_name`; its contract is `App.DisplayNameShape` (the function itself carries none) |
| App.DownloadNameExtension | VideoSummarizer/app.py:305-314 | the report's download name splits into the safe name with its `_AI_Analysis` or `_summary` tag and the `.pdf` extension |
| App.DownloadName | VideoSummarizer/app.py:305-314 | the report's download name ends in `.pdf` |
| App.TranscriptFileNameExtension | VideoSummarizer/app.py:271 | the transcript's download name splits into the video's stem with `_transcript` and the `.txt` extension |
| App.TranscriptFileName | VideoSummarizer/app.py:271 | the transcript's download name ends in `.txt` |
| App.PreviewShape | VideoSummarizer/app.py:330 | the whole text up to 800 characters; a longer text cut to its first 800 followed by "...", so never more than 803 characters |
| App.Preview | VideoSummarizer/app.py:330 | the preview is at most 803 characters, and a text of at most 800 is shown whole |

## Left out

- The Streamlit page (headers, widgets, progress bar, messages, metrics, download buttons, `time.sleep`, `gc.collect`) is not modelled. `st.stop()` is modelled as the end of the block with nothing stored, and `st.rerun()` as the end of `Process`.
- The upload's own error handling (app.py:37-53) is left out. It depends on exceptions raised by the Streamlit uploader.
- The block's generic `except` (app.py:219-226) is left out. Every step in the model returns a value, so no exception path reaches it.
- `ad_analyzer` is not part of this model. Its `process_complete_analysis` is a parameter: it returns a text and a path, or raises.
- The block's diagnostic messages after an analysis failure (app.py:170-178) are left out. They only show text and do not change what is stored.
- Temporary files and clean-up are left out: `NamedTemporaryFile`, `mktemp`, `TemporaryDirectory`, and every `os.unlink`/`os.remove` except the pass-log removal. Their names are parameters.
- ffmpeg, ffprobe and JSON parsing of their output are left out. Each command's success, the stream list and the duration text are parameters. A probe whose output is not readable is the same as a failed probe (`None`).
- The speech service, PIL decoding, LANCZOS resampling, JPEG encoding, reportlab rendering and styles, Paragraph markup, and `datetime.now()` on the title page are left out.
  - The report is a sequence of abstract elements: a paragraph with a style and text, a spacer, an image with a size, a page break.
  - The title page's info paragraph carries only the file name and frame count.
- The `.1f` and `{n} B` texts of `format_file_size` are modelled as a unit and an exact value. The rounding to one decimal is left out, because it is floating-point text formatting.
- Floating point is modelled as exact reals. Timestamps, aspect ratios, sizes in MB and bitrates are therefore exact, and `int()` is truncation toward zero.
- Strings.IsAlnum: only ASCII letters and digits count as alphanumeric. Python's Unicode `isalnum` also accepts other scripts. This affects `create_safe_filename` and `safe_name`.
- Strings.Lower: lowers ASCII letters only. Python's Unicode `lower` also maps other scripts.
- Strings.ParseFloat accepts decimal notation only: surrounding whitespace, an optional sign, digits with at most one '.'. Exponents, `inf`, `nan` and underscores, which Python's `float()` also accepts, are treated as parse failures.
- Strings.SplitExt follows the POSIX `os.path.splitext`: only '/' separates path components. Windows separators are left out.
- Utils.ValidateVideoFile: the MIME type `mimetypes.guess_type` would give is a parameter, not derived from the name.
- `VideoProcessor.__init__` (reading `OPENAI_API_KEY`) and the printed diagnostics are left out.
- `test_upload.py` is left out. It is a manual driver that needs a real video and API keys.

=== FILE: app.dfy ===
// The processing block of the Streamlit front end: what one press of
// "Full Analysis" or "Transcribe Only" does to the session, and the names
// and preview the results page derives from what it stored.

module App {
  import opened Wrappers
  import opened Strings
  import opened Utils
  import VideoProcessor
  import VideoCompressor
  import PdfGenerator

  // ---------------------------------------------------------------------
  // Inputs
  // ---------------------------------------------------------------------

  /** The uploaded file (its name and byte count) and the two buttons. */
  datatype Upload = Upload(name: string, size: nat, analyze: bool, transcribe: bool)

  /** What analysing the ad returned: its text and the path of the
      enhanced PDF, or the message of the exception it raised. */
  datatype AnalysisReply = Analysis(text: string, enhancedPath: Option<string>) | AnalysisRaised(error: string)

  /** Everything outside the script that the block consults. The
      temporary upload file is named `tempPrefix` plus the suffix; the
      compressor's probe, temporary names and encoder outcomes; the frame
      extractor's probe, rasterising outcome and directory listing for a
      given video path, and how each frame file decodes; the audio
      extraction for a given video path and the speech service's answer;
      whether `ANTHROPIC_API_KEY` is set, what the analysis returned and
      which paths exist; and whether the basic PDF could be built, under
      which temporary name, and how each frame's picture opens. */
  datatype World = World(
    tempPrefix: string,
    compressProbe: Option<string>, compressNames: VideoCompressor.TempNames,
    compressCmds: VideoCompressor.Commands,
    probe: string -> Option<seq<VideoProcessor.Stream>>, rasterOk: string -> bool,
    listing: string -> seq<string>, decode: string -> Option<VideoProcessor.Dims>,
    audio: string -> VideoProcessor.AudioExtraction, reply: VideoProcessor.SpeechReply,
    apiKey: bool, analysis: AnalysisReply, exists_: string -> bool,
    pdfOk: bool, pdfTemp: string, open: VideoProcessor.FrameData -> PdfGenerator.Opened)

  /** The `processed_data` dictionary. */
  datatype ProcessedData = ProcessedData(
    pdfPath: Option<string>, enhancedPdfPath: Option<string>, analysisText: Option<string>,
    framesCount: nat, transcriptLength: nat, videoFilename: string, hasAiAnalysis: bool,
    transcribeOnly: bool, transcriptData: Option<string>)

  const MaxUploadMb: real := 150.0
  const CompressAboveMb: real := 25.0
  const CompressTargetMb: real := 45.0
  /** `compress_video`'s default `max_duration`, in seconds. */
  const MaxDuration: real := 300.0
  /** One frame every two seconds. */
  const FrameRate: real := 0.5
  const UploadExtensions: seq<string> := [".mp4", ".mov"]

  // Written as a concatenation of words, which keeps the character-level
  // facts proved about it cheap to check.
  const Placeholder := "Transcript " + "unavailable: " + "Audio " + "transcription " + "failed. " + "This "
    + "could " + "be " + "due " + "to " + "unclear " + "audio, " + "background " + "noise, " + "or " + "network "
    + "connectivity " + "issues. " + "The " + "analysis " + "will " + "focus " + "on " + "visual " + "elements "
    + "with " + "timestamps."

  // ---------------------------------------------------------------------
  // The steps of the block
  // ---------------------------------------------------------------------

  /** The upload is within 150 MB and one of the buttons was pressed. */
  predicate Starts(u: Upload) {
    FileSizeMb(Some(u.size)) <= MaxUploadMb && (u.analyze || u.transcribe)
  }

  /** The suffix of the temporary upload file: the lower-cased extension
      when it is `.mp4` or `.mov`, `.mp4` otherwise. */
  function UploadExtension(name: string): (r: string)
    ensures r in UploadExtensions
    ensures Lower(SplitExt(name).1) in UploadExtensions ==> r == Lower(SplitExt(name).1)
    ensures Lower(SplitExt(name).1) !in UploadExtensions ==> r == ".mp4"
  {
    var ext := Lower(SplitExt(name).1);
    if ext in UploadExtensions then ext else ".mp4"
  }

  function TempPath(u: Upload, w: World): string {
    w.tempPrefix + UploadExtension(u.name)
  }

  /** The video the processors work on: the upload itself up to 25 MB, the
      compressor's result (target 45 MB) above. */
  function WorkingVideo(u: Upload, w: World): string {
    var sizeMb := FileSizeMb(Some(u.size));
    if sizeMb > CompressAboveMb then
      VideoCompressor.CompressedPath(TempPath(u, w), sizeMb, CompressTargetMb, MaxDuration,
                                     w.compressProbe, w.compressNames, w.compressCmds)
    else TempPath(u, w)
  }

  /** The frames: none are extracted in transcribe-only mode. */
  function FramesFor(u: Upload, w: World): seq<VideoProcessor.FrameData> {
    var video := WorkingVideo(u, w);
    if u.transcribe then []
    else VideoProcessor.ExtractedFrames(w.probe(video), FrameRate, w.rasterOk(video), w.listing(video), w.decode)
  }

  /** The test the block applies to the transcriber's text. */
  predicate NeedsPlaceholder(t: string) {
    t == [] || Contains(Lower(t), "failed") || Contains(Lower(t), "recognition failed")
  }

  /** The transcript the block keeps. */
  function FinalTranscript(t: string): (r: string)
    ensures r != []
    ensures r == Placeholder <==> NeedsPlaceholder(t) || t == Placeholder
    ensures r != Placeholder ==> r == t
  {
    if NeedsPlaceholder(t) then Placeholder else t
  }

  function TranscriptFor(u: Upload, w: World): string {
    FinalTranscript(VideoProcessor.Transcription(w.audio(WorkingVideo(u, w)), w.reply).0)
  }

  /** The analysis produced an enhanced PDF path that is not empty and
      exists. */
  predicate EnhancedUsable(w: World) {
    w.analysis.Analysis? && w.analysis.enhancedPath.Some? && w.analysis.enhancedPath.value != []
    && w.exists_(w.analysis.enhancedPath.value)
  }

  /** What `create_pdf` leaves: its temporary file, or nothing when it
      raises. */
  function BasicPdf(w: World): Option<string> {
    if w.pdfOk then Some(w.pdfTemp) else None
  }

  /** `pdf_path`, `enhanced_pdf_path` and `analysis_text` after step 3. */
  datatype Reports = Reports(pdfPath: Option<string>, enhancedPdfPath: Option<string>, analysisText: Option<string>)

  function ReportsFor(transcribeOnly: bool, w: World): Reports {
    if transcribeOnly then Reports(None, None, None)
    else if w.apiKey && EnhancedUsable(w) then
      Reports(w.analysis.enhancedPath, w.analysis.enhancedPath, Some(w.analysis.text))
    else Reports(BasicPdf(w), None, None)
  }

  /** What the block stores in `processed_data` once it has started: nothing
      when full mode finds no frames, the results dictionary otherwise. */
  function Run(u: Upload, w: World): Option<ProcessedData> {
    var frames := FramesFor(u, w);
    if !u.transcribe && frames == [] then None
    else Some(Results(u, frames, TranscriptFor(u, w), ReportsFor(u.transcribe, w)))
  }

  /** The dictionary stored from the frames, the transcript and step 3's
      outcome. */
  function Results(u: Upload, frames: seq<VideoProcessor.FrameData>, transcript: string, reports: Reports): ProcessedData {
    ProcessedData(
      reports.pdfPath, reports.enhancedPdfPath, reports.analysisText,
      |frames|, if transcript != [] then |transcript| else 0, u.name,
      reports.enhancedPdfPath.Some? && reports.pdfPath == reports.enhancedPdfPath,
      u.transcribe, if u.transcribe then Some(transcript) else None)
  }

  /** The story of the basic PDF, when `create_pdf` is called and succeeds. */
  function PlainReport(u: Upload, w: World): Option<seq<PdfGenerator.Flowable>> {
    var frames := FramesFor(u, w);
    if u.transcribe || frames == [] || (w.apiKey && EnhancedUsable(w)) || !w.pdfOk then None
    else Some(PdfGenerator.Story(frames, w.open, TranscriptFor(u, w), u.name))
  }

  // ---------------------------------------------------------------------
  // The session
  // ---------------------------------------------------------------------

  /** The two session-state entries the block reads and writes. */
  class Session {
    var processing: bool
    var processedData: Option<ProcessedData>

    constructor()
      ensures !processing && processedData == None
    {
      processing := false;
      processedData := None;
    }

    /** One run of the script with the given upload and button presses.
        When the block starts it clears the results, and its `finally`
        always clears `processing`; a full run without frames stops with
        nothing stored. The buttons' `disabled` flag reads `processing`,
        which is false whenever the script reaches them, so they are never
        disabled and are not modelled. */
    method Process(u: Upload, w: World)
      modifies this
      ensures Starts(u) ==> !processing && processedData == Run(u, w)
      ensures !Starts(u) ==> processing == old(processing) && processedData == old(processedData)
    {
      var fileSizeMb := FileSizeMb(Some(u.size));
      if fileSizeMb > MaxUploadMb {
        return;
      }
      if !(u.analyze || u.transcribe) {
        return;
      }
      processing := true;
      processedData := None;
      processedData := ProcessBlock(u, w);
      processing := false;
    }
  }

  /** The body of the `try` block: what `processed_data` becomes. A full
      run that finds no frames stops with nothing stored. */
  method ProcessBlock(u: Upload, w: World) returns (data: Option<ProcessedData>)
    ensures data == Run(u, w)
  {
    var videoPath := SaveAndCompress(u, w);

    var transcribeOnly := u.transcribe;
    var framesData := [];
    if !transcribeOnly {
      framesData := VideoProcessor.ExtractFrames(w.probe(videoPath), FrameRate, w.rasterOk(videoPath),
                                                 w.listing(videoPath), w.decode);
      if framesData == [] {
        return None;
      }
    }
    assert framesData == FramesFor(u, w);

    var transcriptData, _ := VideoProcessor.TranscribeAudio(w.audio(videoPath), w.reply);
    transcriptData := KeepTranscript(transcriptData);
    assert transcriptData == TranscriptFor(u, w);

    var reports := CreateReports(transcribeOnly, framesData, transcriptData, u.name, w);

    data := Some(Results(u, framesData, transcriptData, reports));
  }

  /** Writes the upload to its temporary file and, above 25 MB, compresses
      it; returns the path the processors work on. */
  method SaveAndCompress(u: Upload, w: World) returns (videoPath: string)
    ensures videoPath == WorkingVideo(u, w)
  {
    var fileExtension := Lower(SplitExt(u.name).1);
    if fileExtension !in UploadExtensions {
      fileExtension := ".mp4";
    }
    var tempVideoPath := w.tempPrefix + fileExtension;
    var originalSizeMb := FileSizeMb(Some(u.size));
    if originalSizeMb > CompressAboveMb {
      videoPath := VideoCompressor.CompressedPath(tempVideoPath, originalSizeMb, CompressTargetMb, MaxDuration,
                                                  w.compressProbe, w.compressNames, w.compressCmds);
    } else {
      videoPath := tempVideoPath;
    }
  }

  /** Replaces an empty or failed transcript with the placeholder. */
  method KeepTranscript(transcriptData: string) returns (transcript: string)
    ensures transcript == FinalTranscript(transcriptData)
  {
    transcript := transcriptData;
    if transcript == [] || Contains(Lower(transcript), "failed") || Contains(Lower(transcript), "recognition failed") {
      transcript := Placeholder;
    }
  }

  /** Step 3: the enhanced PDF when the analysis produced one that exists,
      the basic PDF otherwise; nothing in transcribe-only mode. */
  method CreateReports(transcribeOnly: bool, framesData: seq<VideoProcessor.FrameData>, transcriptData: string,
                       videoFilename: string, w: World)
    returns (reports: Reports)
    ensures reports == ReportsFor(transcribeOnly, w)
  {
    var pdfPath: Option<string> := None;
    var analysisText: Option<string> := None;
    var enhancedPdfPath: Option<string> := None;
    if transcribeOnly {
    } else if w.apiKey {
      if w.analysis.Analysis? && w.analysis.enhancedPath.Some? && w.analysis.enhancedPath.value != []
         && w.exists_(w.analysis.enhancedPath.value) {
        analysisText := Some(w.analysis.text);
        enhancedPdfPath := w.analysis.enhancedPath;
        pdfPath := enhancedPdfPath;
      } else {
        pdfPath := CreateBasicPdf(framesData, transcriptData, videoFilename, w);
        analysisText := None;
        enhancedPdfPath := None;
      }
    } else {
      pdfPath := CreateBasicPdf(framesData, transcriptData, videoFilename, w);
    }
    reports := Reports(pdfPath, enhancedPdfPath, analysisText);
  }

  /** The `try: create_pdf(...) except: None` step. */
  method CreateBasicPdf(frames: seq<VideoProcessor.FrameData>, transcript: string, videoFilename: string, w: World)
    returns (pdfPath: Option<string>)
    ensures pdfPath == BasicPdf(w)
  {
    if w.pdfOk {
      var path, _ := PdfGenerator.CreatePdf(frames, w.open, transcript, videoFilename, w.pdfTemp);
      pdfPath := Some(path);
    } else {
      pdfPath := None;
    }
  }

  // ---------------------------------------------------------------------
  // What the block promises
  // ---------------------------------------------------------------------

  /** Both accepted suffixes are already lower case. */
  lemma UploadExtensionsLower()
    ensures forall e | e in UploadExtensions :: Lower(e) == e
  {
    assert Lower(".mp4") == ".mp4";
    assert Lower(".mov") == ".mov";
  }

  /** The temporary file's name splits back into the suffix it was given,
      and normalising it again changes nothing. */
  lemma TempPathExtension(u: Upload, w: World)
    requires w.tempPrefix != [] && w.tempPrefix[|w.tempPrefix| - 1] != '.' && w.tempPrefix[|w.tempPrefix| - 1] != '/'
    ensures SplitExt(TempPath(u, w)).1 == UploadExtension(u.name)
    ensures UploadExtension(TempPath(u, w)) == UploadExtension(u.name)
  {
    var ext := UploadExtension(u.name);
    assert '.' !in ext[1..] && '/' !in ext by {
      assert ext == ".mp4" || ext == ".mov";
    }
    SplitExtJoin(w.tempPrefix, ext);
    UploadExtensionsLower();
  }

  /** Up to the compressor's 45 MB target the processors see the upload
      itself: up to 25 MB the compressor is not called, and between 25 and
      45 MB it hands its input back. */
  lemma SmallUploadUnchanged(u: Upload, w: World)
    requires FileSizeMb(Some(u.size)) <= CompressTargetMb
    ensures WorkingVideo(u, w) == TempPath(u, w)
  {
  }

  /** A run is fixed by the frames, the transcript and step 3's outcome. */
  lemma RunDependsOn(u: Upload, w: World, w': World)
    requires FramesFor(u, w) == FramesFor(u, w') && TranscriptFor(u, w) == TranscriptFor(u, w')
    requires ReportsFor(u.transcribe, w) == ReportsFor(u.transcribe, w')
    ensures Run(u, w) == Run(u, w')
  {
  }

  /** Whatever the compressor's probe, temporary names and encoders would
      do, an upload of at most 45 MB gives the same results. */
  lemma CompressorIrrelevantWhenSmall(u: Upload, w: World, probe: Option<string>,
                                      names: VideoCompressor.TempNames, cmds: VideoCompressor.Commands)
    requires FileSizeMb(Some(u.size)) <= CompressTargetMb
    ensures Run(u, w) == Run(u, w.(compressProbe := probe, compressNames := names, compressCmds := cmds))
  {
    var w' := w.(compressProbe := probe, compressNames := names, compressCmds := cmds);
    SmallUploadUnchanged(u, w);
    SmallUploadUnchanged(u, w');
    assert TempPath(u, w) == TempPath(u, w');
    assert FramesFor(u, w) == FramesFor(u, w');
    assert TranscriptFor(u, w) == TranscriptFor(u, w');
    RunDependsOn(u, w, w');
  }

  /** In transcribe-only mode neither the frame extractor, nor the analysis,
      nor the PDF builder is consulted. */
  lemma TranscribeOnlyIgnoresFramesAndReports(u: Upload, w: World, w': World)
    requires u.transcribe
    requires w'.tempPrefix == w.tempPrefix && w'.compressProbe == w.compressProbe
    requires w'.compressNames == w.compressNames && w'.compressCmds == w.compressCmds
    requires w'.audio == w.audio && w'.reply == w.reply
    ensures Run(u, w) == Run(u, w')
  {
    assert WorkingVideo(u, w) == WorkingVideo(u, w');
  }

  /** A run stores nothing exactly when full mode finds no frames; what it
      stores counts the frames, keeps the (never empty) transcript's length
      and the upload's name, and keeps the transcript itself exactly in
      transcribe-only mode, where there is no PDF, analysis or frame. */
  lemma RunShape(u: Upload, w: World)
    ensures Run(u, w).None? <==> !u.transcribe && FramesFor(u, w) == []
    ensures Run(u, w).Some? ==>
      var d := Run(u, w).value;
      d.framesCount == |FramesFor(u, w)| && d.videoFilename == u.name
      && d.transcriptLength == |TranscriptFor(u, w)| > 0
      && (d.transcribeOnly <==> u.transcribe)
      && (u.transcribe ==> d.framesCount == 0 && d.transcriptData == Some(TranscriptFor(u, w))
                           && d.pdfPath == None && d.enhancedPdfPath == None && d.analysisText == None)
      && (!u.transcribe ==> d.framesCount > 0 && d.transcriptData == None)
  {
  }

  /** `has_ai_analysis` holds exactly when full mode has the key and the
      analysis produced an existing enhanced PDF; then that PDF is the main
      one and the analysis text is kept; otherwise neither the enhanced
      path nor the analysis text survives, and full mode falls back to the
      basic PDF. */
  lemma HasAiAnalysisIff(u: Upload, w: World)
    requires Run(u, w).Some?
    ensures var d := Run(u, w).value;
      (d.hasAiAnalysis <==> !u.transcribe && w.apiKey && EnhancedUsable(w))
      && (d.hasAiAnalysis ==> d.pdfPath == d.enhancedPdfPath == w.analysis.enhancedPath
                              && d.analysisText == Some(w.analysis.text))
      && (!d.hasAiAnalysis ==> d.enhancedPdfPath == None && d.analysisText == None)
      && (!d.hasAiAnalysis && !u.transcribe ==> d.pdfPath == BasicPdf(w))
  {
  }

  /** When the basic PDF is built, it holds one frame heading per frame the
      results count and one page break more than frames. */
  lemma PlainReportMatchesResults(u: Upload, w: World)
    requires PlainReport(u, w).Some?
    ensures Run(u, w).Some?
    ensures var d := Run(u, w).value; var s := PlainReport(u, w).value;
      d.pdfPath == Some(w.pdfTemp) && !d.hasAiAnalysis
      && PdfGenerator.Count(s, PdfGenerator.FrameMarker) == d.framesCount
      && PdfGenerator.Count(s, PdfGenerator.BreakMarker) == d.framesCount + 1
  {
    PdfGenerator.StoryShape(FramesFor(u, w), w.open, TranscriptFor(u, w), u.name);
  }

  // ---------------------------------------------------------------------
  // The transcript test
  // ---------------------------------------------------------------------

  /** The "recognition failed" test adds nothing to the "failed" one. */
  lemma RecognitionFailedRedundant(t: string)
    ensures NeedsPlaceholder(t) <==> t == [] || Contains(Lower(t), "failed")
  {
    if Contains(Lower(t), "recognition failed") {
      assert "recognition failed" == "recognition " + "failed";
      ContainsSuffix(Lower(t), "recognition ", "failed");
    }
  }

  /** A text that does not hold "failed" in any case is kept as it is. */
  lemma KeptUnlessFailed(t: string)
    requires t != [] && !Contains(Lower(t), "failed")
    ensures FinalTranscript(t) == t
  {
    RecognitionFailedRedundant(t);
  }

  /** Without an 'f' in either case, lower-casing gives no 'f'. */
  lemma LowerNoF(m: string)
    requires 'f' !in m && 'F' !in m
    ensures 'f' !in Lower(m)
  {
    forall i | 0 <= i < |m| ensures Lower(m)[i] != 'f' {
      assert m[i] in m;
    }
  }

  /** A text whose only 'f' (in either case) sits in its last part, where
      it is not followed by 'a', does not hold "failed" once lower-cased. */
  lemma FailedOnlyInTail(a: string, b: string)
    requires 'f' !in a && 'F' !in a
    requires forall i | 0 <= i < |b| - 1 :: !(LowerChar(b[i]) == 'f' && LowerChar(b[i + 1]) == 'a')
    ensures !Contains(Lower(a + b), "failed")
  {
    LowerNoF(a);
    LowerAppend(a, b);
    if Contains(Lower(a + b), "failed") {
      ContainsAfterPrefix(Lower(a), Lower(b), "failed");
      NotContainsFirstPair(Lower(b), "failed");
    }
  }

  /** Lower-casing a text that starts with `FailurePrefix` leaves "failed"
      at position 14. */
  lemma FailurePrefixFails(e: string)
    ensures Contains(Lower(VideoProcessor.FailurePrefix + e), "failed")
  {
    var m := VideoProcessor.FailurePrefix + e;
    assert m[14..20] == "failed";
    assert Lower(m)[14..20] == "failed" by {
      forall i | 14 <= i < 20 ensures Lower(m)[i] == m[i] { }
    }
    ContainsAt(Lower(m), "failed", 14);
  }

  /** An extraction that raised or failed gives the placeholder. */
  lemma ExtractionFailureReplaced(extraction: VideoProcessor.AudioExtraction, reply: VideoProcessor.SpeechReply)
    requires !extraction.Extracted?
    ensures FinalTranscript(VideoProcessor.Transcription(extraction, reply).0) == Placeholder
  {
    var t := VideoProcessor.Transcription(extraction, reply).0;
    if extraction.ExtractionRaised? {
      FailurePrefixFails(extraction.error);
    } else {
      assert t[..6] == "Failed";
      assert Lower(t)[..6] == "failed";
    }
  }

  /** The no-audio message passes through. */
  lemma NoAudioKept()
    ensures FinalTranscript(VideoProcessor.NoAudioMessage) == VideoProcessor.NoAudioMessage
  {
    FailedOnlyInTail("No " + "audio " + "content ", "found in the video.");
    KeptUnlessFailed(VideoProcessor.NoAudioMessage);
  }

  /** The no-speech message passes through. */
  lemma NoSpeechKept()
    ensures FinalTranscript(VideoProcessor.NoSpeechMessage) == VideoProcessor.NoSpeechMessage
  {
    LowerNoF(VideoProcessor.NoSpeechMessage);
    NotContainsFirstChar(Lower(VideoProcessor.NoSpeechMessage), "failed");
    KeptUnlessFailed(VideoProcessor.NoSpeechMessage);
  }

  /** The quota message has no 'f' in either case. */
  lemma QuotaNoF()
    ensures 'f' !in VideoProcessor.QuotaMessage && 'F' !in VideoProcessor.QuotaMessage
  {
    var a := "OpenAI " + "API " + "quota " + "exceeded. " + "Please " + "check ";
    assert 'f' !in a && 'F' !in a;
  }

  /** The quota message passes through. */
  lemma QuotaKept()
    ensures FinalTranscript(VideoProcessor.QuotaMessage) == VideoProcessor.QuotaMessage
  {
    QuotaNoF();
    LowerNoF(VideoProcessor.QuotaMessage);
    NotContainsFirstChar(Lower(VideoProcessor.QuotaMessage), "failed");
    KeptUnlessFailed(VideoProcessor.QuotaMessage);
  }

  /** The invalid-key message has no 'f' in either case before its last
      word. */
  lemma InvalidKeyHeadNoF()
    ensures var a := "OpenAI " + "API " + "key " + "is " + "invalid. " + "Please " + "check " + "your "
                     + "API " + "key ";
      'f' !in a && 'F' !in a
  {
  }

  /** The invalid-key message passes through. */
  lemma InvalidKeyKept()
    ensures FinalTranscript(VideoProcessor.InvalidKeyMessage) == VideoProcessor.InvalidKeyMessage
  {
    InvalidKeyHeadNoF();
    FailedOnlyInTail("OpenAI " + "API " + "key " + "is " + "invalid. " + "Please " + "check " + "your "
                     + "API " + "key ", "configuration.");
    KeptUnlessFailed(VideoProcessor.InvalidKeyMessage);
  }

  /** The quota and invalid-key messages pass through; any other service
      error gives the placeholder. */
  lemma ApiErrorOutcome(e: string)
    ensures FinalTranscript(VideoProcessor.ClassifyApiError(e))
      == if VideoProcessor.QuotaError(e) then VideoProcessor.QuotaMessage
         else if VideoProcessor.KeyError(e) then VideoProcessor.InvalidKeyMessage
         else Placeholder
  {
    if VideoProcessor.QuotaError(e) {
      QuotaKept();
    } else if VideoProcessor.KeyError(e) {
      InvalidKeyKept();
    } else {
      FailurePrefixFails(e);
    }
  }

  /** What the block keeps of each transcriber outcome: the quota,
      invalid-key, no-audio and no-speech messages and a spoken transcript
      without "failed" pass through; a failed extraction, any other
      service error, and a spoken transcript mentioning "failed" in any
      case give the placeholder. */
  lemma TranscriptOutcomes(extraction: VideoProcessor.AudioExtraction, reply: VideoProcessor.SpeechReply)
    ensures !extraction.Extracted? ==>
      FinalTranscript(VideoProcessor.Transcription(extraction, reply).0) == Placeholder
    ensures extraction.Extracted? && !VideoProcessor.HasAudio(extraction) ==>
      FinalTranscript(VideoProcessor.Transcription(extraction, reply).0) == VideoProcessor.NoAudioMessage
    ensures VideoProcessor.HasAudio(extraction) && reply == VideoProcessor.Transcript([]) ==>
      FinalTranscript(VideoProcessor.Transcription(extraction, reply).0) == VideoProcessor.NoSpeechMessage
    ensures VideoProcessor.HasAudio(extraction) && reply.Transcript? && reply.text != [] ==>
      FinalTranscript(VideoProcessor.Transcription(extraction, reply).0)
      == if Contains(Lower(reply.text), "failed") then Placeholder else reply.text
    ensures VideoProcessor.HasAudio(extraction) && reply.ApiError? ==>
      FinalTranscript(VideoProcessor.Transcription(extraction, reply).0)
      == if VideoProcessor.QuotaError(reply.error) then VideoProcessor.QuotaMessage
         else if VideoProcessor.KeyError(reply.error) then VideoProcessor.InvalidKeyMessage
         else Placeholder
  {
    var t := VideoProcessor.Transcription(extraction, reply).0;
    if !extraction.Extracted? {
      ExtractionFailureReplaced(extraction, reply);
    } else if !VideoProcessor.HasAudio(extraction) {
      assert t == VideoProcessor.NoAudioMessage;
      NoAudioKept();
    } else if reply.ApiError? {
      assert t == VideoProcessor.ClassifyApiError(reply.error);
      ApiErrorOutcome(reply.error);
    } else if reply.text == [] {
      assert t == VideoProcessor.NoSpeechMessage;
      NoSpeechKept();
    } else {
      assert t == reply.text;
      if !Contains(Lower(reply.text), "failed") {
        KeptUnlessFailed(reply.text);
      }
    }
  }

  // ---------------------------------------------------------------------
  // The results page
  // ---------------------------------------------------------------------

  /** The characters the download name keeps. */
  predicate DisplayChar(c: char) {
    IsAlnum(c) || c == ' ' || c == '-' || c == '_'
  }

  /** `safe_name`: the kept characters of the name's stem, trailing spaces
      removed. */
  function DisplayName(videoFilename: string): string {
    RStrip(Filter(SplitExt(videoFilename).0, DisplayChar))
  }

  /** The safe name holds only letters, digits, space, '-' and '_', does
      not end with a space, and is what the filter kept up to trailing
      whitespace. */
  lemma DisplayNameShape(videoFilename: string)
    ensures var r := DisplayName(videoFilename); var kept := Filter(SplitExt(videoFilename).0, DisplayChar);
      (forall i | 0 <= i < |r| :: DisplayChar(r[i]))
      && (r == [] || r[|r| - 1] != ' ')
      && |r| <= |kept| && r == kept[..|r|] && AllSpace(kept[|r|..])
  {
    var kept := Filter(SplitExt(videoFilename).0, DisplayChar);
    RStripShape(kept);
  }

  /** The safe name is its own safe name. */
  lemma DisplayNameIdempotent(videoFilename: string)
    ensures DisplayName(DisplayName(videoFilename)) == DisplayName(videoFilename)
  {
    var r := DisplayName(videoFilename);
    DisplayNameShape(videoFilename);
    assert '.' !in r by {
      forall i | 0 <= i < |r| ensures r[i] != '.' {
        assert DisplayChar(r[i]);
      }
    }
    SplitExtNoDot(r);
    assert Filter(r, DisplayChar) == r;
    if r != [] {
      DisplayCharNotSpace(r[|r| - 1]);
    }
    assert RStrip(r) == r;
  }

  /** Of the kept characters, only the space is whitespace. */
  lemma DisplayCharNotSpace(c: char)
    requires DisplayChar(c) && c != ' '
    ensures !IsSpace(c)
  {
  }

  /** The download name of the report. */
  function DownloadName(videoFilename: string, hasAiAnalysis: bool): (r: string)
    ensures |r| >= 4 && r[|r| - 4..] == ".pdf"
  {
    var tag := if hasAiAnalysis then "_AI_Analysis" else "_summary";
    var safe := DisplayName(videoFilename);
    assert (safe + tag + ".pdf")[|safe + tag + ".pdf"| - 4..] == ".pdf";
    safe + tag + ".pdf"
  }

  /** The download name of the transcript. */
  function TranscriptFileName(videoFilename: string): (r: string)
    ensures |r| >= 4 && r[|r| - 4..] == ".txt"
  {
    SplitExt(videoFilename).0 + "_transcript.txt"
  }

  /** The report's download name splits into the safe name with its tag
      and the `.pdf` extension. */
  lemma DownloadNameExtension(videoFilename: string, hasAiAnalysis: bool)
    ensures SplitExt(DownloadName(videoFilename, hasAiAnalysis))
      == (DisplayName(videoFilename) + (if hasAiAnalysis then "_AI_Analysis" else "_summary"), ".pdf")
  {
    var safe := DisplayName(videoFilename);
    var tag := if hasAiAnalysis then "_AI_Analysis" else "_summary";
    assert DownloadName(videoFilename, hasAiAnalysis) == (safe + tag) + ".pdf";
    SplitExtJoin(safe + tag, ".pdf");
  }

  /** The transcript's download name splits into the video's stem with its
      tag and the `.txt` extension. */
  lemma TranscriptFileNameExtension(videoFilename: string)
    ensures SplitExt(TranscriptFileName(videoFilename)) == (SplitExt(videoFilename).0 + "_transcript", ".txt")
  {
    var stem := SplitExt(videoFilename).0;
    assert TranscriptFileName(videoFilename) == (stem + "_transcript") + ".txt";
    SplitExtJoin(stem + "_transcript", ".txt");
  }

  const PreviewLength: nat := 800

  /** The analysis preview. */
  function Preview(analysisText: string): (r: string)
    ensures |r| <= PreviewLength + 3
    ensures |analysisText| <= PreviewLength ==> r == analysisText
  {
    if |analysisText| > PreviewLength then analysisText[..PreviewLength] + "..." else analysisText
  }

  /** The preview is the whole text up to 800 characters; a longer text is
      cut to its first 800 followed by "...", so the preview never exceeds
      803 characters and always starts with the text's opening. */
  lemma PreviewShape(analysisText: string)
    ensures var r := Preview(analysisText);
      |r| <= PreviewLength + 3
      && (|analysisText| <= PreviewLength ==> r == analysisText)
      && (|analysisText| > PreviewLength ==> |r| == PreviewLength + 3 && StartsWith(analysisText, r[..PreviewLength]) && r[PreviewLength..] == "...")
  {
  }
}

=== FILE: pdf_generator.dfy ===
/** pdf_generator.py: how the report's "story" is assembled. The transcript
    is cut into one segment per frame and reflowed into paragraphs of about
    100 words; each frame image is fitted into a 5in x 3.5in box. The story
    is a sequence of abstract elements; styles, markup and rendering belong
    to reportlab and are not modelled. */
module PdfGenerator {
  import opened Wrappers
  import opened Strings
  import opened Utils
  import VideoProcessor

  // ---------------------------------------------------------------------
  // _segment_transcript
  // ---------------------------------------------------------------------

  /** `max(1, len(words) // len(frames_data))`. */
  function WordsPerSegment(wordCount: nat, frameCount: nat): (k: nat)
    requires frameCount >= 1
    ensures k >= 1
    ensures k * frameCount <= wordCount || k == 1
  {
    var q := wordCount / frameCount;
    if q < 1 then 1 else q
  }

  /** A slice bound as Python clamps it to the list length. */
  function Clamp(i: nat, n: nat): nat {
    if i <= n then i else n
  }

  /** The words of segment `i` of `n`: `words[i*k:(i+1)*k]`, or
      `words[i*k:]` for the last one. */
  function SegmentWords(words: seq<string>, n: nat, k: nat, i: nat): seq<string>
    requires i < n
  {
    var start := Clamp(i * k, |words|);
    if i == n - 1 then words[start..] else words[start..Clamp(i * k + k, |words|)]
  }

  /** The texts of the first `m` of `n` segments. */
  function SegmentTexts(words: seq<string>, n: nat, k: nat, m: nat): (r: seq<string>)
    requires m <= n
    ensures |r| == m
  {
    if m == 0 then [] else SegmentTexts(words, n, k, m - 1) + [Join(" ", SegmentWords(words, n, k, m - 1))]
  }

  /** What `_segment_transcript` returns for a transcript and a number of
      frames. */
  function Segments(transcript: string, frameCount: nat): seq<string> {
    if transcript == [] || frameCount <= 1 then [transcript]
    else
      var words := Split(transcript);
      SegmentTexts(words, frameCount, WordsPerSegment(|words|, frameCount), frameCount)
  }

  method SegmentTranscript(transcript: string, frames: seq<VideoProcessor.FrameData>)
    returns (segments: seq<string>)
    ensures segments == Segments(transcript, |frames|)
  {
    if transcript == [] || |frames| <= 1 {
      return [transcript];
    }
    var words := Split(transcript);
    var wordsPerSegment := WordsPerSegment(|words|, |frames|);
    segments := [];
    var i := 0;
    while i < |frames|
      invariant 0 <= i <= |frames|
      invariant segments == SegmentTexts(words, |frames|, wordsPerSegment, i)
    {
      var startIdx := Clamp(i * wordsPerSegment, |words|);
      var endIdx := Clamp(i * wordsPerSegment + wordsPerSegment, |words|);
      var segmentWords;
      if i == |frames| - 1 {
        segmentWords := words[startIdx..];
      } else {
        segmentWords := words[startIdx..endIdx];
      }
      segments := segments + [Join(" ", segmentWords)];
      i := i + 1;
    }
  }

  /** Every segment but the last holds at most `k` words, exactly `k` while
      that many remain, and the last holds every word from `(n-1)*k` on. */
  lemma SegmentShape(words: seq<string>, n: nat, k: nat, i: nat)
    requires i < n && k >= 1
    ensures i < n - 1 ==> |SegmentWords(words, n, k, i)| <= k
    ensures i < n - 1 && (i + 1) * k <= |words| ==>
      SegmentWords(words, n, k, i) == words[i * k..(i + 1) * k]
    ensures i == n - 1 ==>
      SegmentWords(words, n, k, i) == (if i * k <= |words| then words[i * k..] else [])
  {
  }

  /** The words of the first `m` segments are the words of the first
      `m*k` words. */
  lemma {:induction false} SegmentsPrefix(words: seq<string>, n: nat, k: nat, m: nat)
    requires m < n
    ensures WordsOf(SegmentTexts(words, n, k, m)) == WordsOf(words[..Clamp(m * k, |words|)])
  {
    if m > 0 {
      var prev := SegmentTexts(words, n, k, m - 1);
      var seg := SegmentWords(words, n, k, m - 1);
      var lo, hi := Clamp((m - 1) * k, |words|), Clamp(m * k, |words|);
      assert WordsOf(prev) == WordsOf(words[..lo]) by {
        SegmentsPrefix(words, n, k, m - 1);
      }
      assert words[..lo] + seg == words[..hi] by {
        SegmentMiddle(words, n, k, m - 1);
        SliceJoin(words, lo, hi);
      }
      assert Split(Join(" ", seg)) == WordsOf(seg) by {
        SplitJoin(seg);
      }
      assert WordsOf(SegmentTexts(words, n, k, m)) == WordsOf(prev) + Split(Join(" ", seg)) by {
        WordsOfSnoc(prev, Join(" ", seg));
      }
      WordsOfAppend(words[..lo], seg);
    }
  }

  lemma SegmentMiddle(words: seq<string>, n: nat, k: nat, i: nat)
    requires i < n - 1
    ensures SegmentWords(words, n, k, i) == words[Clamp(i * k, |words|)..Clamp((i + 1) * k, |words|)]
  {
    assert i * k + k == (i + 1) * k;
  }

  lemma SliceJoin(s: seq<string>, lo: nat, hi: nat)
    requires lo <= hi <= |s|
    ensures s[..lo] + s[lo..hi] == s[..hi]
  {
  }

  /** Segmentation loses and reorders nothing: one segment per frame (a
      single one when the transcript is empty or there is at most one
      frame), and the words of all segments, in order, are the words of the
      transcript, even when there are fewer words than frames. */
  lemma SegmentsLossless(transcript: string, frameCount: nat)
    ensures |Segments(transcript, frameCount)|
      == if transcript == [] || frameCount <= 1 then 1 else frameCount
    ensures WordsOf(Segments(transcript, frameCount)) == Split(transcript)
  {
    if transcript == [] || frameCount <= 1 {
      assert WordsOf([transcript]) == Split(transcript) + WordsOf([]);
    } else {
      var words := Split(transcript);
      var n := frameCount;
      var k := WordsPerSegment(|words|, n);
      var prev := SegmentTexts(words, n, k, n - 1);
      var seg := SegmentWords(words, n, k, n - 1);
      var lo := Clamp((n - 1) * k, |words|);
      assert WordsOf(prev) == WordsOf(words[..lo]) by {
        SegmentsPrefix(words, n, k, n - 1);
      }
      assert Split(Join(" ", seg)) == WordsOf(seg) by {
        SplitJoin(seg);
      }
      assert WordsOf(SegmentTexts(words, n, k, n)) == WordsOf(prev) + Split(Join(" ", seg)) by {
        WordsOfSnoc(prev, Join(" ", seg));
      }
      assert words[..lo] + seg == words;
      WordsOfAppend(words[..lo], seg);
      assert WordsOf(words) == words by {
        SplitWords(transcript);
        WordsOfWords(words);
      }
    }
  }

  lemma WordsOfSnoc(ss: seq<string>, x: string)
    ensures WordsOf(ss + [x]) == WordsOf(ss) + Split(x)
  {
    WordsOfAppend(ss, [x]);
    assert WordsOf([x]) == Split(x) + WordsOf([]);
  }

  /** The concatenation of a list of lists. */
  function Concat<T>(parts: seq<seq<T>>): seq<T>
    decreases |parts|
  {
    if parts == [] then [] else Concat(parts[..|parts| - 1]) + parts[|parts| - 1]
  }

  lemma PrefixSnoc<T>(s: seq<T>, i: nat)
    requires i < |s|
    ensures s[..i + 1] == s[..i] + [s[i]]
  {
  }

  lemma ConcatSnoc<T>(parts: seq<seq<T>>, x: seq<T>)
    ensures Concat(parts + [x]) == Concat(parts) + x
  {
    assert (parts + [x])[..|parts|] == parts;
  }

  /** Concatenation starts with the first part. */
  lemma {:induction false} ConcatCons<T>(parts: seq<seq<T>>)
    requires parts != []
    ensures Concat(parts) == parts[0] + Concat(parts[1..])
    decreases |parts|
  {
    if |parts| == 1 {
      assert parts[..0] == [] && parts[1..] == [];
    } else {
      var init := parts[..|parts| - 1];
      ConcatCons(init);
      assert parts[1..] == init[1..] + [parts[|parts| - 1]];
      ConcatSnoc(init[1..], parts[|parts| - 1]);
    }
  }

  // ---------------------------------------------------------------------
  // _format_transcript_text
  // ---------------------------------------------------------------------

  /** The text cut after every `. `, `? ` and `! `: the space becomes `|`
      and the text is split at `|`. */
  function Sentences(text: string): seq<string> {
    SplitOn(ReplaceAll(ReplaceAll(ReplaceAll(text, ". ", ".|"), "? ", "?|"), "! ", "!|"), '|')
  }

  /** The state of the sentence loop: the paragraphs closed so far (each a
      list of sentences), the open paragraph and its word count. */
  datatype Reflow = Reflow(closed: seq<seq<string>>, current: seq<string>, words: nat)

  const ParagraphWords: nat := 100

  /** One turn of the sentence loop. */
  function ReflowStep(st: Reflow, sentence: string): Reflow {
    var s := Strip(sentence);
    if s == [] then st
    else
      var open := if st.words > ParagraphWords && st.current != [] then Reflow(st.closed + [st.current], [], 0) else st;
      Reflow(open.closed, open.current + [s], open.words + |Split(s)|)
  }

  /** The loop state after the given sentences. */
  function ReflowAll(sentences: seq<string>): Reflow
    decreases |sentences|
  {
    if sentences == [] then Reflow([], [], 0)
    else ReflowStep(ReflowAll(sentences[..|sentences| - 1]), sentences[|sentences| - 1])
  }

  /** The paragraphs (as sentence lists) the loop produces. */
  function Groups(sentences: seq<string>): seq<seq<string>> {
    var st := ReflowAll(sentences);
    if st.current != [] then st.closed + [st.current] else st.closed
  }

  /** Each sentence list joined with a space. */
  function JoinEach(groups: seq<seq<string>>): (r: seq<string>)
    ensures |r| == |groups|
    decreases |groups|
  {
    if groups == [] then [] else JoinEach(groups[..|groups| - 1]) + [Join(" ", groups[|groups| - 1])]
  }

  lemma JoinEachSnoc(groups: seq<seq<string>>, g: seq<string>)
    ensures JoinEach(groups + [g]) == JoinEach(groups) + [Join(" ", g)]
  {
    assert (groups + [g])[..|groups|] == groups;
  }

  lemma ReflowAllSnoc(sentences: seq<string>, i: nat)
    requires i < |sentences|
    ensures ReflowAll(sentences[..i + 1]) == ReflowStep(ReflowAll(sentences[..i]), sentences[i])
  {
    assert sentences[..i + 1][..i] == sentences[..i];
  }

  /** What `_format_transcript_text` returns. */
  function FormattedParagraphs(text: string): seq<string> {
    if text == [] then [""]
    else
      var paragraphs := JoinEach(Groups(Sentences(text)));
      if paragraphs != [] then paragraphs else [text]
  }

  method FormatTranscriptText(text: string) returns (paragraphs: seq<string>)
    ensures paragraphs == FormattedParagraphs(text)
  {
    if text == [] {
      return [""];
    }
    var sentences := Sentences(text);
    paragraphs := ReflowParagraphs(sentences);
    if paragraphs == [] {
      paragraphs := [text];
    }
  }

  /** The sentence loop of `_format_transcript_text` and the closing of the
      last paragraph. */
  method ReflowParagraphs(sentences: seq<string>) returns (paragraphs: seq<string>)
    ensures paragraphs == JoinEach(Groups(sentences))
  {
    paragraphs := [];
    var currentParagraph: seq<string> := [];
    var wordsInParagraph: nat := 0;
    ghost var st := Reflow([], [], 0);
    var i := 0;
    while i < |sentences|
      invariant 0 <= i <= |sentences|
      invariant st == ReflowAll(sentences[..i])
      invariant paragraphs == JoinEach(st.closed)
      invariant currentParagraph == st.current && wordsInParagraph == st.words
    {
      ReflowAllSnoc(sentences, i);
      var sentence := Strip(sentences[i]);
      if sentence != [] {
        var wordsInSentence := |Split(sentence)|;
        if wordsInParagraph > ParagraphWords && currentParagraph != [] {
          JoinEachSnoc(st.closed, currentParagraph);
          paragraphs := paragraphs + [Join(" ", currentParagraph)];
          currentParagraph := [];
          wordsInParagraph := 0;
        }
        currentParagraph := currentParagraph + [sentence];
        wordsInParagraph := wordsInParagraph + wordsInSentence;
      }
      st := ReflowStep(st, sentences[i]);
      assert st == ReflowAll(sentences[..i + 1]);
      i := i + 1;
    }
    assert sentences[..i] == sentences;
    if currentParagraph != [] {
      JoinEachSnoc(st.closed, currentParagraph);
      paragraphs := paragraphs + [Join(" ", currentParagraph)];
    }
  }

  /** The non-blank sentences, stripped, in order. */
  function NonBlank(sentences: seq<string>): seq<string>
    decreases |sentences|
  {
    if sentences == [] then []
    else NonBlank(sentences[..|sentences| - 1]) + KeptSentence(sentences[|sentences| - 1])
  }

  /** A sentence, stripped, unless it is blank. */
  function KeptSentence(sentence: string): seq<string> {
    var s := Strip(sentence);
    if s == [] then [] else [s]
  }

  /** Dropping a blank sentence or stripping a kept one loses no word. */
  lemma WordsOfKept(sentence: string)
    ensures WordsOf(KeptSentence(sentence)) == Split(sentence)
  {
    var s := Strip(sentence);
    SplitStrip(sentence);
    if s == [] {
      SplitEmpty(s);
    } else {
      assert WordsOf([s]) == Split(s) + WordsOf([]);
    }
  }

  /** A closed paragraph holds more than 100 words, and held at most 100
      before its last sentence. */
  predicate ClosedWell(g: seq<string>) {
    g != [] && |WordsOf(g)| > ParagraphWords && |WordsOf(g[..|g| - 1])| <= ParagraphWords
  }

  /** A paragraph held at most 100 words before its last sentence. */
  predicate OpenWell(g: seq<string>) {
    g != [] ==> |WordsOf(g[..|g| - 1])| <= ParagraphWords
  }

  /** What the sentence loop keeps true: the count is the open paragraph's
      word count, every closed paragraph was closed by the rule, and the
      paragraphs hold exactly the sentences `kept` so far, in order. */
  predicate ReflowOk(st: Reflow, kept: seq<string>) {
    && st.words == |WordsOf(st.current)|
    && (forall j | 0 <= j < |st.closed| :: ClosedWell(st.closed[j]))
    && OpenWell(st.current)
    && Concat(st.closed) + st.current == kept
  }

  lemma ReflowStepOk(st: Reflow, kept: seq<string>, sentence: string)
    requires ReflowOk(st, kept)
    ensures ReflowOk(ReflowStep(st, sentence), kept + KeptSentence(sentence))
  {
    var s := Strip(sentence);
    var next := ReflowStep(st, sentence);
    if s == [] {
      assert next == st && kept + KeptSentence(sentence) == kept;
    } else if st.words > ParagraphWords && st.current != [] {
      assert next == Reflow(st.closed + [st.current], [s], |Split(s)|)
        && kept + KeptSentence(sentence) == kept + [s];
      ReflowCloseOk(st, kept, s);
    } else {
      assert next == Reflow(st.closed, st.current + [s], st.words + |Split(s)|)
        && kept + KeptSentence(sentence) == kept + [s];
      ReflowAppendOk(st, kept, s);
    }
  }

  /** Adding a sentence to a paragraph that has not reached the limit. */
  lemma ReflowAppendOk(st: Reflow, kept: seq<string>, s: string)
    requires ReflowOk(st, kept)
    requires !(st.words > ParagraphWords && st.current != [])
    ensures ReflowOk(Reflow(st.closed, st.current + [s], st.words + |Split(s)|), kept + [s])
  {
    WordsOfSnoc(st.current, s);
    assert (st.current + [s])[..|st.current|] == st.current;
  }

  /** Closing a paragraph past the limit and opening one with the sentence. */
  lemma ReflowCloseOk(st: Reflow, kept: seq<string>, s: string)
    requires ReflowOk(st, kept)
    requires st.words > ParagraphWords && st.current != []
    ensures ReflowOk(Reflow(st.closed + [st.current], [s], |Split(s)|), kept + [s])
  {
    ConcatSnoc(st.closed, st.current);
    assert ClosedWell(st.current);
    WordsOfSnoc([], s);
    assert [s][..0] == [];
    assert [] + [s] == [s];
  }

  lemma {:induction false} ReflowInvariant(sentences: seq<string>)
    ensures ReflowOk(ReflowAll(sentences), NonBlank(sentences))
    decreases |sentences|
  {
    if sentences != [] {
      var m := |sentences| - 1;
      ReflowInvariant(sentences[..m]);
      ReflowStepOk(ReflowAll(sentences[..m]), NonBlank(sentences[..m]), sentences[m]);
    }
  }

  /** `_format_transcript_text` never returns an empty list: `[""]` for
      empty text, `[text]` when no sentence is non-blank, and otherwise one
      paragraph per group of sentences. */
  lemma FormattedNeverEmpty(text: string)
    ensures FormattedParagraphs(text) != []
    ensures text == [] ==> FormattedParagraphs(text) == [""]
    ensures text != [] && NonBlank(Sentences(text)) == [] ==> FormattedParagraphs(text) == [text]
    ensures text != [] && NonBlank(Sentences(text)) != [] ==>
      FormattedParagraphs(text) == JoinEach(Groups(Sentences(text)))
  {
    var ss := Sentences(text);
    assert Groups(ss) == [] <==> NonBlank(ss) == [] by { GroupsEmpty(ss); }
  }

  /** There is a paragraph exactly when some sentence is non-blank. */
  lemma GroupsEmpty(sentences: seq<string>)
    ensures Groups(sentences) == [] <==> NonBlank(sentences) == []
  {
    GroupsFollowRule(sentences);
    var gs := Groups(sentences);
    if gs != [] {
      ConcatNonEmpty(gs);
    }
  }

  lemma ConcatNonEmpty(gs: seq<seq<string>>)
    requires gs != [] && gs[|gs| - 1] != []
    ensures Concat(gs) != []
  {
  }

  /** Paragraphs follow the 100-word rule and never split a sentence: every
      paragraph but the last holds more than 100 words and every paragraph
      held at most 100 before its last sentence; together the paragraphs
      hold exactly the non-blank sentences, stripped, in order. */
  lemma GroupsFollowRule(sentences: seq<string>)
    ensures var gs := Groups(sentences);
      && (forall j | 0 <= j < |gs| :: gs[j] != [] && OpenWell(gs[j]))
      && (forall j | 0 <= j < |gs| - 1 :: |WordsOf(gs[j])| > ParagraphWords)
      && Concat(gs) == NonBlank(sentences)
  {
    var st := ReflowAll(sentences);
    ReflowInvariant(sentences);
    var gs := Groups(sentences);
    if st.current != [] {
      assert gs[..|gs| - 1] == st.closed;
    } else {
      assert Concat(st.closed) + st.current == Concat(st.closed);
    }
  }

  /** Blank sentences carry no words, and stripping keeps a sentence's
      words. */
  lemma {:induction false} WordsOfNonBlank(sentences: seq<string>)
    ensures WordsOf(NonBlank(sentences)) == WordsOf(sentences)
    decreases |sentences|
  {
    if sentences != [] {
      var m := |sentences| - 1;
      var front, last := sentences[..m], sentences[m];
      WordsOfNonBlank(front);
      assert WordsOf(sentences) == WordsOf(front) + Split(last) by {
        assert sentences == front + [last];
        WordsOfSnoc(front, last);
      }
      assert WordsOf(NonBlank(sentences)) == WordsOf(NonBlank(front)) + WordsOf(KeptSentence(last)) by {
        WordsOfAppend(NonBlank(front), KeptSentence(last));
      }
      WordsOfKept(last);
    }
  }

  /** Joining each paragraph keeps the words of its sentences. */
  lemma {:induction false} WordsOfJoinEach(groups: seq<seq<string>>)
    ensures WordsOf(JoinEach(groups)) == WordsOf(Concat(groups))
    decreases |groups|
  {
    if groups != [] {
      var m := |groups| - 1;
      WordsOfJoinEach(groups[..m]);
      WordsOfSnoc(JoinEach(groups[..m]), Join(" ", groups[m]));
      WordsOfAppend(Concat(groups[..m]), groups[m]);
      SplitJoin(groups[m]);
    }
  }

  /** The sentences, glued back with spaces, are the text again when it
      has no `|`. */
  lemma SentencesRejoin(text: string)
    requires '|' !in text
    ensures Split(Join(" ", Sentences(text))) == Split(text)
  {
    var r1 := ReplaceAll(text, ". ", ".|");
    var r2 := ReplaceAll(r1, "? ", "?|");
    var r3 := ReplaceAll(r2, "! ", "!|");
    JoinSplitOn(r3, '|', ' ');
    ReplaceAllSpaceUndone(r2, '!', '|');
    ReplaceAllSpaceUndone(r1, '?', '|');
    ReplaceAllSpaceUndone(text, '.', '|');
    ReplaceCharAbsent(text, '|', ' ');
    assert Join(" ", Sentences(text)) == text;
  }

  /** For text without `|`, the words of the paragraphs, in order, are the
      words of the text. */
  lemma FormattedKeepsWords(text: string)
    requires '|' !in text
    ensures WordsOf(FormattedParagraphs(text)) == Split(text)
  {
    if text == [] {
      assert WordsOf([""]) == Split("") + WordsOf([]);
    } else if JoinEach(Groups(Sentences(text))) == [] {
      assert WordsOf([text]) == Split(text) + WordsOf([]);
    } else {
      GroupsFollowRule(Sentences(text));
      WordsOfJoinEach(Groups(Sentences(text)));
      WordsOfNonBlank(Sentences(text));
      SplitJoin(Sentences(text));
      SentencesRejoin(text);
    }
  }

  // ---------------------------------------------------------------------
  // Fitting a frame into the page
  // ---------------------------------------------------------------------

  /** Points per inch. */
  const Inch: real := 72.0
  /** The box a frame image is fitted into: 5in by 3.5in. */
  const MaxImageWidth: real := 5.0 * Inch
  const MaxImageHeight: real := 3.5 * Inch

  /** The width and height an image is drawn at: constrained by the width
      when it is relatively wider than the box, otherwise by the height. */
  function FitImage(width: nat, height: nat): (real, real)
    requires height > 0
  {
    var aspect := width as real / height as real;
    if aspect > MaxImageWidth / MaxImageHeight then (MaxImageWidth, MaxImageWidth / aspect)
    else (MaxImageHeight * aspect, MaxImageHeight)
  }

  /** The fitted image lies inside the box, keeps the original aspect ratio
      and touches the box in its constraining dimension. */
  lemma FitImageFits(width: nat, height: nat)
    requires height > 0
    ensures var (w, h) := FitImage(width, height);
      && 0.0 <= w <= MaxImageWidth && 0.0 < h <= MaxImageHeight
      && w * height as real == h * width as real
      && (w == MaxImageWidth || h == MaxImageHeight)
  {
    var W, H := width as real, height as real;
    var aspect := W / H;
    assert aspect * H == W;
    var ratio := MaxImageWidth / MaxImageHeight;
    if aspect > ratio {
      var h := MaxImageWidth / aspect;
      assert h * aspect == MaxImageWidth;
      assert MaxImageWidth * H == h * W by {
        assert h * W == h * (aspect * H);
        assert h * (aspect * H) == (h * aspect) * H;
      }
    } else {
      var w := MaxImageHeight * aspect;
      assert w * H == MaxImageHeight * W by {
        assert w * H == MaxImageHeight * (aspect * H);
      }
    }
  }

  // ---------------------------------------------------------------------
  // The story
  // ---------------------------------------------------------------------

  /** The paragraph styles of the report. */
  datatype Style = TitleStyle | SubtitleStyle | TimestampStyle | TranscriptStyle
                 | CaptionStyle | FullTranscriptStyle | Normal | Heading2 | Heading3

  /** The elements the report is built from. The title page's file
      information and description are kept as their own kinds: their markup
      and the generation time are not modelled. */
  datatype Flowable =
    | Paragraph(style: Style, text: string)
    | FileInfo(filename: string, frameCount: nat)
    | Description
    | Spacer(height: real)
    | Image(width: real, height: real)
    | PageBreak

  /** What opening a frame's JPEG data gives: its size, or the error text. */
  datatype Opened = Opened(width: nat, height: nat) | OpenError(message: string)

  const ReportTitle := "\U{1F4F9} Video Summary Report"
  const TranscriptHeading := "\U{1F4DD} Transcript"
  const CompleteTranscriptHeading := "\U{1F4DD} Complete Transcript"
  const AppendixHeading := "\U{1F4CB} Complete Transcript"
  const NoAudioText := "No audio detected for this time segment."
  const NoTranscriptText := "No transcript available."
  const NoTranscriptShort := "No transcript available"
  const FrameErrorPrefix := "Error displaying frame: "
  /** Python's message for a true division by an integer zero. */
  const DivisionByZero := "division by zero"

  /** `_create_title_page`. */
  function TitlePage(videoFilename: string, frameCount: nat): seq<Flowable> {
    [Paragraph(TitleStyle, ReportTitle), Spacer(0.5 * Inch), FileInfo(videoFilename, frameCount),
     Spacer(1.0 * Inch), Description, PageBreak]
  }

  /** One paragraph per text, in order. */
  function Paragraphs(style: Style, texts: seq<string>): (r: seq<Flowable>)
    ensures |r| == |texts|
    ensures forall i | 0 <= i < |texts| :: r[i] == Paragraph(style, texts[i])
    decreases |texts|
  {
    if texts == [] then [] else Paragraphs(style, texts[..|texts| - 1]) + [Paragraph(style, texts[|texts| - 1])]
  }

  method AddParagraphs(style: Style, texts: seq<string>) returns (story: seq<Flowable>)
    ensures story == Paragraphs(style, texts)
  {
    story := [];
    var i := 0;
    while i < |texts|
      invariant 0 <= i <= |texts|
      invariant story == Paragraphs(style, texts[..i])
    {
      assert texts[..i + 1][..i] == texts[..i];
      story := story + [Paragraph(style, texts[i])];
      i := i + 1;
    }
    assert texts[..i] == texts;
  }

  /** The image of one frame with its caption, or the error paragraph when
      the image cannot be opened or has no height. */
  function ImageBlock(frame: VideoProcessor.FrameData, picture: Opened): seq<Flowable> {
    match picture
    case OpenError(message) => [Paragraph(Normal, FrameErrorPrefix + message), Spacer(0.2 * Inch)]
    case Opened(width, height) =>
      if height == 0 then [Paragraph(Normal, FrameErrorPrefix + DivisionByZero), Spacer(0.2 * Inch)]
      else
        var (w, h) := FitImage(width, height);
        [Image(w, h), Paragraph(CaptionStyle, "Video frame at " + FormatTime(frame.timestamp)),
         Spacer(0.3 * Inch)]
  }

  /** The transcript part of frame `i`'s page. */
  function SegmentBlock(segments: seq<string>, i: nat): seq<Flowable> {
    if i < |segments| && segments[i] != [] then
      var segmentText := Strip(segments[i]);
      [Paragraph(Heading3, TranscriptHeading)]
      + (if segmentText != [] then Paragraphs(TranscriptStyle, FormattedParagraphs(segmentText))
         else [Paragraph(TranscriptStyle, NoAudioText)])
    else []
  }

  /** Everything frame `i` of `n` adds to the story. */
  function FrameBlock(frame: VideoProcessor.FrameData, picture: Opened, segments: seq<string>,
                      i: nat, n: nat): seq<Flowable>
  {
    [Paragraph(TimestampStyle, "Frame at " + FormatTime(frame.timestamp)), Spacer(0.2 * Inch)]
    + ImageBlock(frame, picture)
    + SegmentBlock(segments, i)
    + (if i + 1 < n then [PageBreak] else [])
  }

  /** The transcript segments the frame pages use: one per frame, cut by
      `_segment_transcript` when there is a transcript and more than one
      frame, otherwise the whole transcript for every frame. */
  function FrameSegments(transcript: string, frameCount: nat): seq<string> {
    if transcript != [] && frameCount > 1 then Segments(transcript, frameCount)
    else seq(frameCount, _ => transcript)
  }

  /** The pages of the frames, one block per frame. */
  function FrameBlocks(frames: seq<VideoProcessor.FrameData>, open: VideoProcessor.FrameData -> Opened,
                       segments: seq<string>): (r: seq<seq<Flowable>>)
    ensures |r| == |frames|
  {
    seq(|frames|, i requires 0 <= i < |frames| => FrameBlock(frames[i], open(frames[i]), segments, i, |frames|))
  }

  /** `_create_frame_pages`. */
  function FramePages(frames: seq<VideoProcessor.FrameData>, open: VideoProcessor.FrameData -> Opened,
                      transcript: string): seq<Flowable>
  {
    Concat(FrameBlocks(frames, open, FrameSegments(transcript, |frames|)))
  }

  method CreateFramePages(frames: seq<VideoProcessor.FrameData>, open: VideoProcessor.FrameData -> Opened,
                          transcript: string)
    returns (story: seq<Flowable>)
    ensures story == FramePages(frames, open, transcript)
  {
    var segments;
    if transcript != [] && |frames| > 1 {
      segments := SegmentTranscript(transcript, frames);
    } else {
      segments := seq(|frames|, _ => transcript);
    }
    story := [];
    var i := 0;
    while i < |frames|
      invariant 0 <= i <= |frames|
      invariant story == Concat(FrameBlocks(frames, open, segments)[..i])
    {
      var block := AddFrame(frames[i], open(frames[i]), segments, i, |frames|);
      ghost var blocks := FrameBlocks(frames, open, segments);
      assert blocks[i] == block;
      PrefixSnoc(blocks, i);
      ConcatSnoc(blocks[..i], block);
      story := story + block;
      i := i + 1;
    }
    assert FrameBlocks(frames, open, segments)[..i] == FrameBlocks(frames, open, segments);
  }

  /** The body of the frame loop. */
  method AddFrame(frame: VideoProcessor.FrameData, picture: Opened, segments: seq<string>, i: nat, n: nat)
    returns (block: seq<Flowable>)
    ensures block == FrameBlock(frame, picture, segments, i, n)
  {
    block := [Paragraph(TimestampStyle, "Frame at " + FormatTime(frame.timestamp)), Spacer(0.2 * Inch)];
    var image := AddFrameImage(frame, picture);
    var segmentPart := AddSegment(segments, i);
    block := block + image + segmentPart;
    if i + 1 < n {
      block := block + [PageBreak];
    }
  }

  /** The image part of the frame loop's body. */
  method AddFrameImage(frame: VideoProcessor.FrameData, picture: Opened) returns (story: seq<Flowable>)
    ensures story == ImageBlock(frame, picture)
  {
    match picture
    case OpenError(message) =>
      story := [Paragraph(Normal, FrameErrorPrefix + message), Spacer(0.2 * Inch)];
    case Opened(width, height) =>
      if height == 0 {
        story := [Paragraph(Normal, FrameErrorPrefix + DivisionByZero), Spacer(0.2 * Inch)];
      } else {
        var (w, h) := FitImage(width, height);
        story := [Image(w, h), Paragraph(CaptionStyle, "Video frame at " + FormatTime(frame.timestamp)),
                  Spacer(0.3 * Inch)];
      }
  }

  /** The transcript part of the frame loop's body. */
  method AddSegment(segments: seq<string>, i: nat) returns (story: seq<Flowable>)
    ensures story == SegmentBlock(segments, i)
  {
    story := [];
    if i < |segments| && segments[i] != [] {
      story := [Paragraph(Heading3, TranscriptHeading)];
      var segmentText := Strip(segments[i]);
      if segmentText != [] {
        var paragraphs := FormatTranscriptText(segmentText);
        var paras := AddParagraphs(TranscriptStyle, paragraphs);
        story := story + paras;
      } else {
        story := story + [Paragraph(TranscriptStyle, NoAudioText)];
      }
    }
  }

  /** `_create_transcript_only_pages`. */
  function TranscriptOnlyPages(transcript: string): seq<Flowable> {
    [Paragraph(Heading2, CompleteTranscriptHeading), Spacer(0.3 * Inch)]
    + (if transcript != [] then Paragraphs(TranscriptStyle, FormattedParagraphs(transcript))
       else [Paragraph(TranscriptStyle, NoTranscriptText)])
  }

  method CreateTranscriptOnlyPages(transcript: string) returns (story: seq<Flowable>)
    ensures story == TranscriptOnlyPages(transcript)
  {
    story := [Paragraph(Heading2, CompleteTranscriptHeading), Spacer(0.3 * Inch)];
    if transcript != [] {
      var paragraphs := FormatTranscriptText(transcript);
      var paras := AddParagraphs(TranscriptStyle, paragraphs);
      story := story + paras;
    } else {
      story := story + [Paragraph(TranscriptStyle, NoTranscriptText)];
    }
  }

  /** The non-blank paragraphs of the appendix, each followed by a spacer. */
  function AppendixParagraphs(texts: seq<string>): seq<Flowable>
    decreases |texts|
  {
    if texts == [] then []
    else
      var last := texts[|texts| - 1];
      AppendixParagraphs(texts[..|texts| - 1])
      + (if Strip(last) != [] then [Paragraph(FullTranscriptStyle, last), Spacer(0.1 * Inch)] else [])
  }

  /** `_create_full_transcript_section`. */
  function FullTranscriptSection(transcript: string): seq<Flowable> {
    [PageBreak, Paragraph(TitleStyle, AppendixHeading), Spacer(0.3 * Inch)] + AppendixBody(transcript)
  }

  /** What follows the appendix heading. */
  function AppendixBody(transcript: string): seq<Flowable> {
    if transcript != [] then AppendixParagraphs(FormattedParagraphs(transcript))
    else [Paragraph(FullTranscriptStyle, NoTranscriptShort)]
  }

  method CreateFullTranscriptSection(transcript: string) returns (story: seq<Flowable>)
    ensures story == FullTranscriptSection(transcript)
  {
    story := [PageBreak, Paragraph(TitleStyle, AppendixHeading), Spacer(0.3 * Inch)];
    if transcript != [] {
      var formattedParagraphs := FormatTranscriptText(transcript);
      var paras := AddAppendixParagraphs(formattedParagraphs);
      story := story + paras;
    } else {
      story := story + [Paragraph(FullTranscriptStyle, NoTranscriptShort)];
    }
  }

  /** The paragraph loop of `_create_full_transcript_section`. */
  method AddAppendixParagraphs(texts: seq<string>) returns (story: seq<Flowable>)
    ensures story == AppendixParagraphs(texts)
  {
    story := [];
    var i := 0;
    while i < |texts|
      invariant 0 <= i <= |texts|
      invariant story == AppendixParagraphs(texts[..i])
    {
      assert texts[..i + 1][..i] == texts[..i];
      var paraText := texts[i];
      if Strip(paraText) != [] {
        story := story + [Paragraph(FullTranscriptStyle, paraText), Spacer(0.1 * Inch)];
      } else {
        assert AppendixParagraphs(texts[..i + 1]) == story + [];
      }
      i := i + 1;
    }
    assert texts[..i] == texts;
  }

  /** `_create_content_pages`: frame pages when there are frames, otherwise
      the transcript-only page. */
  function ContentPages(frames: seq<VideoProcessor.FrameData>, open: VideoProcessor.FrameData -> Opened,
                        transcript: string): seq<Flowable>
  {
    if frames != [] then FramePages(frames, open, transcript) else TranscriptOnlyPages(transcript)
  }

  /** The story `create_pdf` hands to reportlab. */
  function Story(frames: seq<VideoProcessor.FrameData>, open: VideoProcessor.FrameData -> Opened,
                 transcript: string, videoFilename: string): seq<Flowable>
  {
    TitlePage(videoFilename, |frames|) + ContentPages(frames, open, transcript)
    + FullTranscriptSection(transcript)
  }

  /** `create_pdf`: `pdfPath` is the temporary name the PDF is written to;
      `story` is what is rendered into it. */
  method CreatePdf(frames: seq<VideoProcessor.FrameData>, open: VideoProcessor.FrameData -> Opened,
                   transcript: string, videoFilename: string, pdfPath: string)
    returns (path: string, story: seq<Flowable>)
    ensures path == pdfPath
    ensures story == Story(frames, open, transcript, videoFilename)
  {
    story := TitlePage(videoFilename, |frames|);
    var content;
    if frames != [] {
      content := CreateFramePages(frames, open, transcript);
    } else {
      content := CreateTranscriptOnlyPages(transcript);
    }
    story := story + content;
    var appendix := CreateFullTranscriptSection(transcript);
    story := story + appendix;
    path := pdfPath;
  }

  // ---------------------------------------------------------------------
  // What the story holds
  // ---------------------------------------------------------------------

  /** The story elements that are counted: page breaks, and the
      "Frame at" heading that opens each frame's page. */
  datatype Marker = BreakMarker | FrameMarker

  predicate Marks(f: Flowable, m: Marker) {
    match m
    case BreakMarker => f.PageBreak?
    case FrameMarker => f.Paragraph? && f.style == TimestampStyle
  }

  /** How many elements of `s` carry marker `m`. */
  function Count(s: seq<Flowable>, m: Marker): nat
    decreases |s|
  {
    if s == [] then 0
    else Count(s[..|s| - 1], m) + (if Marks(s[|s| - 1], m) then 1 else 0)
  }

  lemma {:induction false} CountAppend(a: seq<Flowable>, b: seq<Flowable>, m: Marker)
    ensures Count(a + b, m) == Count(a, m) + Count(b, m)
    decreases |b|
  {
    if b == [] {
      assert a + b == a;
    } else {
      assert (a + b)[..|a + b| - 1] == a + b[..|b| - 1];
      assert (a + b)[|a + b| - 1] == b[|b| - 1];
      CountAppend(a, b[..|b| - 1], m);
    }
  }

  lemma CountSingle(f: Flowable, m: Marker)
    ensures Count([f], m) == if Marks(f, m) then 1 else 0
  {
    assert [f][..0] == [];
  }

  lemma CountPieces(a: seq<Flowable>, b: seq<Flowable>, c: seq<Flowable>, d: seq<Flowable>, m: Marker)
    ensures Count(a + b + c + d, m) == Count(a, m) + Count(b, m) + Count(c, m) + Count(d, m)
  {
    CountAppend(a, b, m);
    CountAppend(a + b, c, m);
    CountAppend(a + b + c, d, m);
  }

  /** Neither a marker nor an image. */
  predicate Unmarked(f: Flowable) {
    !f.PageBreak? && !f.Image? && !(f.Paragraph? && f.style == TimestampStyle)
  }

  predicate Plain(s: seq<Flowable>) {
    forall k | 0 <= k < |s| :: Unmarked(s[k])
  }

  lemma {:induction false} PlainCount(s: seq<Flowable>, m: Marker)
    requires Plain(s)
    ensures Count(s, m) == 0
    decreases |s|
  {
    if s != [] {
      assert Plain(s[..|s| - 1]) by {
        forall k | 0 <= k < |s| - 1 ensures s[..|s| - 1][k] == s[k] { }
      }
      PlainCount(s[..|s| - 1], m);
    }
  }

  lemma PlainAppend(a: seq<Flowable>, b: seq<Flowable>)
    requires Plain(a) && Plain(b)
    ensures Plain(a + b)
  {
    forall k | 0 <= k < |a + b| ensures Unmarked((a + b)[k]) {
      if k >= |a| {
        assert (a + b)[k] == b[k - |a|];
      }
    }
  }

  /** Every image in `s` lies within the 5in x 3.5in box. */
  predicate ImagesFit(s: seq<Flowable>) {
    forall k | 0 <= k < |s| && s[k].Image? :: s[k].width <= MaxImageWidth && s[k].height <= MaxImageHeight
  }

  lemma ImagesFitAppend(a: seq<Flowable>, b: seq<Flowable>)
    requires ImagesFit(a) && ImagesFit(b)
    ensures ImagesFit(a + b)
  {
    forall k | 0 <= k < |a + b| && (a + b)[k].Image?
      ensures (a + b)[k].width <= MaxImageWidth && (a + b)[k].height <= MaxImageHeight
    {
      if k >= |a| {
        assert (a + b)[k] == b[k - |a|];
      }
    }
  }

  /** Body paragraphs, the "no audio" line and the transcript headings are
      plain. */
  lemma SegmentBlockPlain(segments: seq<string>, i: nat)
    ensures Plain(SegmentBlock(segments, i))
  {
    if i < |segments| && segments[i] != [] {
      var segmentText := Strip(segments[i]);
      if segmentText != [] {
        var paras := Paragraphs(TranscriptStyle, FormattedParagraphs(segmentText));
        assert Plain(paras);
        PlainAppend([Paragraph(Heading3, TranscriptHeading)], paras);
      }
    }
  }

  lemma {:induction false} AppendixPlain(texts: seq<string>)
    ensures Plain(AppendixParagraphs(texts))
    decreases |texts|
  {
    if texts != [] {
      var last := texts[|texts| - 1];
      AppendixPlain(texts[..|texts| - 1]);
      if Strip(last) != [] {
        PlainAppend(AppendixParagraphs(texts[..|texts| - 1]),
                    [Paragraph(FullTranscriptStyle, last), Spacer(0.1 * Inch)]);
      } else {
        assert AppendixParagraphs(texts) == AppendixParagraphs(texts[..|texts| - 1]) + [];
      }
    }
  }

  /** A frame's image part is the fitted image with its caption when the
      picture opens and has a height, and otherwise the error paragraph; it
      holds no marker and no image outside the box. */
  lemma ImageBlockShape(frame: VideoProcessor.FrameData, picture: Opened)
    ensures var b := ImageBlock(frame, picture);
      |b| >= 2 && b[|b| - 1].Spacer? && ImagesFit(b) && Count(b, BreakMarker) == 0 && Count(b, FrameMarker) == 0
      && (picture.Opened? && picture.height > 0 ==>
            b[0] == Image(FitImage(picture.width, picture.height).0, FitImage(picture.width, picture.height).1))
      && (picture.OpenError? ==> b[0] == Paragraph(Normal, FrameErrorPrefix + picture.message))
      && (picture.Opened? && picture.height == 0 ==> b[0] == Paragraph(Normal, FrameErrorPrefix + DivisionByZero))
  {
    var b := ImageBlock(frame, picture);
    if picture.Opened? && picture.height > 0 {
      FitImageFits(picture.width, picture.height);
      var tail := [Paragraph(CaptionStyle, "Video frame at " + FormatTime(frame.timestamp)), Spacer(0.3 * Inch)];
      assert b == [b[0]] + tail;
      PlainCount(tail, BreakMarker);
      PlainCount(tail, FrameMarker);
      CountAppend([b[0]], tail, BreakMarker);
      CountAppend([b[0]], tail, FrameMarker);
    } else {
      PlainCount(b, BreakMarker);
      PlainCount(b, FrameMarker);
    }
  }

  /** Each frame's page opens with its "Frame at" heading, holds exactly
      one such heading, keeps its image in the box, and ends in a page
      break unless it is the last frame. */
  lemma FrameBlockCounts(frame: VideoProcessor.FrameData, picture: Opened, segments: seq<string>,
                         i: nat, n: nat)
    ensures var b := FrameBlock(frame, picture, segments, i, n);
      b[0] == Paragraph(TimestampStyle, "Frame at " + FormatTime(frame.timestamp))
      && Count(b, FrameMarker) == 1
      && Count(b, BreakMarker) == (if i + 1 < n then 1 else 0)
      && ImagesFit(b)
      && (i + 1 < n <==> b[|b| - 1] == PageBreak)
    ensures var b := FrameBlock(frame, picture, segments, i, n);
      var t := if i + 1 < n then 1 else 0;
      var tp := [Paragraph(Heading3, TranscriptHeading)];
      (i < |segments| && Strip(segments[i]) != [] ==>
         var body := tp + Paragraphs(TranscriptStyle, FormattedParagraphs(Strip(segments[i])));
         |body| + t <= |b| && b[|b| - t - |body|..|b| - t] == body)
      && (i < |segments| && segments[i] != [] && Strip(segments[i]) == [] ==>
         2 + t <= |b| && b[|b| - t - 2..|b| - t] == tp + [Paragraph(TranscriptStyle, NoAudioText)])
  {
    var head := [Paragraph(TimestampStyle, "Frame at " + FormatTime(frame.timestamp)), Spacer(0.2 * Inch)];
    var img := ImageBlock(frame, picture);
    var seg := SegmentBlock(segments, i);
    var tail: seq<Flowable> := if i + 1 < n then [PageBreak] else [];
    var b := FrameBlock(frame, picture, segments, i, n);
    assert b == head + img + seg + tail;
    assert Count(img, FrameMarker) == 0 && Count(img, BreakMarker) == 0 && ImagesFit(img)
      && |img| >= 2 && img[|img| - 1].Spacer?
    by { ImageBlockShape(frame, picture); }
    assert Plain(seg) by { SegmentBlockPlain(segments, i); }
    PiecesShape(head, img, seg, tail);
    assert b[|b| - |tail| - |seg|..|b| - |tail|] == seg;
    if i < |segments| && segments[i] == [] {
      StripEmpty(segments[i]);
    }
  }

  /** The counting argument of `FrameBlockCounts`, over the four parts of a
      frame's page. */
  lemma PiecesShape(head: seq<Flowable>, img: seq<Flowable>, seg: seq<Flowable>, tail: seq<Flowable>)
    requires |head| == 2 && Marks(head[0], FrameMarker) && head[1].Spacer?
    requires Count(img, FrameMarker) == 0 && Count(img, BreakMarker) == 0 && ImagesFit(img)
    requires |img| >= 2 && img[|img| - 1].Spacer?
    requires Plain(seg)
    requires tail == [] || tail == [PageBreak]
    ensures var b := head + img + seg + tail;
      Count(b, FrameMarker) == 1
      && Count(b, BreakMarker) == |tail|
      && ImagesFit(b)
      && (tail != [] <==> b[|b| - 1] == PageBreak)
  {
    assert Count(head, FrameMarker) == 1 && Count(head, BreakMarker) == 0 by {
      assert head == [head[0]] + [head[1]];
      CountSingle(head[0], FrameMarker);
      CountSingle(head[0], BreakMarker);
      CountSingle(head[1], FrameMarker);
      CountSingle(head[1], BreakMarker);
      CountAppend([head[0]], [head[1]], FrameMarker);
      CountAppend([head[0]], [head[1]], BreakMarker);
    }
    assert Count(tail, FrameMarker) == 0 && Count(tail, BreakMarker) == |tail| by {
      if tail != [] {
        CountSingle(PageBreak, FrameMarker);
        CountSingle(PageBreak, BreakMarker);
      }
    }
    assert Count(seg, FrameMarker) == 0 && Count(seg, BreakMarker) == 0 by {
      PlainCount(seg, FrameMarker);
      PlainCount(seg, BreakMarker);
    }
    CountPieces(head, img, seg, tail, FrameMarker);
    CountPieces(head, img, seg, tail, BreakMarker);
    var b := head + img + seg + tail;
    assert ImagesFit(b) by {
      ImagesFitAppend(head, img);
      ImagesFitAppend(head + img, seg);
      ImagesFitAppend(head + img + seg, tail);
    }
    if tail == [] {
      if seg != [] {
        assert b[|b| - 1] == seg[|seg| - 1];
      } else {
        assert b[|b| - 1] == img[|img| - 1];
      }
    }
  }

  /** Blocks that each hold one heading, and a page break unless they are
      the last of `total`, concatenate to `|blocks|` headings and one break
      fewer than blocks once all `total` are there. */
  lemma {:induction false} PagesCount(blocks: seq<seq<Flowable>>, total: nat)
    requires |blocks| <= total
    requires forall i | 0 <= i < |blocks| ::
      Count(blocks[i], FrameMarker) == 1 && Count(blocks[i], BreakMarker) == (if i + 1 < total then 1 else 0)
    ensures Count(Concat(blocks), FrameMarker) == |blocks|
    ensures Count(Concat(blocks), BreakMarker) == (if |blocks| == total && total > 0 then total - 1 else |blocks|)
    decreases |blocks|
  {
    if blocks != [] {
      var n := |blocks|;
      var prev := blocks[..n - 1];
      assert Concat(blocks) == Concat(prev) + blocks[n - 1];
      PagesCount(prev, total);
      CountAppend(Concat(prev), blocks[n - 1], FrameMarker);
      CountAppend(Concat(prev), blocks[n - 1], BreakMarker);
    }
  }

  lemma {:induction false} PagesFit(blocks: seq<seq<Flowable>>)
    requires forall i | 0 <= i < |blocks| :: ImagesFit(blocks[i])
    ensures ImagesFit(Concat(blocks))
    decreases |blocks|
  {
    if blocks != [] {
      var n := |blocks|;
      PagesFit(blocks[..n - 1]);
      ImagesFitAppend(Concat(blocks[..n - 1]), blocks[n - 1]);
    }
  }

  /** The frame pages hold one heading per frame and a page break after
      every frame but the last, whatever the pictures turn out to be, and
      every image on them fits the box. */
  lemma FramePagesCounts(frames: seq<VideoProcessor.FrameData>, open: VideoProcessor.FrameData -> Opened,
                         segments: seq<string>)
    ensures var s := Concat(FrameBlocks(frames, open, segments));
      Count(s, FrameMarker) == |frames|
      && Count(s, BreakMarker) == (if frames == [] then 0 else |frames| - 1)
      && ImagesFit(s)
  {
    var blocks := FrameBlocks(frames, open, segments);
    forall i | 0 <= i < |blocks|
      ensures Count(blocks[i], FrameMarker) == 1
      ensures Count(blocks[i], BreakMarker) == (if i + 1 < |frames| then 1 else 0)
      ensures ImagesFit(blocks[i])
    {
      assert blocks[i] == FrameBlock(frames[i], open(frames[i]), segments, i, |frames|);
      FrameBlockCounts(frames[i], open(frames[i]), segments, i, |frames|);
    }
    PagesCount(blocks, |frames|);
    PagesFit(blocks);
  }

  /** The title page holds no frame heading and no image, and ends in its
      one page break. */
  lemma TitlePageCounts(videoFilename: string, frameCount: nat)
    ensures var t := TitlePage(videoFilename, frameCount);
      |t| == 6 && t[0] == Paragraph(TitleStyle, ReportTitle) && t[5] == PageBreak
      && Count(t, FrameMarker) == 0 && Count(t, BreakMarker) == 1 && ImagesFit(t)
  {
    var title := TitlePage(videoFilename, frameCount);
    assert title == title[..5] + [PageBreak];
    assert Plain(title[..5]) by {
      assert title[..5] == [Paragraph(TitleStyle, ReportTitle), Spacer(0.5 * Inch)] + title[2..3]
        + [Spacer(1.0 * Inch), Description];
    }
    PlainCount(title[..5], FrameMarker);
    PlainCount(title[..5], BreakMarker);
    CountSingle(PageBreak, FrameMarker);
    CountSingle(PageBreak, BreakMarker);
    CountAppend(title[..5], [PageBreak], FrameMarker);
    CountAppend(title[..5], [PageBreak], BreakMarker);
  }

  /** The appendix opens with its page break and heading, and holds no
      other page break, no frame heading and no image. */
  lemma AppendixCounts(transcript: string)
    ensures var a := FullTranscriptSection(transcript);
      |a| >= 3 && a[0] == PageBreak && a[1] == Paragraph(TitleStyle, AppendixHeading)
      && Count(a, FrameMarker) == 0 && Count(a, BreakMarker) == 1 && ImagesFit(a)
    ensures FullTranscriptSection(transcript)[3..]
      == if transcript != [] then AppendixParagraphs(FormattedParagraphs(transcript))
         else [Paragraph(FullTranscriptStyle, NoTranscriptShort)]
  {
    AppendixBodyPlain(transcript);
    HeadedSection(AppendixBody(transcript));
  }

  /** What follows the appendix heading holds no marker and no image. */
  lemma AppendixBodyPlain(transcript: string)
    ensures Plain(AppendixBody(transcript))
  {
    if transcript != [] {
      AppendixPlain(FormattedParagraphs(transcript));
    }
  }

  /** A page break and the appendix heading followed by plain elements. */
  lemma HeadedSection(body: seq<Flowable>)
    requires Plain(body)
    ensures var a := [PageBreak, Paragraph(TitleStyle, AppendixHeading), Spacer(0.3 * Inch)] + body;
      |a| >= 3 && a[0] == PageBreak && a[1] == Paragraph(TitleStyle, AppendixHeading)
      && Count(a, FrameMarker) == 0 && Count(a, BreakMarker) == 1 && ImagesFit(a)
  {
    var head := [Paragraph(TitleStyle, AppendixHeading), Spacer(0.3 * Inch)];
    var rest := head + body;
    PlainAppend(head, body);
    assert [PageBreak, Paragraph(TitleStyle, AppendixHeading), Spacer(0.3 * Inch)] + body == [PageBreak] + rest;
    PlainCount(rest, FrameMarker);
    PlainCount(rest, BreakMarker);
    CountSingle(PageBreak, FrameMarker);
    CountSingle(PageBreak, BreakMarker);
    CountAppend([PageBreak], rest, FrameMarker);
    CountAppend([PageBreak], rest, BreakMarker);
  }

  /** The content pages hold one frame heading per frame and one page break
      fewer than frames; the transcript-only page holds neither. */
  lemma ContentCounts(frames: seq<VideoProcessor.FrameData>, open: VideoProcessor.FrameData -> Opened,
                      transcript: string)
    ensures var c := ContentPages(frames, open, transcript);
      Count(c, FrameMarker) == |frames|
      && Count(c, BreakMarker) == (if frames == [] then 0 else |frames| - 1)
      && ImagesFit(c)
  {
    if frames != [] {
      FramePagesCounts(frames, open, FrameSegments(transcript, |frames|));
    } else {
      var body := if transcript != [] then Paragraphs(TranscriptStyle, FormattedParagraphs(transcript))
                  else [Paragraph(TranscriptStyle, NoTranscriptText)];
      PlainAppend([Paragraph(Heading2, CompleteTranscriptHeading), Spacer(0.3 * Inch)], body);
      PlainCount(TranscriptOnlyPages(transcript), FrameMarker);
      PlainCount(TranscriptOnlyPages(transcript), BreakMarker);
    }
  }

  /** The content pages open with the first frame's "Frame at" heading, or,
      without frames, with the transcript-only page: its heading, a spacer,
      then the formatted paragraphs or the no-transcript line. */
  lemma ContentOpening(frames: seq<VideoProcessor.FrameData>, open: VideoProcessor.FrameData -> Opened,
                       transcript: string)
    ensures var c := ContentPages(frames, open, transcript);
      |c| >= 2
      && (frames != [] ==> c[0] == Paragraph(TimestampStyle, "Frame at " + FormatTime(frames[0].timestamp)))
      && (frames == [] ==>
            c[0] == Paragraph(Heading2, CompleteTranscriptHeading) && c[1] == Spacer(0.3 * Inch)
            && c[2..] == (if transcript != [] then Paragraphs(TranscriptStyle, FormattedParagraphs(transcript))
                          else [Paragraph(TranscriptStyle, NoTranscriptText)]))
  {
    if frames != [] {
      var blocks := FrameBlocks(frames, open, FrameSegments(transcript, |frames|));
      ConcatCons(blocks);
      assert blocks[0] == FrameBlock(frames[0], open(frames[0]), FrameSegments(transcript, |frames|), 0, |frames|);
    }
  }

  /** The report's shape: it opens with the title and ends its title page
      with a page break; the content opens with the first frame's heading,
      or without frames with the transcript-only page; the appendix opens
      with a page break and its heading; every frame gets its heading page
      (an image that cannot be opened does not stop the rest); page breaks
      number one per frame plus one (two when there are no frames); every
      image fits the box. */
  lemma StoryShape(frames: seq<VideoProcessor.FrameData>, open: VideoProcessor.FrameData -> Opened,
                   transcript: string, videoFilename: string)
    ensures var s := Story(frames, open, transcript, videoFilename);
      var a := |s| - |FullTranscriptSection(transcript)|;
      |s| > 8 && 6 <= a
      && s[0] == Paragraph(TitleStyle, ReportTitle) && s[5] == PageBreak
      && s[a] == PageBreak && s[a + 1] == Paragraph(TitleStyle, AppendixHeading)
      && s[6] == (if frames == [] then Paragraph(Heading2, CompleteTranscriptHeading)
                  else Paragraph(TimestampStyle, "Frame at " + FormatTime(frames[0].timestamp)))
      && (frames == [] ==>
            s[7] == Spacer(0.3 * Inch)
            && s[8..a] == (if transcript != [] then Paragraphs(TranscriptStyle, FormattedParagraphs(transcript))
                           else [Paragraph(TranscriptStyle, NoTranscriptText)]))
      && Count(s, FrameMarker) == |frames|
      && Count(s, BreakMarker) == (if frames == [] then 2 else |frames| + 1)
      && ImagesFit(s)
      && s[a + 3..] == (if transcript != [] then AppendixParagraphs(FormattedParagraphs(transcript))
                        else [Paragraph(FullTranscriptStyle, NoTranscriptShort)])
  {
    var title := TitlePage(videoFilename, |frames|);
    var content := ContentPages(frames, open, transcript);
    var appendix := FullTranscriptSection(transcript);
    TitlePageCounts(videoFilename, |frames|);
    AppendixCounts(transcript);
    ContentCounts(frames, open, transcript);
    StoryPieces(title, content, appendix);
    ContentOpening(frames, open, transcript);
    var s := title + content + appendix;
    assert s[6..|s| - |appendix|] == content;
    assert s[|s| - |appendix| + 3..] == appendix[3..];
  }

  /** The counting argument of `StoryShape`, over the three parts of the
      story. */
  lemma StoryPieces(title: seq<Flowable>, content: seq<Flowable>, appendix: seq<Flowable>)
    requires |title| == 6 && title[0] == Paragraph(TitleStyle, ReportTitle) && title[5] == PageBreak
    requires |appendix| >= 3 && appendix[0] == PageBreak && appendix[1] == Paragraph(TitleStyle, AppendixHeading)
    requires ImagesFit(title) && ImagesFit(content) && ImagesFit(appendix)
    ensures var s := title + content + appendix;
      var a := |s| - |appendix|;
      |s| > 8 && 6 <= a
      && s[0] == Paragraph(TitleStyle, ReportTitle) && s[5] == PageBreak
      && s[a] == PageBreak && s[a + 1] == Paragraph(TitleStyle, AppendixHeading)
      && (forall m :: Count(s, m) == Count(title, m) + Count(content, m) + Count(appendix, m))
      && ImagesFit(s)
  {
    var s := title + content + appendix;
    assert s[|title + content|..] == appendix;
    forall m ensures Count(s, m) == Count(title, m) + Count(content, m) + Count(appendix, m) {
      CountPieces(title, content, appendix, [], m);
      assert title + content + appendix + [] == s;
    }
    ImagesFitAppend(title, content);
    ImagesFitAppend(title + content, appendix);
  }


  // ---------------------------------------------------------------------
  // The transcript the report carries
  // ---------------------------------------------------------------------

  /** The texts of the paragraphs of `s` set in `style`, in order. */
  function StyleTexts(s: seq<Flowable>, style: Style): seq<string>
    decreases |s|
  {
    if s == [] then []
    else
      var last := s[|s| - 1];
      StyleTexts(s[..|s| - 1], style) + (if last.Paragraph? && last.style == style then [last.text] else [])
  }

  lemma {:induction false} StyleTextsAppend(a: seq<Flowable>, b: seq<Flowable>, style: Style)
    ensures StyleTexts(a + b, style) == StyleTexts(a, style) + StyleTexts(b, style)
    decreases |b|
  {
    if b == [] {
      assert a + b == a;
    } else {
      assert (a + b)[..|a + b| - 1] == a + b[..|b| - 1];
      StyleTextsAppend(a, b[..|b| - 1], style);
    }
  }

  /** No paragraph of `s` is set in `style`. */
  predicate NoStyle(s: seq<Flowable>, style: Style) {
    forall k | 0 <= k < |s| :: !(s[k].Paragraph? && s[k].style == style)
  }

  lemma {:induction false} NoStyleTexts(s: seq<Flowable>, style: Style)
    requires NoStyle(s, style)
    ensures StyleTexts(s, style) == []
    decreases |s|
  {
    if s != [] {
      assert NoStyle(s[..|s| - 1], style) by {
        forall k | 0 <= k < |s| - 1 ensures s[..|s| - 1][k] == s[k] { }
      }
      NoStyleTexts(s[..|s| - 1], style);
    }
  }

  lemma NoStyleAppend(a: seq<Flowable>, b: seq<Flowable>, style: Style)
    requires NoStyle(a, style) && NoStyle(b, style)
    ensures NoStyle(a + b, style)
  {
    forall k | 0 <= k < |a + b| ensures !((a + b)[k].Paragraph? && (a + b)[k].style == style) {
      if k >= |a| {
        assert (a + b)[k] == b[k - |a|];
      }
    }
  }

  lemma {:induction false} NoStyleConcat(parts: seq<seq<Flowable>>, style: Style)
    requires forall i | 0 <= i < |parts| :: NoStyle(parts[i], style)
    ensures NoStyle(Concat(parts), style)
    decreases |parts|
  {
    if parts != [] {
      NoStyleConcat(parts[..|parts| - 1], style);
      NoStyleAppend(Concat(parts[..|parts| - 1]), parts[|parts| - 1], style);
    }
  }

  /** A run of paragraphs in one style gives back its texts. */
  lemma {:induction false} StyleTextsParagraphs(style: Style, texts: seq<string>)
    ensures StyleTexts(Paragraphs(style, texts), style) == texts
    decreases |texts|
  {
    if texts != [] {
      var init := texts[..|texts| - 1];
      var last := [Paragraph(style, texts[|texts| - 1])];
      StyleTextsParagraphs(style, init);
      StyleTextsAppend(Paragraphs(style, init), last, style);
      assert last[..0] == [];
      assert init + [texts[|texts| - 1]] == texts;
    }
  }

  /** The transcript paragraphs of frame `i`'s page: none for a missing or
      empty segment, the reflowed stripped segment, or the no-audio line for
      a segment of whitespace only. */
  lemma SegmentBlockTexts(segments: seq<string>, i: nat)
    ensures var t := StyleTexts(SegmentBlock(segments, i), TranscriptStyle);
      (i >= |segments| || segments[i] == [] ==> t == [])
      && (i < |segments| && Strip(segments[i]) != [] ==> t == FormattedParagraphs(Strip(segments[i])))
      && (i < |segments| && segments[i] != [] && Strip(segments[i]) == [] ==> t == [NoAudioText])
  {
    if i < |segments| && segments[i] != [] {
      var text := Strip(segments[i]);
      var head := [Paragraph(Heading3, TranscriptHeading)];
      assert StyleTexts(head, TranscriptStyle) == [] by {
        assert head[..0] == [];
      }
      var body := if text != [] then Paragraphs(TranscriptStyle, FormattedParagraphs(text))
                  else [Paragraph(TranscriptStyle, NoAudioText)];
      StyleTextsAppend(head, body, TranscriptStyle);
      if text != [] {
        StyleTextsParagraphs(TranscriptStyle, FormattedParagraphs(text));
      } else {
        assert body[..0] == [];
      }
    } else if i < |segments| {
      StripEmpty(segments[i]);
    }
  }

  /** A frame's image part holds only error, caption and spacer elements
      besides the image. */
  lemma ImageBlockNoStyle(frame: VideoProcessor.FrameData, picture: Opened, style: Style)
    requires style != Normal && style != CaptionStyle
    ensures NoStyle(ImageBlock(frame, picture), style)
  {
  }

  /** Of a frame's page, only its transcript part is set in the transcript
      style. */
  lemma FrameBlockTexts(frame: VideoProcessor.FrameData, picture: Opened, segments: seq<string>,
                        i: nat, n: nat)
    ensures StyleTexts(FrameBlock(frame, picture, segments, i, n), TranscriptStyle)
      == StyleTexts(SegmentBlock(segments, i), TranscriptStyle)
  {
    var head := [Paragraph(TimestampStyle, "Frame at " + FormatTime(frame.timestamp)), Spacer(0.2 * Inch)];
    var img := ImageBlock(frame, picture);
    var seg := SegmentBlock(segments, i);
    var tail: seq<Flowable> := if i + 1 < n then [PageBreak] else [];
    assert FrameBlock(frame, picture, segments, i, n) == head + img + seg + tail;
    ImageBlockNoStyle(frame, picture, TranscriptStyle);
    assert NoStyle(head, TranscriptStyle) && NoStyle(tail, TranscriptStyle);
    NoStyleAppend(head, img, TranscriptStyle);
    NoStyleTexts(head + img, TranscriptStyle);
    NoStyleTexts(tail, TranscriptStyle);
    StyleTextsAppend(head + img, seg, TranscriptStyle);
    StyleTextsAppend(head + img + seg, tail, TranscriptStyle);
  }

  /** A frame's page has no paragraph in the appendix style. */
  lemma FrameBlockNoAppendixStyle(frame: VideoProcessor.FrameData, picture: Opened, segments: seq<string>,
                                  i: nat, n: nat)
    ensures NoStyle(FrameBlock(frame, picture, segments, i, n), FullTranscriptStyle)
  {
    var head := [Paragraph(TimestampStyle, "Frame at " + FormatTime(frame.timestamp)), Spacer(0.2 * Inch)];
    var img := ImageBlock(frame, picture);
    var seg := SegmentBlock(segments, i);
    var tail: seq<Flowable> := if i + 1 < n then [PageBreak] else [];
    assert FrameBlock(frame, picture, segments, i, n) == head + img + seg + tail;
    ImageBlockNoStyle(frame, picture, FullTranscriptStyle);
    assert NoStyle(head, FullTranscriptStyle) && NoStyle(tail, FullTranscriptStyle);
    assert NoStyle(seg, FullTranscriptStyle) by {
      if i < |segments| && segments[i] != [] && Strip(segments[i]) != [] {
        var paras := Paragraphs(TranscriptStyle, FormattedParagraphs(Strip(segments[i])));
        assert NoStyle(paras, FullTranscriptStyle);
        NoStyleAppend([Paragraph(Heading3, TranscriptHeading)], paras, FullTranscriptStyle);
      }
    }
    NoStyleAppend(head, img, FullTranscriptStyle);
    NoStyleAppend(head + img, seg, FullTranscriptStyle);
    NoStyleAppend(head + img + seg, tail, FullTranscriptStyle);
  }

  /** The appendix paragraphs are all in the appendix style. */
  lemma {:induction false} AppendixNoTranscriptStyle(texts: seq<string>)
    ensures NoStyle(AppendixParagraphs(texts), TranscriptStyle)
    decreases |texts|
  {
    if texts != [] {
      var last := texts[|texts| - 1];
      var piece := if Strip(last) != [] then [Paragraph(FullTranscriptStyle, last), Spacer(0.1 * Inch)] else [];
      AppendixNoTranscriptStyle(texts[..|texts| - 1]);
      NoStyleAppend(AppendixParagraphs(texts[..|texts| - 1]), piece, TranscriptStyle);
    }
  }

  /** Dropping blank paragraphs from the appendix drops no word: the words
      of its paragraphs are the words of all the texts. */
  lemma {:induction false} AppendixWords(texts: seq<string>)
    ensures WordsOf(StyleTexts(AppendixParagraphs(texts), FullTranscriptStyle)) == WordsOf(texts)
    decreases |texts|
  {
    if texts != [] {
      var init := texts[..|texts| - 1];
      var last := texts[|texts| - 1];
      var piece := if Strip(last) != [] then [Paragraph(FullTranscriptStyle, last), Spacer(0.1 * Inch)] else [];
      AppendixWords(init);
      StyleTextsAppend(AppendixParagraphs(init), piece, FullTranscriptStyle);
      var kept := if Strip(last) != [] then [last] else [];
      assert StyleTexts(piece, FullTranscriptStyle) == kept by {
        if Strip(last) != [] {
          var p := [Paragraph(FullTranscriptStyle, last)];
          assert piece[..1] == p && p[..0] == [];
          assert StyleTexts(p, FullTranscriptStyle) == [last];
          assert StyleTexts(piece, FullTranscriptStyle) == StyleTexts(p, FullTranscriptStyle);
        }
      }
      WordsOfAppend(StyleTexts(AppendixParagraphs(init), FullTranscriptStyle), kept);
      assert WordsOf(kept) == Split(last) by {
        if Strip(last) != [] {
          assert WordsOf([last]) == Split(last) + WordsOf([]);
        } else {
          SplitStrip(last);
        }
      }
      assert init + [last] == texts;
      WordsOfSnoc(init, last);
    }
  }

  /** The appendix carries the transcript: for a transcript without `|`,
      the words of its paragraphs, in order, are the words of the
      transcript; an empty transcript gives the single no-transcript line. */
  lemma AppendixKeepsWords(transcript: string)
    requires '|' !in transcript
    ensures var t := StyleTexts(FullTranscriptSection(transcript), FullTranscriptStyle);
      (transcript != [] ==> WordsOf(t) == Split(transcript))
      && (transcript == [] ==> t == [NoTranscriptShort])
  {
    var head := [PageBreak, Paragraph(TitleStyle, AppendixHeading), Spacer(0.3 * Inch)];
    var body := AppendixBody(transcript);
    assert FullTranscriptSection(transcript) == head + body;
    assert NoStyle(head, FullTranscriptStyle);
    NoStyleTexts(head, FullTranscriptStyle);
    StyleTextsAppend(head, body, FullTranscriptStyle);
    if transcript != [] {
      var paragraphs := FormattedParagraphs(transcript);
      assert body == AppendixParagraphs(paragraphs);
      AppendixWords(paragraphs);
      FormattedKeepsWords(transcript);
      assert StyleTexts(FullTranscriptSection(transcript), FullTranscriptStyle)
        == StyleTexts(AppendixParagraphs(paragraphs), FullTranscriptStyle);
    } else {
      assert body == [Paragraph(FullTranscriptStyle, NoTranscriptShort)];
      assert body[..0] == [];
    }
  }


  /** A segment that is empty or holds a word keeps its words on its
      frame's page. */
  lemma SegmentKeepsWords(segments: seq<string>, i: nat)
    requires i < |segments| && '|' !in segments[i]
    requires segments[i] == [] || Split(segments[i]) != []
    ensures WordsOf(StyleTexts(SegmentBlock(segments, i), TranscriptStyle)) == Split(segments[i])
  {
    var seg := segments[i];
    SegmentBlockTexts(segments, i);
    if seg != [] {
      SplitStrip(seg);
      var text := Strip(seg);
      assert text != [];
      assert '|' !in text by {
        StripInfix(seg);
      }
      FormattedKeepsWords(text);
    }
  }

  /** Pages that each carry the words of their segment carry, together,
      the words of all segments, in order. */
  lemma {:induction false} ConcatWords(blocks: seq<seq<Flowable>>, segments: seq<string>, m: nat)
    requires m <= |blocks| == |segments|
    requires forall i | 0 <= i < |blocks| :: WordsOf(StyleTexts(blocks[i], TranscriptStyle)) == Split(segments[i])
    ensures WordsOf(StyleTexts(Concat(blocks[..m]), TranscriptStyle)) == WordsOf(segments[..m])
    decreases m
  {
    if m == 0 {
      assert blocks[..0] == [] && segments[..0] == [];
    } else {
      var before := Concat(blocks[..m - 1]);
      var block := blocks[m - 1];
      var t1, t2 := StyleTexts(before, TranscriptStyle), StyleTexts(block, TranscriptStyle);
      ConcatWords(blocks, segments, m - 1);
      assert Concat(blocks[..m]) == before + block by {
        assert blocks[..m] == blocks[..m - 1] + [block];
        ConcatSnoc(blocks[..m - 1], block);
      }
      assert StyleTexts(before + block, TranscriptStyle) == t1 + t2 by {
        StyleTextsAppend(before, block, TranscriptStyle);
      }
      assert WordsOf(t1 + t2) == WordsOf(t1) + WordsOf(t2) by {
        WordsOfAppend(t1, t2);
      }
      assert WordsOf(segments[..m]) == WordsOf(segments[..m - 1]) + Split(segments[m - 1]) by {
        assert segments[..m] == segments[..m - 1] + [segments[m - 1]];
        WordsOfSnoc(segments[..m - 1], segments[m - 1]);
      }
    }
  }

  lemma {:induction false} SegmentTextsAt(words: seq<string>, n: nat, k: nat, m: nat, i: nat)
    requires m <= n && i < m
    ensures SegmentTexts(words, n, k, m)[i] == Join(" ", SegmentWords(words, n, k, i))
    decreases m
  {
    if i < m - 1 {
      SegmentTextsAt(words, n, k, m - 1, i);
    }
  }

  /** With more than one frame, every segment of a transcript without `|`
      is free of `|` and is either empty or holds a word: a segment is the
      joined words of a slice of the transcript's words. */
  lemma SegmentsWellFormed(transcript: string, frameCount: nat)
    requires frameCount > 1 && '|' !in transcript
    ensures var segments := FrameSegments(transcript, frameCount);
      |segments| == frameCount
      && forall i | 0 <= i < |segments| :: '|' !in segments[i] && (segments[i] == [] || Split(segments[i]) != [])
  {
    var segments := FrameSegments(transcript, frameCount);
    if transcript != [] {
      var words := Split(transcript);
      var k := WordsPerSegment(|words|, frameCount);
      var notBar := (c: char) => c != '|';
      SplitWords(transcript);
      SplitFromChars([], transcript, notBar);
      SegmentsLossless(transcript, frameCount);
      forall i | 0 <= i < |segments|
        ensures '|' !in segments[i] && (segments[i] == [] || Split(segments[i]) != [])
      {
        var ws := SegmentWords(words, frameCount, k, i);
        SegmentTextsAt(words, frameCount, k, frameCount, i);
        assert segments[i] == Join(" ", ws);
        assert forall j | 0 <= j < |ws| :: IsWord(ws[j]);
        JoinChars(" ", ws, notBar);
        SplitJoinWords(ws);
      }
    }
  }

  /** With more than one frame, every frame's page carries the words of
      its segment, so the frame pages carry the transcript's words. */
  lemma ManyFramesKeepWords(frames: seq<VideoProcessor.FrameData>, open: VideoProcessor.FrameData -> Opened,
                            transcript: string)
    requires |frames| > 1 && '|' !in transcript
    ensures WordsOf(StyleTexts(FramePages(frames, open, transcript), TranscriptStyle)) == Split(transcript)
  {
    var segments := FrameSegments(transcript, |frames|);
    var blocks := FrameBlocks(frames, open, segments);
    SegmentsWellFormed(transcript, |frames|);
    forall i | 0 <= i < |blocks|
      ensures WordsOf(StyleTexts(blocks[i], TranscriptStyle)) == Split(segments[i])
    {
      assert blocks[i] == FrameBlock(frames[i], open(frames[i]), segments, i, |frames|);
      FrameBlockTexts(frames[i], open(frames[i]), segments, i, |frames|);
      SegmentKeepsWords(segments, i);
    }
    assert WordsOf(StyleTexts(Concat(blocks), TranscriptStyle)) == WordsOf(segments) by {
      ConcatWords(blocks, segments, |blocks|);
      assert blocks[..|blocks|] == blocks && segments[..|blocks|] == segments;
    }
    assert WordsOf(segments) == Split(transcript) by {
      if transcript != [] {
        SegmentsLossless(transcript, |frames|);
      } else {
        WordsOfBlank(segments);
      }
    }
  }

  lemma {:induction false} WordsOfBlank(ss: seq<string>)
    requires forall i | 0 <= i < |ss| :: ss[i] == []
    ensures WordsOf(ss) == []
    decreases |ss|
  {
    if ss != [] {
      assert forall i | 0 <= i < |ss[1..]| :: ss[1..][i] == ss[i + 1];
      WordsOfBlank(ss[1..]);
    }
  }

  /** A single frame's page carries the whole transcript. */
  lemma OneFrameTexts(frame: VideoProcessor.FrameData, open: VideoProcessor.FrameData -> Opened,
                      transcript: string)
    requires '|' !in transcript
    ensures var t := StyleTexts(FramePages([frame], open, transcript), TranscriptStyle);
      (transcript == [] || Split(transcript) != [] ==> WordsOf(t) == Split(transcript))
      && (transcript != [] && Split(transcript) == [] ==> t == [NoAudioText])
  {
    var segments := FrameSegments(transcript, 1);
    var blocks := FrameBlocks([frame], open, segments);
    assert segments == [transcript];
    assert Concat(blocks) == blocks[0] by {
      assert blocks[..0] == [];
    }
    assert blocks[0] == FrameBlock(frame, open(frame), segments, 0, 1);
    FrameBlockTexts(frame, open(frame), segments, 0, 1);
    if transcript == [] || Split(transcript) != [] {
      SegmentKeepsWords(segments, 0);
    } else {
      SegmentBlockTexts(segments, 0);
      SplitEmpty(transcript);
      StripEmpty(transcript);
    }
  }

  /** The frame pages carry the transcript: for a transcript without `|`
      and more than one frame, the words of their transcript paragraphs,
      in order, are the words of the transcript. With a single frame the
      same holds unless the transcript is whitespace only, when the page
      has the no-audio line instead. */
  lemma FramePagesKeepWords(frames: seq<VideoProcessor.FrameData>, open: VideoProcessor.FrameData -> Opened,
                            transcript: string)
    requires '|' !in transcript
    ensures var t := StyleTexts(FramePages(frames, open, transcript), TranscriptStyle);
      (|frames| > 1 || (|frames| == 1 && (transcript == [] || Split(transcript) != [])) ==> WordsOf(t) == Split(transcript))
      && (|frames| == 1 && transcript != [] && Split(transcript) == [] ==> t == [NoAudioText])
  {
    if |frames| > 1 {
      ManyFramesKeepWords(frames, open, transcript);
    } else if |frames| == 1 {
      assert frames == [frames[0]];
      OneFrameTexts(frames[0], open, transcript);
    }
  }



  /** The transcript-only page carries the transcript, or its
      no-transcript line. */
  lemma TranscriptOnlyTexts(transcript: string)
    requires '|' !in transcript
    ensures var t := StyleTexts(TranscriptOnlyPages(transcript), TranscriptStyle);
      (transcript != [] ==> WordsOf(t) == Split(transcript))
      && (transcript == [] ==> t == [NoTranscriptText])
  {
    var head := [Paragraph(Heading2, CompleteTranscriptHeading), Spacer(0.3 * Inch)];
    var body := if transcript != [] then Paragraphs(TranscriptStyle, FormattedParagraphs(transcript))
                else [Paragraph(TranscriptStyle, NoTranscriptText)];
    assert TranscriptOnlyPages(transcript) == head + body;
    assert NoStyle(head, TranscriptStyle);
    NoStyleTexts(head, TranscriptStyle);
    StyleTextsAppend(head, body, TranscriptStyle);
    if transcript != [] {
      StyleTextsParagraphs(TranscriptStyle, FormattedParagraphs(transcript));
      FormattedKeepsWords(transcript);
      assert StyleTexts(TranscriptOnlyPages(transcript), TranscriptStyle) == FormattedParagraphs(transcript);
    } else {
      assert body[..0] == [];
    }
  }

  /** The content pages have no paragraph in the appendix style. */
  lemma ContentNoAppendixStyle(frames: seq<VideoProcessor.FrameData>, open: VideoProcessor.FrameData -> Opened,
                               transcript: string)
    ensures NoStyle(ContentPages(frames, open, transcript), FullTranscriptStyle)
  {
    if frames != [] {
      var segments := FrameSegments(transcript, |frames|);
      var blocks := FrameBlocks(frames, open, segments);
      forall i | 0 <= i < |blocks| ensures NoStyle(blocks[i], FullTranscriptStyle) {
        assert blocks[i] == FrameBlock(frames[i], open(frames[i]), segments, i, |frames|);
        FrameBlockNoAppendixStyle(frames[i], open(frames[i]), segments, i, |frames|);
      }
      NoStyleConcat(blocks, FullTranscriptStyle);
    } else {
      var body := if transcript != [] then Paragraphs(TranscriptStyle, FormattedParagraphs(transcript))
                  else [Paragraph(TranscriptStyle, NoTranscriptText)];
      NoStyleAppend([Paragraph(Heading2, CompleteTranscriptHeading), Spacer(0.3 * Inch)], body, FullTranscriptStyle);
    }
  }

  /** The appendix has no paragraph in the transcript style. */
  lemma AppendixNoBodyStyle(transcript: string)
    ensures NoStyle(FullTranscriptSection(transcript), TranscriptStyle)
  {
    var head := [PageBreak, Paragraph(TitleStyle, AppendixHeading), Spacer(0.3 * Inch)];
    if transcript != [] {
      AppendixNoTranscriptStyle(FormattedParagraphs(transcript));
    }
    NoStyleAppend(head, AppendixBody(transcript), TranscriptStyle);
  }

  /** The report carries the transcript twice, for a transcript without
      `|`: the words of the appendix paragraphs, in order, are the words of
      the transcript, and so are the words of the transcript paragraphs on
      the pages before it (the frames' shares, or the transcript-only
      page). The exceptions are fixed lines: "No transcript available" in
      the appendix and "No transcript available." on the transcript-only
      page for an empty transcript, and the no-audio line on the single
      frame's page for a transcript of whitespace only. */
  lemma StoryKeepsWords(frames: seq<VideoProcessor.FrameData>, open: VideoProcessor.FrameData -> Opened,
                        transcript: string, videoFilename: string)
    requires '|' !in transcript
    ensures var s := Story(frames, open, transcript, videoFilename);
      var body := StyleTexts(s, TranscriptStyle);
      var full := StyleTexts(s, FullTranscriptStyle);
      (transcript != [] ==> WordsOf(full) == Split(transcript))
      && (transcript == [] ==> full == [NoTranscriptShort])
      && ((frames == [] && transcript != []) || |frames| > 1
          || (|frames| == 1 && (transcript == [] || Split(transcript) != []))
          ==> WordsOf(body) == Split(transcript))
      && (frames == [] && transcript == [] ==> body == [NoTranscriptText])
      && (|frames| == 1 && transcript != [] && Split(transcript) == [] ==> body == [NoAudioText])
  {
    StoryTexts(frames, open, transcript, videoFilename);
    AppendixKeepsWords(transcript);
    ContentKeepsWords(frames, open, transcript);
  }

  /** The transcript-style paragraphs of the story are those of its content
      pages, and its appendix-style paragraphs are those of the appendix. */
  lemma StoryTexts(frames: seq<VideoProcessor.FrameData>, open: VideoProcessor.FrameData -> Opened,
                   transcript: string, videoFilename: string)
    ensures StyleTexts(Story(frames, open, transcript, videoFilename), TranscriptStyle)
      == StyleTexts(ContentPages(frames, open, transcript), TranscriptStyle)
    ensures StyleTexts(Story(frames, open, transcript, videoFilename), FullTranscriptStyle)
      == StyleTexts(FullTranscriptSection(transcript), FullTranscriptStyle)
  {
    var title := TitlePage(videoFilename, |frames|);
    var content := ContentPages(frames, open, transcript);
    var appendix := FullTranscriptSection(transcript);
    TitleNoStyle(videoFilename, |frames|, TranscriptStyle);
    TitleNoStyle(videoFilename, |frames|, FullTranscriptStyle);
    AppendixNoBodyStyle(transcript);
    ContentNoAppendixStyle(frames, open, transcript);
    PartsTexts(title, content, appendix);
  }

  lemma TitleNoStyle(videoFilename: string, frameCount: nat, style: Style)
    requires style != TitleStyle
    ensures NoStyle(TitlePage(videoFilename, frameCount), style)
  {
  }

  /** The story's parts, as `StoryTexts` needs them. */
  lemma PartsTexts(title: seq<Flowable>, content: seq<Flowable>, appendix: seq<Flowable>)
    requires NoStyle(title, TranscriptStyle) && NoStyle(title, FullTranscriptStyle)
    requires NoStyle(appendix, TranscriptStyle) && NoStyle(content, FullTranscriptStyle)
    ensures StyleTexts(title + content + appendix, TranscriptStyle) == StyleTexts(content, TranscriptStyle)
    ensures StyleTexts(title + content + appendix, FullTranscriptStyle) == StyleTexts(appendix, FullTranscriptStyle)
  {
    MiddleTexts(title, content, appendix, TranscriptStyle);
    NoStyleAppend(title, content, FullTranscriptStyle);
    MiddleTexts(title + content, appendix, [], FullTranscriptStyle);
    assert title + content + appendix + [] == title + content + appendix;
  }

  /** Parts with no paragraph in a style leave the texts of that style to
      the part between them. */
  lemma MiddleTexts(a: seq<Flowable>, b: seq<Flowable>, c: seq<Flowable>, style: Style)
    requires NoStyle(a, style) && NoStyle(c, style)
    ensures StyleTexts(a + b + c, style) == StyleTexts(b, style)
  {
    NoStyleTexts(a, style);
    NoStyleTexts(c, style);
    StyleTextsAppend(a, b, style);
    StyleTextsAppend(a + b, c, style);
  }


  /** The content pages carry the transcript: see `StoryKeepsWords`. */
  lemma ContentKeepsWords(frames: seq<VideoProcessor.FrameData>, open: VideoProcessor.FrameData -> Opened,
                          transcript: string)
    requires '|' !in transcript
    ensures var body := StyleTexts(ContentPages(frames, open, transcript), TranscriptStyle);
      ((frames == [] && transcript != []) || |frames| > 1
       || (|frames| == 1 && (transcript == [] || Split(transcript) != []))
       ==> WordsOf(body) == Split(transcript))
      && (frames == [] && transcript == [] ==> body == [NoTranscriptText])
      && (|frames| == 1 && transcript != [] && Split(transcript) == [] ==> body == [NoAudioText])
  {
    if frames == [] {
      TranscriptOnlyTexts(transcript);
    } else {
      FramePagesKeepWords(frames, open, transcript);
    }
  }


}

=== FILE: strings.dfy ===
/** The built-in Python string operations the app relies on (`str.split()`,
    `str.split(sep)`, `str.join`, `str.strip`, `str.replace`, `str.lower`,
    `in`, `float()`, `f"{n:0Wd}"`, `sorted` on strings and
    `os.path.splitext`), written as functions over `seq<char>`, together
    with the facts about them that the proofs in this project use. */
module Strings {
  import opened Wrappers

  // ---------------------------------------------------------------------
  // Character classes
  // ---------------------------------------------------------------------

  /** `c.isspace()`: the characters `str.split()` and `str.strip()` treat as
      whitespace. */
  predicate IsSpace(c: char) {
    var n := c as int;
    (9 <= n <= 13) || (28 <= n <= 32) || n == 0x85 || n == 0xA0 || n == 0x1680
    || (0x2000 <= n <= 0x200A) || n == 0x2028 || n == 0x2029 || n == 0x202F
    || n == 0x205F || n == 0x3000
  }

  predicate IsDigit(c: char) {
    '0' <= c <= '9'
  }

  /** `c.isalnum()`, restricted to ASCII letters and digits. */
  predicate IsAlnum(c: char) {
    IsDigit(c) || 'a' <= c <= 'z' || 'A' <= c <= 'Z'
  }

  function LowerChar(c: char): (r: char)
    ensures 'A' <= c <= 'Z' ==> 'a' <= r <= 'z' && r as int == c as int + 32
    ensures !('A' <= c <= 'Z') ==> r == c
  {
    if 'A' <= c <= 'Z' then (c as int + 32) as char else c
  }

  /** `s.lower()` on ASCII letters. */
  function Lower(s: string): (r: string)
    ensures |r| == |s|
    ensures forall i | 0 <= i < |s| :: r[i] == LowerChar(s[i])
  {
    seq(|s|, i requires 0 <= i < |s| => LowerChar(s[i]))
  }

  lemma LowerAppend(a: string, b: string)
    ensures Lower(a + b) == Lower(a) + Lower(b)
  {
  }

  // ---------------------------------------------------------------------
  // Substrings
  // ---------------------------------------------------------------------

  predicate StartsWith(s: string, prefix: string) {
    |prefix| <= |s| && s[..|prefix|] == prefix
  }

  /** `t in s` for strings. */
  predicate Contains(s: string, t: string)
    decreases |s|
  {
    StartsWith(s, t) || (s != [] && Contains(s[1..], t))
  }

  /** A string that holds `t` also holds every prefix of `t`. */
  lemma {:induction false} ContainsPrefix(s: string, t: string, k: nat)
    requires Contains(s, t) && k <= |t|
    ensures Contains(s, t[..k])
    decreases |s|
  {
    if StartsWith(s, t) {
      assert s[..k] == t[..k];
    } else {
      ContainsPrefix(s[1..], t, k);
    }
  }

  /** `s` does not contain `c` as a character, so no string starting with `c`
      occurs in it. */
  lemma {:induction false} NotContainsFirstChar(s: string, t: string)
    requires t != [] && t[0] !in s
    ensures !Contains(s, t)
    decreases |s|
  {
    if s != [] {
      assert s[0] in s;
      assert s[1..] <= s[1..];
      forall x | x in s[1..] ensures x in s { }
      NotContainsFirstChar(s[1..], t);
    }
  }

  /** No two neighbouring characters of `s` are the first two of `t`, so
      `t` does not occur in `s`. */
  lemma {:induction false} NotContainsFirstPair(s: string, t: string)
    requires |t| >= 2
    requires forall i | 0 <= i < |s| - 1 :: !(s[i] == t[0] && s[i + 1] == t[1])
    ensures !Contains(s, t)
    decreases |s|
  {
    if s != [] {
      assert !StartsWith(s, t) by {
        if |t| <= |s| {
          assert s[..|t|][0] == s[0] && s[..|t|][1] == s[1];
        }
      }
      forall i | 0 <= i < |s[1..]| - 1 ensures !(s[1..][i] == t[0] && s[1..][i + 1] == t[1]) {
        assert s[1..][i] == s[i + 1] && s[1..][i + 1] == s[i + 2];
      }
      NotContainsFirstPair(s[1..], t);
    }
  }

  /** `t` occurs in `s` at position `i`. */
  lemma {:induction false} ContainsAt(s: string, t: string, i: nat)
    requires i + |t| <= |s| && s[i..i + |t|] == t
    ensures Contains(s, t)
    decreases i
  {
    if i > 0 {
      assert s[1..][i - 1..i - 1 + |t|] == s[i..i + |t|];
      ContainsAt(s[1..], t, i - 1);
    }
  }

  lemma {:induction false} ContainsAppendLeft(a: string, b: string, t: string)
    requires Contains(b, t)
    ensures Contains(a + b, t)
    decreases |a|
  {
    if a != [] {
      assert (a + b)[1..] == a[1..] + b;
      ContainsAppendLeft(a[1..], b, t);
    } else {
      assert a + b == b;
    }
  }

  /** When `t`'s first character does not occur in `a`, an occurrence of
      `t` in `a + b` lies inside `b`. */
  lemma {:induction false} ContainsAfterPrefix(a: string, b: string, t: string)
    requires t != [] && t[0] !in a && Contains(a + b, t)
    ensures Contains(b, t)
    decreases |a|
  {
    if a != [] {
      assert (a + b)[0] == a[0] && a[0] in a;
      assert (a + b)[1..] == a[1..] + b;
      assert t[0] !in a[1..] by {
        forall x | x in a[1..] ensures x in a { }
      }
      ContainsAfterPrefix(a[1..], b, t);
    } else {
      assert a + b == b;
    }
  }

  /** A string that holds `a + b` also holds `b`. */
  lemma {:induction false} ContainsSuffix(s: string, a: string, b: string)
    requires Contains(s, a + b)
    ensures Contains(s, b)
    decreases |s|
  {
    if StartsWith(s, a + b) {
      assert s[|a|..|a| + |b|] == s[..|a + b|][|a|..] == b;
      ContainsAt(s, b, |a|);
    } else {
      ContainsSuffix(s[1..], a, b);
      ContainsAppendLeft([s[0]], s[1..], b);
      assert [s[0]] + s[1..] == s;
    }
  }

  // ---------------------------------------------------------------------
  // str.split(): whitespace-separated words
  // ---------------------------------------------------------------------

  predicate NoSpace(w: string) {
    forall i | 0 <= i < |w| :: !IsSpace(w[i])
  }

  predicate AllSpace(s: string) {
    forall i | 0 <= i < |s| :: IsSpace(s[i])
  }

  predicate IsWord(w: string) {
    w != [] && NoSpace(w)
  }

  /** The words of `s`, where `cur` is the part of a word read before `s`. */
  function SplitFrom(cur: string, s: string): seq<string>
    decreases |s|
  {
    if s == [] then (if cur == [] then [] else [cur])
    else if IsSpace(s[0]) then (if cur == [] then [] else [cur]) + SplitFrom([], s[1..])
    else SplitFrom(cur + [s[0]], s[1..])
  }

  /** `s.split()`: the maximal runs of non-whitespace characters, in order. */
  function Split(s: string): seq<string> {
    SplitFrom([], s)
  }

  /** A whitespace character cuts the word list in two. */
  lemma {:induction false} SplitFromAround(cur: string, a: string, c: char, b: string)
    requires IsSpace(c)
    ensures SplitFrom(cur, a + [c] + b) == SplitFrom(cur, a) + Split(b)
    decreases |a|
  {
    var s := a + [c] + b;
    if a == [] {
      assert s[0] == c && s[1..] == b;
    } else {
      assert s[0] == a[0] && s[1..] == a[1..] + [c] + b;
      if IsSpace(a[0]) {
        SplitFromAround([], a[1..], c, b);
      } else {
        SplitFromAround(cur + [a[0]], a[1..], c, b);
      }
    }
  }

  lemma SplitAround(a: string, c: char, b: string)
    requires IsSpace(c)
    ensures Split(a + [c] + b) == Split(a) + Split(b)
  {
    SplitFromAround([], a, c, b);
  }

  /** A run of non-whitespace characters is read as one word. */
  lemma {:induction false} SplitFromWord(cur: string, w: string)
    requires NoSpace(w) && cur + w != []
    ensures SplitFrom(cur, w) == [cur + w]
    decreases |w|
  {
    if w != [] {
      assert !IsSpace(w[0]);
      assert NoSpace(w[1..]) by {
        forall i | 0 <= i < |w[1..]| ensures !IsSpace(w[1..][i]) { assert w[1..][i] == w[i + 1]; }
      }
      assert cur + [w[0]] + w[1..] == cur + w;
      SplitFromWord(cur + [w[0]], w[1..]);
    } else {
      assert cur + w == cur;
    }
  }

  lemma SplitWord(w: string)
    requires IsWord(w)
    ensures Split(w) == [w]
  {
    SplitFromWord([], w);
    assert [] + w == w;
  }

  /** Every item `split()` yields is a non-empty run without whitespace. */
  lemma {:induction false} SplitFromWords(cur: string, s: string)
    requires NoSpace(cur)
    ensures forall k | 0 <= k < |SplitFrom(cur, s)| :: IsWord(SplitFrom(cur, s)[k])
    decreases |s|
  {
    if s != [] {
      if IsSpace(s[0]) {
        SplitFromWords([], s[1..]);
      } else {
        SplitFromWords(cur + [s[0]], s[1..]);
      }
    }
  }

  lemma SplitWords(s: string)
    ensures forall k | 0 <= k < |Split(s)| :: IsWord(Split(s)[k])
  {
    SplitFromWords([], s);
  }

  /** The words of `s` are made of characters of `s`: a property every
      character of `s` has, every character of its words has too. */
  lemma {:induction false} SplitFromChars(cur: string, s: string, p: char -> bool)
    requires forall i | 0 <= i < |cur| :: p(cur[i])
    requires forall i | 0 <= i < |s| :: p(s[i])
    ensures forall k, j | 0 <= k < |SplitFrom(cur, s)| && 0 <= j < |SplitFrom(cur, s)[k]| :: p(SplitFrom(cur, s)[k][j])
    decreases |s|
  {
    if s != [] {
      if IsSpace(s[0]) {
        SplitFromChars([], s[1..], p);
      } else {
        SplitFromChars(cur + [s[0]], s[1..], p);
      }
    }
  }

  /** No words at all exactly when every character is whitespace. */
  lemma {:induction false} SplitFromEmpty(cur: string, s: string)
    ensures SplitFrom(cur, s) == [] <==> cur == [] && AllSpace(s)
    decreases |s|
  {
    if s != [] {
      if IsSpace(s[0]) {
        SplitFromEmpty([], s[1..]);
      } else {
        SplitFromEmpty(cur + [s[0]], s[1..]);
      }
    }
  }

  lemma SplitEmpty(s: string)
    ensures Split(s) == [] <==> AllSpace(s)
  {
    SplitFromEmpty([], s);
  }

  /** Whitespace in front of a string adds no word. */
  lemma {:induction false} SplitSpacePrefix(p: string, r: string)
    requires AllSpace(p)
    ensures Split(p + r) == Split(r)
    decreases |p|
  {
    if p != [] {
      assert p + r == [] + [p[0]] + (p[1..] + r);
      SplitAround([], p[0], p[1..] + r);
      SplitSpacePrefix(p[1..], r);
    } else {
      assert p + r == r;
    }
  }

  /** Whitespace after a string adds no word. */
  lemma SplitSpaceSuffix(r: string, p: string)
    requires AllSpace(p)
    ensures Split(r + p) == Split(r)
  {
    if p != [] {
      assert r + p == r + [p[0]] + p[1..];
      SplitAround(r, p[0], p[1..]);
      SplitEmpty(p[1..]);
    } else {
      assert r + p == r;
    }
  }

  // ---------------------------------------------------------------------
  // str.strip()
  // ---------------------------------------------------------------------

  /** `s.lstrip()`: `s` without its leading whitespace. */
  function LStrip(s: string): string
    decreases |s|
  {
    if s != [] && IsSpace(s[0]) then LStrip(s[1..]) else s
  }

  /** What `lstrip()` removes is whitespace, and what it keeps is a suffix
      of `s` that does not start with whitespace. */
  lemma {:induction false} LStripShape(s: string)
    ensures var r := LStrip(s);
      |r| <= |s| && r == s[|s| - |r|..] && AllSpace(s[..|s| - |r|]) && (r == [] || !IsSpace(r[0]))
    decreases |s|
  {
    if s != [] && IsSpace(s[0]) {
      LStripShape(s[1..]);
      var r := LStrip(s);
      assert s[..|s| - |r|] == [s[0]] + s[1..][..|s| - 1 - |r|];
    }
  }

  /** `s.rstrip()`: `s` without its trailing whitespace. */
  function RStrip(s: string): string
    decreases |s|
  {
    if s != [] && IsSpace(s[|s| - 1]) then RStrip(s[..|s| - 1]) else s
  }

  /** What `rstrip()` removes is whitespace, and what it keeps is a prefix
      of `s` that does not end with whitespace. */
  lemma {:induction false} RStripShape(s: string)
    ensures var r := RStrip(s);
      |r| <= |s| && r == s[..|r|] && AllSpace(s[|r|..]) && (r == [] || !IsSpace(r[|r| - 1]))
    decreases |s|
  {
    if s != [] && IsSpace(s[|s| - 1]) {
      RStripShape(s[..|s| - 1]);
      var r := RStrip(s);
      assert s[|r|..] == s[..|s| - 1][|r|..] + [s[|s| - 1]];
    }
  }

  /** `s.strip()`. */
  function Strip(s: string): string {
    RStrip(LStrip(s))
  }

  /** What `strip()` keeps starts and ends with non-whitespace. */
  lemma StripEnds(s: string)
    ensures Strip(s) == [] || (!IsSpace(Strip(s)[0]) && !IsSpace(Strip(s)[|Strip(s)| - 1]))
  {
    var l := LStrip(s);
    var r := RStrip(l);
    LStripShape(s);
    RStripShape(l);
    if r != [] {
      assert r[0] == l[0];
    }
  }

  /** What `strip()` keeps is the piece of `s` after its leading whitespace. */
  lemma StripInfix(s: string)
    ensures |LStrip(s)| <= |s|
    ensures |s| - |LStrip(s)| + |Strip(s)| <= |s|
    ensures Strip(s) == s[|s| - |LStrip(s)|..|s| - |LStrip(s)| + |Strip(s)|]
  {
    var l := LStrip(s);
    var r := RStrip(l);
    LStripShape(s);
    RStripShape(l);
    var i := |s| - |l|;
    assert s[i..i + |r|] == l[..|r|];
  }

  /** `strip()` gives the empty string exactly when `s` is all whitespace. */
  lemma StripEmpty(s: string)
    ensures Strip(s) == [] <==> AllSpace(s)
  {
    var l := LStrip(s);
    var r := RStrip(l);
    LStripShape(s);
    RStripShape(l);
    var i := |s| - |l|;
    if r == [] {
      assert l == [];
      forall k | 0 <= k < |s| ensures IsSpace(s[k]) {
        assert s[k] == s[..i][k];
      }
    } else if AllSpace(s) {
      assert false;
    }
  }

  /** Stripping never changes the words. */
  lemma SplitStrip(s: string)
    ensures Split(Strip(s)) == Split(s)
  {
    var l := LStrip(s);
    var r := RStrip(l);
    LStripShape(s);
    RStripShape(l);
    assert s == s[..|s| - |l|] + l;
    SplitSpacePrefix(s[..|s| - |l|], l);
    assert l == r + l[|r|..];
    SplitSpaceSuffix(r, l[|r|..]);
  }

  /** A string that starts and ends with non-whitespace is its own strip. */
  lemma StripNoop(s: string)
    requires s == [] || (!IsSpace(s[0]) && !IsSpace(s[|s| - 1]))
    ensures Strip(s) == s
  {
  }

  // ---------------------------------------------------------------------
  // str.join, and the words of several strings
  // ---------------------------------------------------------------------

  /** `sep.join(parts)`. */
  function Join(sep: string, parts: seq<string>): string
    decreases |parts|
  {
    if |parts| == 0 then []
    else if |parts| == 1 then parts[0]
    else parts[0] + sep + Join(sep, parts[1..])
  }

  lemma {:induction false} JoinSnoc(sep: string, parts: seq<string>, p: string)
    ensures Join(sep, parts + [p]) == if parts == [] then p else Join(sep, parts) + sep + p
    decreases |parts|
  {
    if |parts| >= 2 {
      assert (parts + [p])[1..] == parts[1..] + [p];
      JoinSnoc(sep, parts[1..], p);
    } else if |parts| == 1 {
      assert (parts + [p])[1..] == [p];
    }
  }

  /** Joining brings in no character that is not in `sep` or in a part. */
  lemma {:induction false} JoinChars(sep: string, parts: seq<string>, p: char -> bool)
    requires forall i | 0 <= i < |sep| :: p(sep[i])
    requires forall k, j | 0 <= k < |parts| && 0 <= j < |parts[k]| :: p(parts[k][j])
    ensures forall i | 0 <= i < |Join(sep, parts)| :: p(Join(sep, parts)[i])
    decreases |parts|
  {
    if |parts| >= 2 {
      JoinChars(sep, parts[1..], p);
      var a := parts[0] + sep;
      var b := Join(sep, parts[1..]);
      forall i | 0 <= i < |a + b| ensures p((a + b)[i]) {
        if i < |parts[0]| {
          assert (a + b)[i] == parts[0][i];
        } else if i < |a| {
          assert (a + b)[i] == sep[i - |parts[0]|];
        } else {
          assert (a + b)[i] == b[i - |a|];
        }
      }
    } else if |parts| == 1 {
      assert forall i | 0 <= i < |parts[0]| :: p(parts[0][i]);
    }
  }

  /** The words of every string of `ss`, in order. */
  function WordsOf(ss: seq<string>): seq<string>
    decreases |ss|
  {
    if ss == [] then [] else Split(ss[0]) + WordsOf(ss[1..])
  }

  lemma {:induction false} WordsOfAppend(a: seq<string>, b: seq<string>)
    ensures WordsOf(a + b) == WordsOf(a) + WordsOf(b)
    decreases |a|
  {
    if a != [] {
      assert (a + b)[1..] == a[1..] + b;
      WordsOfAppend(a[1..], b);
    } else {
      assert a + b == b;
    }
  }

  /** Joining with a space and splitting again gives the words of the parts. */
  lemma {:induction false} SplitJoin(ss: seq<string>)
    ensures Split(Join(" ", ss)) == WordsOf(ss)
    decreases |ss|
  {
    if |ss| == 1 {
      assert WordsOf(ss) == Split(ss[0]) + WordsOf([]);
    } else if |ss| >= 2 {
      SplitAround(ss[0], ' ', Join(" ", ss[1..]));
      assert ss[0] + " " + Join(" ", ss[1..]) == ss[0] + [' '] + Join(" ", ss[1..]);
      SplitJoin(ss[1..]);
    }
  }

  /** A list of words is its own word list. */
  lemma {:induction false} WordsOfWords(ws: seq<string>)
    requires forall k | 0 <= k < |ws| :: IsWord(ws[k])
    ensures WordsOf(ws) == ws
    decreases |ws|
  {
    if ws != [] {
      SplitWord(ws[0]);
      WordsOfWords(ws[1..]);
    }
  }

  /** `' '.join(words).split() == words`. */
  lemma SplitJoinWords(ws: seq<string>)
    requires forall k | 0 <= k < |ws| :: IsWord(ws[k])
    ensures Split(Join(" ", ws)) == ws
  {
    SplitJoin(ws);
    WordsOfWords(ws);
  }

  // ---------------------------------------------------------------------
  // Filtering: a comprehension with an `if` clause
  // ---------------------------------------------------------------------

  /** `[x for x in s if p(x)]` (for a string, `''.join(c for c in s if
      p(c))`): the elements of `s` that satisfy `p`; `FilterAppend` says
      they stay in order and `FilterCount` that each is kept as often as it
      occurs. */
  function Filter<T(==,!new)>(s: seq<T>, p: T -> bool): (r: seq<T>)
    ensures |r| <= |s|
    ensures forall k | 0 <= k < |r| :: p(r[k])
    ensures multiset(r) <= multiset(s)
    ensures (forall k | 0 <= k < |s| :: p(s[k])) ==> r == s
    decreases |s|
  {
    if s == [] then []
    else
      var init := s[..|s| - 1];
      var last := s[|s| - 1];
      assert s == init + [last];
      Filter(init, p) + (if p(last) then [last] else [])
  }

  /** Filtering a concatenation filters each part: what is kept stays in
      the order of the input. */
  lemma {:induction false} FilterAppend<T(!new)>(a: seq<T>, b: seq<T>, p: T -> bool)
    ensures Filter(a + b, p) == Filter(a, p) + Filter(b, p)
    decreases |b|
  {
    if b == [] {
      assert a + b == a;
    } else {
      var init := b[..|b| - 1];
      assert (a + b)[..|a + b| - 1] == a + init;
      assert (a + b)[|a + b| - 1] == b[|b| - 1];
      FilterAppend(a, init, p);
    }
  }

  /** A single element is kept exactly when it satisfies `p`. */
  lemma FilterSingle<T(!new)>(x: T, p: T -> bool)
    ensures Filter([x], p) == if p(x) then [x] else []
  {
    assert [x][..0] == [];
  }

  /** The first element is kept, in front, exactly when it satisfies `p`. */
  lemma FilterCons<T(!new)>(x: T, s: seq<T>, p: T -> bool)
    ensures Filter([x] + s, p) == (if p(x) then [x] else []) + Filter(s, p)
  {
    FilterAppend([x], s, p);
    FilterSingle(x, p);
  }

  /** Exactly the elements of `s` that satisfy `p` are kept. */
  lemma FilterMembers<T(!new)>(s: seq<T>, p: T -> bool)
    ensures forall x :: x in Filter(s, p) <==> x in s && p(x)
  {
    forall x ensures x in Filter(s, p) <==> x in s && p(x) {
      if x in Filter(s, p) {
        assert x in multiset(Filter(s, p));
      }
      if x in s && p(x) {
        FilterCount(s, p, x);
        assert x in multiset(s);
      }
    }
  }

  /** An element that satisfies `p` is kept as often as it occurs in `s`. */
  lemma {:induction false} FilterCount<T(!new)>(s: seq<T>, p: T -> bool, x: T)
    requires p(x)
    ensures multiset(Filter(s, p))[x] == multiset(s)[x]
    decreases |s|
  {
    if s != [] {
      var init := s[..|s| - 1];
      assert s == init + [s[|s| - 1]];
      FilterCount(init, p, x);
    }
  }

  /** Whatever holds of every element of `s` holds of every element kept. */
  lemma FilterKeeps<T(!new)>(s: seq<T>, p: T -> bool, q: T -> bool)
    requires forall k | 0 <= k < |s| :: q(s[k])
    ensures forall k | 0 <= k < |Filter(s, p)| :: q(Filter(s, p)[k])
  {
    var r := Filter(s, p);
    forall k | 0 <= k < |r| ensures q(r[k]) {
      assert r[k] in multiset(r);
    }
  }

  // ---------------------------------------------------------------------
  // Character replacement, str.replace and str.split(sep)
  // ---------------------------------------------------------------------

  /** `s` with every `from` character turned into `to`. */
  function ReplaceChar(s: string, from: char, to: char): (r: string)
    ensures |r| == |s|
    ensures forall i | 0 <= i < |s| :: r[i] == if s[i] == from then to else s[i]
  {
    seq(|s|, i requires 0 <= i < |s| => if s[i] == from then to else s[i])
  }

  lemma ReplaceCharAppend(a: string, b: string, from: char, to: char)
    ensures ReplaceChar(a + b, from, to) == ReplaceChar(a, from, to) + ReplaceChar(b, from, to)
  {
  }

  lemma ReplaceCharCons(s: string, from: char, to: char)
    requires s != []
    ensures ReplaceChar(s, from, to) == [if s[0] == from then to else s[0]] + ReplaceChar(s[1..], from, to)
  {
    assert s == [s[0]] + s[1..];
    ReplaceCharAppend([s[0]], s[1..], from, to);
  }

  lemma ReplaceCharAbsent(s: string, from: char, to: char)
    requires from !in s
    ensures ReplaceChar(s, from, to) == s
  {
  }

  /** `s.replace(pat, rep)`: occurrences of `pat` taken left to right, without
      overlap. */
  function ReplaceAll(s: string, pat: string, rep: string): string
    requires pat != []
    decreases |s|
  {
    if |s| < |pat| then s
    else if s[..|pat|] == pat then rep + ReplaceAll(s[|pat|..], pat, rep)
    else [s[0]] + ReplaceAll(s[1..], pat, rep)
  }

  /** Replacing `c` + space by `c` + `to` is undone by turning every `to`
      back into a space. */
  lemma {:induction false} ReplaceAllSpaceUndone(s: string, c: char, to: char)
    ensures ReplaceChar(ReplaceAll(s, [c, ' '], [c, to]), to, ' ') == ReplaceChar(s, to, ' ')
    decreases |s|
  {
    var pat := [c, ' '];
    if |s| >= |pat| {
      if s[..2] == pat {
        assert s == pat + s[2..];
        ReplaceAllSpaceUndone(s[2..], c, to);
        ReplaceCharAppend([c, to], ReplaceAll(s[2..], pat, [c, to]), to, ' ');
        ReplaceCharAppend(pat, s[2..], to, ' ');
      } else {
        assert s == [s[0]] + s[1..];
        ReplaceAllSpaceUndone(s[1..], c, to);
        ReplaceCharAppend([s[0]], ReplaceAll(s[1..], pat, [c, to]), to, ' ');
        ReplaceCharAppend([s[0]], s[1..], to, ' ');
      }
    }
  }

  /** The pieces of `s` cut at `sep`, where `cur` is the piece read before `s`. */
  function SplitOnFrom(cur: string, s: string, sep: char): (r: seq<string>)
    ensures |r| >= 1
    decreases |s|
  {
    if s == [] then [cur]
    else if s[0] == sep then [cur] + SplitOnFrom([], s[1..], sep)
    else SplitOnFrom(cur + [s[0]], s[1..], sep)
  }

  /** `s.split(sep)` for a one-character separator: always at least one piece. */
  function SplitOn(s: string, sep: char): seq<string> {
    SplitOnFrom([], s, sep)
  }

  /** Gluing the pieces back with `d` gives `s` with each separator replaced
      by `d`. */
  lemma {:induction false} JoinSplitOnFrom(cur: string, s: string, sep: char, d: char)
    ensures Join([d], SplitOnFrom(cur, s, sep)) == cur + ReplaceChar(s, sep, d)
    decreases |s|
  {
    if s == [] {
    } else if s[0] == sep {
      var rest := SplitOnFrom([], s[1..], sep);
      assert ([cur] + rest)[1..] == rest;
      JoinSplitOnFrom([], s[1..], sep, d);
      ReplaceCharCons(s, sep, d);
    } else {
      JoinSplitOnFrom(cur + [s[0]], s[1..], sep, d);
      ReplaceCharCons(s, sep, d);
    }
  }

  lemma JoinSplitOn(s: string, sep: char, d: char)
    ensures Join([d], SplitOn(s, sep)) == ReplaceChar(s, sep, d)
  {
    JoinSplitOnFrom([], s, sep, d);
  }

  lemma {:induction false} SplitOnFromNoSep(cur: string, s: string, sep: char)
    requires sep !in s
    ensures SplitOnFrom(cur, s, sep) == [cur + s]
    decreases |s|
  {
    if s != [] {
      assert s[0] != sep;
      assert cur + [s[0]] + s[1..] == cur + s;
      SplitOnFromNoSep(cur + [s[0]], s[1..], sep);
    } else {
      assert cur + s == cur;
    }
  }

  /** Without a separator there is one piece, the whole string. */
  lemma SplitOnNoSep(s: string, sep: char)
    requires sep !in s
    ensures SplitOn(s, sep) == [s]
  {
    SplitOnFromNoSep([], s, sep);
    assert [] + s == s;
  }

  /** A separator closes the piece being read. */
  lemma {:induction false} SplitOnFromSep(cur: string, a: string, sep: char, b: string)
    requires sep !in a
    ensures SplitOnFrom(cur, a + [sep] + b, sep) == [cur + a] + SplitOnFrom([], b, sep)
    decreases |a|
  {
    var s := a + [sep] + b;
    if a == [] {
      assert s[0] == sep && s[1..] == b;
      assert cur + a == cur;
    } else {
      assert s[0] == a[0] && a[0] != sep && s[1..] == a[1..] + [sep] + b;
      assert sep !in a[1..] by {
        forall x | x in a[1..] ensures x in a { }
      }
      assert cur + [a[0]] + a[1..] == cur + a;
      SplitOnFromSep(cur + [a[0]], a[1..], sep, b);
    }
  }

  /** One separator gives exactly the two pieces around it. */
  lemma SplitOnSingleSep(a: string, sep: char, b: string)
    requires sep !in a && sep !in b
    ensures SplitOn(a + [sep] + b, sep) == [a, b]
  {
    SplitOnFromSep([], a, sep, b);
    SplitOnNoSep(b, sep);
    assert [] + a == a;
  }

  /** Splitting at `sep` undoes joining with `sep`, when no piece holds `sep`. */
  lemma {:induction false} SplitOnJoin(parts: seq<string>, sep: char)
    requires |parts| >= 1
    requires forall k | 0 <= k < |parts| :: sep !in parts[k]
    ensures SplitOn(Join([sep], parts), sep) == parts
    decreases |parts|
  {
    if |parts| == 1 {
      SplitOnNoSep(parts[0], sep);
    } else {
      var rest := Join([sep], parts[1..]);
      assert Join([sep], parts) == parts[0] + [sep] + rest;
      SplitOnFromSep([], parts[0], sep, rest);
      assert [] + parts[0] == parts[0];
      SplitOnJoin(parts[1..], sep);
      assert parts == [parts[0]] + parts[1..];
    }
  }

  // ---------------------------------------------------------------------
  // Decimal numbers: f"{n}", f"{n:0Wd}" and float()
  // ---------------------------------------------------------------------

  function DigitChar(d: nat): (c: char)
    requires d < 10
    ensures IsDigit(c)
  {
    ('0' as int + d) as char
  }

  function DigitValue(c: char): (d: nat)
    requires IsDigit(c)
    ensures d < 10 && DigitChar(d) == c
  {
    c as int - '0' as int
  }

  predicate AllDigits(s: string) {
    forall i | 0 <= i < |s| :: IsDigit(s[i])
  }

  /** `str(n)` for a natural number. */
  function NatToString(n: nat): (r: string)
    ensures r != [] && AllDigits(r)
    decreases n
  {
    if n < 10 then [DigitChar(n)] else NatToString(n / 10) + [DigitChar(n % 10)]
  }

  /** The value of a string of decimal digits (0 for the empty string). */
  function DigitsValue(s: string): nat
    requires AllDigits(s)
    decreases |s|
  {
    if s == [] then 0 else DigitsValue(s[..|s| - 1]) * 10 + DigitValue(s[|s| - 1])
  }

  /** Printing a number and reading it back gives the number. */
  lemma {:induction false} DigitsValueNatToString(n: nat)
    ensures DigitsValue(NatToString(n)) == n
    decreases n
  {
    if n >= 10 {
      var s := NatToString(n);
      assert s[..|s| - 1] == NatToString(n / 10);
      DigitsValueNatToString(n / 10);
    }
  }

  function Repeat(c: char, k: nat): (r: string)
    ensures |r| == k && forall i | 0 <= i < k :: r[i] == c
  {
    seq(k, _ => c)
  }

  /** `s` padded on the left with '0' up to `width` characters. */
  function ZeroPad(s: string, width: nat): (r: string)
    ensures |r| == if |s| >= width then |s| else width
    ensures r[|r| - |s|..] == s
    ensures forall i | 0 <= i < |r| - |s| :: r[i] == '0'
  {
    if |s| >= width then s else Repeat('0', width - |s|) + s
  }

  /** Leading zeros do not change the value of a digit string. */
  lemma {:induction false} DigitsValueLeadingZeros(k: nat, s: string)
    requires AllDigits(s)
    ensures AllDigits(Repeat('0', k) + s) && DigitsValue(Repeat('0', k) + s) == DigitsValue(s)
    decreases |s|
  {
    var t := Repeat('0', k) + s;
    if s == [] {
      assert t == Repeat('0', k);
      ZerosValue(k);
    } else {
      assert t[..|t| - 1] == Repeat('0', k) + s[..|s| - 1];
      DigitsValueLeadingZeros(k, s[..|s| - 1]);
    }
  }

  lemma {:induction false} ZerosValue(k: nat)
    ensures DigitsValue(Repeat('0', k)) == 0
    decreases k
  {
    if k > 0 {
      assert Repeat('0', k)[..k - 1] == Repeat('0', k - 1);
      ZerosValue(k - 1);
    }
  }

  /** `f"{n:0{width}d}"` reads back as `n`. */
  lemma ZeroPadValue(n: nat, width: nat)
    ensures AllDigits(ZeroPad(NatToString(n), width))
    ensures DigitsValue(ZeroPad(NatToString(n), width)) == n
  {
    var s := NatToString(n);
    DigitsValueNatToString(n);
    if |s| < width {
      DigitsValueLeadingZeros(width - |s|, s);
    }
  }

  function Pow10(k: nat): (r: nat)
    ensures r >= 1
  {
    if k == 0 then 1 else 10 * Pow10(k - 1)
  }

  /** `float()` of an unsigned decimal: digits with at most one '.', and at
      least one digit. */
  function ParseUnsigned(t: string): Option<real> {
    var parts := SplitOn(t, '.');
    if |parts| == 1 then
      (if t != [] && AllDigits(t) then Some(DigitsValue(t) as real) else None)
    else if |parts| == 2 && AllDigits(parts[0]) && AllDigits(parts[1])
            && (parts[0] != [] || parts[1] != []) then
      Some(DigitsValue(parts[0]) as real + DigitsValue(parts[1]) as real / Pow10(|parts[1]|) as real)
    else None
  }

  /** `float(s)` for decimal notation: surrounding whitespace, an optional
      sign, then an unsigned decimal. */
  function ParseFloat(s: string): Option<real> {
    var t := Strip(s);
    if t != [] && (t[0] == '-' || t[0] == '+') then
      match ParseUnsigned(t[1..])
      case None => None
      case Some(v) => Some(if t[0] == '-' then -v else v)
    else ParseUnsigned(t)
  }

  /** `float(str(n)) == n`. */
  lemma ParseFloatNat(n: nat)
    ensures ParseFloat(NatToString(n)) == Some(n as real)
  {
    var s := NatToString(n);
    assert !IsSpace(s[0]) && !IsSpace(s[|s| - 1]);
    StripNoop(s);
    assert '.' !in s by {
      forall i | 0 <= i < |s| ensures s[i] != '.' { assert IsDigit(s[i]); }
    }
    SplitOnNoSep(s, '.');
    DigitsValueNatToString(n);
  }

  // ---------------------------------------------------------------------
  // os.path.splitext (POSIX)
  // ---------------------------------------------------------------------

  /** `s.rfind(c)`: the last index of `c`, or -1. */
  function RFind(s: string, c: char): (r: int)
    ensures -1 <= r < |s|
    ensures r >= 0 ==> s[r] == c
    ensures forall j | r < j < |s| :: s[j] != c
    decreases |s|
  {
    if s == [] then -1 else if s[|s| - 1] == c then |s| - 1 else RFind(s[..|s| - 1], c)
  }

  /** `os.path.splitext(p)`: the extension runs from the last '.' of the last
      path component, unless that component has nothing but dots before it. */
  function SplitExt(p: string): (r: (string, string))
    ensures r.0 + r.1 == p
    ensures r.1 == [] || (r.1[0] == '.' && '.' !in r.1[1..] && '/' !in r.1)
  {
    var sepIndex := RFind(p, '/');
    var dotIndex := RFind(p, '.');
    if dotIndex > sepIndex && exists k | sepIndex + 1 <= k < dotIndex :: p[k] != '.' then
      assert p[..dotIndex] + p[dotIndex..] == p;
      assert forall j | 0 <= j < |p[dotIndex..]| :: p[dotIndex..][j] == p[dotIndex + j];
      (p[..dotIndex], p[dotIndex..])
    else (p, [])
  }

  /** A name without '.' has no extension. */
  lemma SplitExtNoDot(p: string)
    requires '.' !in p
    ensures SplitExt(p) == (p, [])
  {
  }

  /** A stem that ends in neither '.' nor '/', followed by an extension,
      splits back into the two. */
  lemma SplitExtJoin(stem: string, ext: string)
    requires stem != [] && stem[|stem| - 1] != '.' && stem[|stem| - 1] != '/'
    requires |ext| >= 2 && ext[0] == '.' && '.' !in ext[1..] && '/' !in ext
    ensures SplitExt(stem + ext) == (stem, ext)
  {
    var p := stem + ext;
    var dotIndex := RFind(p, '.');
    var sepIndex := RFind(p, '/');
    assert p[|stem|] == '.';
    assert dotIndex == |stem| by {
      assert forall j | |stem| < j < |p| :: p[j] == ext[1..][j - |stem| - 1];
    }
    assert sepIndex < |stem| - 1 by {
      assert forall j | |stem| <= j < |p| :: p[j] == ext[j - |stem|];
    }
    assert p[|stem| - 1] != '.';
    assert p[..dotIndex] == stem && p[dotIndex..] == ext;
  }

  // ---------------------------------------------------------------------
  // Ordering of strings, and sorted()
  // ---------------------------------------------------------------------

  /** `a <= b` for Python strings: lexicographic by code point. */
  predicate LexLe(a: string, b: string)
    decreases |a|
  {
    a == [] || (b != [] && (a[0] < b[0] || (a[0] == b[0] && LexLe(a[1..], b[1..]))))
  }

  lemma {:induction false} LexLeTotal(a: string, b: string)
    ensures LexLe(a, b) || LexLe(b, a)
    decreases |a|
  {
    if a != [] && b != [] && a[0] == b[0] {
      LexLeTotal(a[1..], b[1..]);
    }
  }

  lemma {:induction false} LexLeTrans(a: string, b: string, c: string)
    requires LexLe(a, b) && LexLe(b, c)
    ensures LexLe(a, c)
    decreases |a|
  {
    if a != [] && a[0] == b[0] && b[0] == c[0] {
      LexLeTrans(a[1..], b[1..], c[1..]);
    }
  }

  lemma {:induction false} LexLeAntisym(a: string, b: string)
    requires LexLe(a, b) && LexLe(b, a)
    ensures a == b
    decreases |a|
  {
    if a != [] {
      LexLeAntisym(a[1..], b[1..]);
      assert a == [a[0]] + a[1..] && b == [b[0]] + b[1..];
    }
  }

  predicate Sorted(s: seq<string>) {
    forall i, j | 0 <= i < j < |s| :: LexLe(s[i], s[j])
  }

  function Insert(x: string, s: seq<string>): seq<string>
    decreases |s|
  {
    if s == [] then [x]
    else if LexLe(x, s[0]) then [x] + s
    else [s[0]] + Insert(x, s[1..])
  }

  /** `sorted(s)`, by insertion. */
  function Sort(s: seq<string>): seq<string>
    decreases |s|
  {
    if s == [] then [] else Insert(s[0], Sort(s[1..]))
  }

  lemma {:induction false} InsertPerm(x: string, s: seq<string>)
    ensures multiset(Insert(x, s)) == multiset(s) + multiset{x}
    decreases |s|
  {
    if s != [] {
      assert s == [s[0]] + s[1..];
      if !LexLe(x, s[0]) {
        InsertPerm(x, s[1..]);
      }
    }
  }

  /** Every member of `Insert(x, s)` is `x` or a member of `s`. */
  lemma InsertMember(x: string, s: seq<string>, j: int)
    requires 0 <= j < |Insert(x, s)|
    ensures Insert(x, s)[j] == x || Insert(x, s)[j] in s
  {
    InsertPerm(x, s);
    assert Insert(x, s)[j] in multiset(Insert(x, s));
  }

  lemma {:induction false} InsertSorted(x: string, s: seq<string>)
    requires Sorted(s)
    ensures Sorted(Insert(x, s))
    decreases |s|
  {
    if s != [] && !LexLe(x, s[0]) {
      LexLeTotal(x, s[0]);
      InsertSorted(x, s[1..]);
      var t := Insert(x, s[1..]);
      forall j | 0 <= j < |t| ensures LexLe(s[0], t[j]) {
        InsertMember(x, s[1..], j);
        if t[j] != x {
          var k :| 0 <= k < |s[1..]| && s[1..][k] == t[j];
          assert s[k + 1] == t[j];
        }
      }
      var u := [s[0]] + t;
      forall i, j | 0 <= i < j < |u| ensures LexLe(u[i], u[j]) {
        if i == 0 {
          assert u[j] == t[j - 1];
        } else {
          assert u[i] == t[i - 1] && u[j] == t[j - 1];
        }
      }
    } else if s != [] {
      var u := [x] + s;
      forall i, j | 0 <= i < j < |u| ensures LexLe(u[i], u[j]) {
        if i == 0 && j > 1 {
          LexLeTrans(x, s[0], s[j - 1]);
        }
      }
    }
  }

  /** `sorted` returns the same strings in non-decreasing order. */
  lemma {:induction false} SortCorrect(s: seq<string>)
    ensures Sorted(Sort(s)) && multiset(Sort(s)) == multiset(s)
    decreases |s|
  {
    if s != [] {
      SortCorrect(s[1..]);
      InsertSorted(s[0], Sort(s[1..]));
      InsertPerm(s[0], Sort(s[1..]));
      assert s == [s[0]] + s[1..];
    }
  }

  /** Two sorted arrangements of one collection begin with the same string. */
  lemma SortedSameHead(s: seq<string>, t: seq<string>)
    requires Sorted(s) && Sorted(t) && multiset(s) == multiset(t) && s != []
    ensures t != [] && s[0] == t[0]
  {
    assert s[0] in multiset(t) && t != [];
    assert t[0] in multiset(s);
    var i :| 0 <= i < |t| && t[i] == s[0];
    var j :| 0 <= j < |s| && s[j] == t[0];
    if i > 0 {
      assert LexLe(t[0], t[i]);
    }
    if j > 0 {
      assert LexLe(s[0], s[j]);
    }
    if i > 0 && j > 0 {
      LexLeAntisym(s[0], t[0]);
    }
  }

  lemma TailMultiset(s: seq<string>)
    requires s != []
    ensures multiset(s[1..]) == multiset(s) - multiset{s[0]}
  {
    assert s == [s[0]] + s[1..];
  }

  /** There is only one sorted arrangement of a collection of strings, so the
      insertion sort above yields exactly what any correct sort yields. */
  lemma {:induction false} SortedUnique(s: seq<string>, t: seq<string>)
    requires Sorted(s) && Sorted(t) && multiset(s) == multiset(t)
    ensures s == t
    decreases |s|
  {
    if s == [] {
      assert |t| == |multiset(t)| == 0;
    } else {
      SortedSameHead(s, t);
      TailMultiset(s);
      TailMultiset(t);
      SortedUnique(s[1..], t[1..]);
      assert s == [s[0]] + s[1..] && t == [t[0]] + t[1..];
    }
  }
}

=== FILE: utils.dfy ===
/** The helpers of utils.py: time and size formatting, file-name sanitising,
    text cleaning, the processing-time estimate and the upload check.
    The file system and `mimetypes` enter as parameters: whether the file
    exists, its size in bytes and the guessed MIME type. */
module Utils {
  import opened Wrappers
  import opened Strings

  // ---------------------------------------------------------------------
  // Python number conversions
  // ---------------------------------------------------------------------

  /** `int(x)` of a float: truncation toward zero. */
  function Trunc(x: real): (r: int)
    ensures x >= 0.0 ==> r >= 0 && r as real <= x < r as real + 1.0
    ensures x < 0.0 ==> r <= 0 && r as real - 1.0 < x <= r as real
  {
    if x >= 0.0 then x.Floor else -((-x).Floor)
  }

  /** `x // m` for a float `x` and a positive whole `m`: floor division. */
  function FloorDiv(x: real, m: nat): int
    requires m > 0
  {
    (x / m as real).Floor
  }

  /** `x % m` for a float `x` and a positive whole `m`: never negative. */
  function FloatMod(x: real, m: nat): real
    requires m > 0
  {
    x - m as real * FloorDiv(x, m) as real
  }

  lemma MulNonneg(a: real, b: real)
    requires a >= 0.0 && b >= 0.0
    ensures a * b >= 0.0
  {
  }

  /** Bounds on `y` in units of `m` give bounds on `y / m`. */
  lemma DivBounds(y: real, m: real, q: real)
    requires m > 0.0 && q * m <= y < q * m + m
    ensures q <= y / m < q + 1.0
  {
    var d := y / m;
    assert d * m == y;
    if d < q {
      MulNonneg(q - d, m);
    }
    if d >= q + 1.0 {
      MulNonneg(d - q - 1.0, m);
    }
  }

  /** Floor division of a non-negative float agrees with that of its whole
      part. */
  lemma FloorDivWhole(x: real, m: nat)
    requires x >= 0.0 && m > 0
    ensures FloorDiv(x, m) == x.Floor / m
  {
    var t := x.Floor;
    var q := t / m;
    var r := t % m;
    assert t == q * m + r && 0 <= r < m;
    assert (q * m) as real == q as real * m as real;
    assert (q * m) as real <= x < (q * m + m) as real;
    DivBounds(x, m as real, q as real);
  }

  /** The remainder of a non-negative float is not negative and its whole
      part is the remainder of the whole part. */
  lemma FloatModWhole(x: real, m: nat)
    requires x >= 0.0 && m > 0
    ensures FloatMod(x, m) >= 0.0 && FloatMod(x, m).Floor == x.Floor % m
  {
    FloorDivWhole(x, m);
    var t := x.Floor;
    var q := t / m;
    assert t == q * m + t % m;
    assert (q * m) as real == m as real * q as real;
    assert FloatMod(x, m) == x - (q * m) as real;
  }

  // ---------------------------------------------------------------------
  // format_time
  // ---------------------------------------------------------------------

  /** The hours, minutes and seconds `format_time` prints. */
  function TimeFields(seconds: real): (r: (nat, nat, nat))
    ensures r.1 < 60 && r.2 < 60
    ensures seconds >= 0.0 ==> r.0 * 3600 + r.1 * 60 + r.2 == seconds.Floor
    ensures seconds < 0.0 ==> r == (0, 0, 0)
  {
    if seconds < 0.0 then (0, 0, 0)
    else
      TimeSplit(seconds);
      (FloorDiv(seconds, 3600), FloorDiv(FloatMod(seconds, 3600), 60), FloatMod(seconds, 60).Floor)
  }

  /** The float arithmetic of `format_time` on a non-negative input is the
      whole-number decomposition of its whole part. */
  lemma TimeSplit(x: real)
    requires x >= 0.0
    ensures FloorDiv(x, 3600) == x.Floor / 3600
    ensures FloatMod(x, 3600) >= 0.0 && FloorDiv(FloatMod(x, 3600), 60) == (x.Floor % 3600) / 60
    ensures FloatMod(x, 60).Floor == x.Floor % 60
    ensures x.Floor / 3600 * 3600 + (x.Floor % 3600) / 60 * 60 + x.Floor % 60 == x.Floor
  {
    FloorDivWhole(x, 3600);
    FloatModWhole(x, 3600);
    FloorDivWhole(FloatMod(x, 3600), 60);
    FloatModWhole(x, 60);
    WholeTimeSplit(x.Floor);
  }

  lemma WholeTimeSplit(t: int)
    ensures t / 3600 * 3600 + (t % 3600) / 60 * 60 + t % 60 == t
  {
    var a, b := t / 3600, t % 3600;
    var c, d := b / 60, b % 60;
    assert t == 3600 * a + b;
    assert b == 60 * c + d && 0 <= d < 60;
    assert t == 60 * (60 * a + c) + d;
    assert t % 60 == d;
  }

  /** `f"{n:02d}"`. */
  function Pad2(n: nat): string {
    ZeroPad(NatToString(n), 2)
  }

  /** `format_time(seconds)`: "HH:MM:SS". */
  function FormatTime(seconds: real): string {
    if seconds < 0.0 then "00:00:00"
    else
      var f := TimeFields(seconds);
      Join(":", [Pad2(f.0), Pad2(f.1), Pad2(f.2)])
  }

  lemma Pad2Digits(n: nat)
    ensures |Pad2(n)| >= 2 && AllDigits(Pad2(n)) && ':' !in Pad2(n)
    ensures DigitsValue(Pad2(n)) == n
  {
    var s := ZeroPad(NatToString(n), 2);
    assert s == Pad2(n);
    assert AllDigits(s) && DigitsValue(s) == n by { ZeroPadValue(n, 2); }
    DigitsExclude(s, ':');
  }

  /** A string of digits holds no character that is not a digit. */
  lemma DigitsExclude(s: string, c: char)
    requires AllDigits(s) && !IsDigit(c)
    ensures c !in s
  {
    forall i | 0 <= i < |s| ensures s[i] != c {
      assert IsDigit(s[i]);
    }
  }

  /** Reading the three fields of `format_time`'s text back gives the whole
      seconds: minutes and seconds below 60, every field at least two digits,
      and all zero for a negative input. */
  lemma FormatTimeReadsBack(seconds: real)
    ensures var parts := SplitOn(FormatTime(seconds), ':');
      |parts| == 3
      && (forall k | 0 <= k < 3 :: |parts[k]| >= 2 && AllDigits(parts[k]))
      && DigitsValue(parts[1]) < 60 && DigitsValue(parts[2]) < 60
      && (seconds >= 0.0 ==>
            DigitsValue(parts[0]) * 3600 + DigitsValue(parts[1]) * 60 + DigitsValue(parts[2]) == seconds.Floor)
      && (seconds < 0.0 ==> DigitsValue(parts[0]) == DigitsValue(parts[1]) == DigitsValue(parts[2]) == 0)
  {
    var f := TimeFields(seconds);
    var fields := [Pad2(f.0), Pad2(f.1), Pad2(f.2)];
    Pad2Digits(f.0);
    Pad2Digits(f.1);
    Pad2Digits(f.2);
    if seconds < 0.0 {
      assert NatToString(0) == "0";
      assert Repeat('0', 1) == "0";
      assert Pad2(0) == "00";
      assert fields == ["00", "00", "00"];
      assert Join(":", ["00"]) == "00";
      assert Join(":", ["00", "00"]) == "00:00";
      assert Join(":", ["00", "00", "00"]) == "00:00:00";
    }
    SplitOnJoin(fields, ':');
  }

  // ---------------------------------------------------------------------
  // validate_video_file, get_file_size_mb
  // ---------------------------------------------------------------------

  const ValidExtensions: seq<string> := [".mp4", ".avi", ".mov", ".mkv", ".wmv", ".flv"]

  /** `validate_video_file(path)`, with the file system's answers as
      parameters: does the file exist, its size, and the MIME type guessed
      from its name. */
  function ValidateVideoFile(exists_: bool, size: nat, mime: Option<string>, path: string): (r: (bool, string))
    ensures r.0 <==> exists_ && size > 0 && mime.Some? && StartsWith(mime.value, "video/")
                     && Lower(SplitExt(path).1) in ValidExtensions
    ensures !exists_ ==> r.1 == "File does not exist"
    ensures exists_ && size == 0 ==> r.1 == "File is empty"
    ensures exists_ && size > 0 && !(mime.Some? && StartsWith(mime.value, "video/")) ==>
      r.1 == "File is not a video format"
    ensures exists_ && size > 0 && mime.Some? && StartsWith(mime.value, "video/")
            && Lower(SplitExt(path).1) !in ValidExtensions ==>
      r.1 == "Unsupported file extension: " + Lower(SplitExt(path).1)
    ensures r.0 ==> r.1 == "Valid video file"
  {
    if !exists_ then (false, "File does not exist")
    else if size == 0 then (false, "File is empty")
    else if mime.None? || mime.value == [] || !StartsWith(mime.value, "video/") then (false, "File is not a video format")
    else
      var ext := Lower(SplitExt(path).1);
      if ext !in ValidExtensions then (false, "Unsupported file extension: " + ext)
      else (true, "Valid video file")
  }

  /** The extension test ignores case: a name accepted with one spelling of
      its extension is accepted with any other. */
  lemma ValidateIgnoresExtensionCase(size: nat, mime: Option<string>, stem: string, ext: string, ext2: string)
    requires Lower(ext) == Lower(ext2)
    requires SplitExt(stem + ext).1 == ext && SplitExt(stem + ext2).1 == ext2
    ensures ValidateVideoFile(true, size, mime, stem + ext).0 == ValidateVideoFile(true, size, mime, stem + ext2).0
  {
  }

  /** `get_file_size_mb(path)`: 0 for a missing file. */
  function FileSizeMb(size: Option<nat>): (r: real)
    ensures r >= 0.0
    ensures size.None? ==> r == 0.0
    ensures size.Some? ==> r * 1048576.0 == size.value as real
  {
    if size.None? then 0.0 else size.value as real / (1024.0 * 1024.0)
  }

  // ---------------------------------------------------------------------
  // format_file_size
  // ---------------------------------------------------------------------

  datatype SizeUnit = KB | MB | GB

  function UnitBytes(u: SizeUnit): (r: nat)
    ensures r >= 1024
  {
    match u
    case KB => 1024
    case MB => 1024 * 1024
    case GB => 1024 * 1024 * 1024
  }

  /** What `format_file_size` prints: a whole number of bytes, or a scaled
      value with its unit (the one-decimal rounding is not modelled). */
  datatype SizeText = Bytes(count: int) | Scaled(value: real, unit: SizeUnit)

  /** `format_file_size(size_bytes)`: the largest unit, up to GB, in which
      the size is at least one. */
  function FormatFileSize(sizeBytes: int): (r: SizeText)
    ensures r.Bytes? <==> sizeBytes < 1024
    ensures r.Bytes? ==> r.count == sizeBytes
    ensures r.Scaled? ==> r.value * UnitBytes(r.unit) as real == sizeBytes as real
    ensures r.Scaled? ==> 1.0 <= r.value && (r.unit != GB ==> r.value < 1024.0)
  {
    if sizeBytes < 1024 then Bytes(sizeBytes)
    else if sizeBytes < 1024 * 1024 then Scaled(sizeBytes as real / 1024.0, KB)
    else if sizeBytes < 1024 * 1024 * 1024 then Scaled(sizeBytes as real / (1024.0 * 1024.0), MB)
    else Scaled(sizeBytes as real / (1024.0 * 1024.0 * 1024.0), GB)
  }

  /** A larger file never gets a smaller unit. */
  lemma FormatFileSizeMonotone(a: int, b: int)
    requires 1024 <= a <= b
    ensures UnitBytes(FormatFileSize(a).unit) <= UnitBytes(FormatFileSize(b).unit)
  {
  }

  // ---------------------------------------------------------------------
  // clean_text
  // ---------------------------------------------------------------------

  /** The characters the control-character filter keeps. */
  predicate Kept(c: char) {
    c as int >= 32 || c == '\n' || c == '\t'
  }

  /** `clean_text(text)`: words joined by single spaces, control characters
      dropped, surrounding whitespace stripped. */
  function CleanText(text: string): string {
    if text == [] then []
    else Strip(Filter(Join(" ", Split(text)), Kept))
  }

  /** A character that survives `split()` and `' '.join` is a space or no
      whitespace at all. */
  predicate SpaceOrInk(c: char) {
    c == ' ' || !IsSpace(c)
  }

  /** Joining the words of `text` with single spaces leaves no whitespace
      but plain spaces. */
  lemma JoinedWordsSpaced(text: string)
    ensures forall i | 0 <= i < |Join(" ", Split(text))| :: SpaceOrInk(Join(" ", Split(text))[i])
  {
    SplitWords(text);
    JoinChars(" ", Split(text), SpaceOrInk);
  }

  /** The cleaned text has no control character and does not start or end
      with whitespace. */
  lemma CleanTextClean(text: string)
    ensures forall i | 0 <= i < |CleanText(text)| :: CleanText(text)[i] as int >= 32
    ensures CleanText(text) == [] || (!IsSpace(CleanText(text)[0]) && !IsSpace(CleanText(text)[|CleanText(text)| - 1]))
    ensures text == [] ==> CleanText(text) == []
  {
    if text != [] {
      var joined := Join(" ", Split(text));
      JoinedWordsSpaced(text);
      var f := Filter(joined, Kept);
      FilterKeeps(joined, Kept, SpaceOrInk);
      assert forall i | 0 <= i < |f| :: f[i] as int >= 32 by {
        forall i | 0 <= i < |f| ensures f[i] as int >= 32 {
          assert Kept(f[i]) && SpaceOrInk(f[i]);
        }
      }
      StripChars(f, c => c as int >= 32);
      StripEnds(f);
    }
  }

  /** For text without control characters, cleaning keeps exactly its words. */
  lemma CleanTextKeepsWords(text: string)
    requires forall i | 0 <= i < |text| :: Kept(text[i])
    ensures Split(CleanText(text)) == Split(text)
  {
    if text != [] {
      var ws := Split(text);
      SplitFromChars([], text, Kept);
      SplitWords(text);
      JoinChars(" ", ws, Kept);
      SplitStrip(Join(" ", ws));
      SplitJoinWords(ws);
    }
  }

  // ---------------------------------------------------------------------
  // estimate_processing_time
  // ---------------------------------------------------------------------

  /** `duration_seconds * 0.5 if duration_seconds else 0`: `None` and 0 are
      both false. */
  function DurationFactor(duration: Option<real>): real {
    if duration.Some? && duration.value != 0.0 then duration.value * 0.5 else 0.0
  }

  /** `estimate_processing_time(file_size_mb, duration_seconds)`: 30 seconds,
      plus 2 per megabyte, plus half the duration, capped at 600. */
  function EstimateProcessingTime(sizeMb: real, duration: Option<real>): (r: int)
    ensures r <= 600
    ensures sizeMb >= 0.0 && (duration.None? || duration.value >= 0.0) ==> 30 <= r
    ensures 30.0 + sizeMb * 2.0 + DurationFactor(duration) >= 601.0 ==> r == 600
  {
    var total := 30.0 + sizeMb * 2.0 + DurationFactor(duration);
    var t := Trunc(total);
    if t < 600 then t else 600
  }

  /** A larger file or a longer video never gets a smaller estimate. */
  lemma EstimateMonotone(size1: real, size2: real, d1: real, d2: real)
    requires 0.0 <= size1 <= size2 && 0.0 <= d1 <= d2
    ensures EstimateProcessingTime(size1, Some(d1)) <= EstimateProcessingTime(size2, Some(d2))
  {
    var t1 := 30.0 + size1 * 2.0 + DurationFactor(Some(d1));
    var t2 := 30.0 + size2 * 2.0 + DurationFactor(Some(d2));
    assert t1 <= t2;
    assert Trunc(t1) <= Trunc(t2);
  }

  // ---------------------------------------------------------------------
  // create_safe_filename
  // ---------------------------------------------------------------------

  /** The characters a safe file name may hold. */
  predicate SafeChar(c: char) {
    IsAlnum(c) || c in "-_. "
  }

  /** Each character of the stem, with a disallowed one replaced by '_'. */
  function Sanitize(stem: string): (r: string)
    ensures |r| == |stem|
    ensures forall i | 0 <= i < |stem| :: SafeChar(r[i]) && (SafeChar(stem[i]) ==> r[i] == stem[i])
    ensures forall i | 0 <= i < |stem| :: !SafeChar(stem[i]) ==> r[i] == '_'
  {
    seq(|stem|, i requires 0 <= i < |stem| => if SafeChar(stem[i]) then stem[i] else '_')
  }

  /** What `create_safe_filename(filename)` returns. */
  function SafeFilename(filename: string): string {
    if filename == [] then "output"
    else
      var name := Strip(Sanitize(SplitExt(filename).0));
      var name' := if name == [] then "video_summary" else name;
      if |name'| > 50 then Strip(name'[..50]) else name'
  }

  /** `create_safe_filename`, building the sanitised stem one character at a
      time. */
  method CreateSafeFilename(filename: string) returns (safeName: string)
    ensures safeName == SafeFilename(filename)
  {
    if filename == [] {
      return "output";
    }
    var nameWithoutExt := SplitExt(filename).0;
    var safeChars: string := [];
    var i := 0;
    while i < |nameWithoutExt|
      invariant 0 <= i <= |nameWithoutExt|
      invariant safeChars == Sanitize(nameWithoutExt[..i])
    {
      var c := nameWithoutExt[i];
      if IsAlnum(c) || c in "-_. " {
        safeChars := safeChars + [c];
      } else {
        safeChars := safeChars + ['_'];
      }
      i := i + 1;
    }
    assert nameWithoutExt[..i] == nameWithoutExt;
    safeName := Strip(safeChars);
    if safeName == [] {
      safeName := "video_summary";
    }
    if |safeName| > 50 {
      safeName := Strip(safeName[..50]);
    }
  }

  /** Every character `strip()` keeps is a character of its input. */
  lemma StripChars(s: string, p: char -> bool)
    requires forall i | 0 <= i < |s| :: p(s[i])
    ensures forall i | 0 <= i < |Strip(s)| :: p(Strip(s)[i])
  {
    StripInfix(s);
    var i0 := |s| - |LStrip(s)|;
    forall i | 0 <= i < |Strip(s)| ensures p(Strip(s)[i]) {
      assert Strip(s)[i] == s[i0 + i];
    }
  }

  /** The allowed characters, not starting or ending with whitespace. */
  predicate SafeName(r: string) {
    r != [] && (forall i | 0 <= i < |r| :: SafeChar(r[i])) && !IsSpace(r[0]) && !IsSpace(r[|r| - 1])
  }

  /** Stripping a safe name cut to 50 characters keeps it safe. */
  lemma CutSafe(name: string)
    requires SafeName(name) && |name| > 50
    ensures SafeName(Strip(name[..50])) && |Strip(name[..50])| <= 50
  {
    var cut := name[..50];
    StripChars(cut, SafeChar);
    StripEnds(cut);
    StripEmpty(cut);
    StripInfix(cut);
    assert !IsSpace(cut[0]);
  }

  /** The stripped, sanitised stem is a safe name when it is not empty. */
  lemma StemSafe(stem: string)
    ensures Strip(Sanitize(stem)) == [] || SafeName(Strip(Sanitize(stem)))
  {
    StripChars(Sanitize(stem), SafeChar);
    StripEnds(Sanitize(stem));
  }

  lemma VideoSummarySafe()
    ensures SafeName("video_summary")
  {
    var v := "video_summary";
    forall i | 0 <= i < |v| ensures SafeChar(v[i]) {
    }
  }

  /** The safe name is never empty, has at most 50 characters, all of them
      allowed, and neither starts nor ends with whitespace. */
  lemma SafeFilenameSafe(filename: string)
    ensures SafeName(SafeFilename(filename)) && |SafeFilename(filename)| <= 50
  {
    if filename != [] {
      var name := Strip(Sanitize(SplitExt(filename).0));
      StemSafe(SplitExt(filename).0);
      var name' := if name == [] then "video_summary" else name;
      if name == [] {
        VideoSummarySafe();
      }
      if |name'| > 50 {
        CutSafe(name');
      }
    }
  }

  /** A name that is already safe, has no extension and fits, comes back
      unchanged. */
  lemma SafeFilenameKeepsSafe(filename: string)
    requires filename != [] && |filename| <= 50 && '.' !in filename
    requires forall i | 0 <= i < |filename| :: SafeChar(filename[i])
    requires !IsSpace(filename[0]) && !IsSpace(filename[|filename| - 1])
    ensures SafeFilename(filename) == filename
  {
    SplitExtNoDot(filename);
    assert Sanitize(filename) == filename;
    StripNoop(filename);
  }
}

=== FILE: video_compressor.dfy ===
/** The decision flow of video_compressor.py: the fast path for small
    inputs, trimming of long inputs, the bitrate formula, and the chain of
    encoders (two-pass, then single-pass, then the best path already known).
    ffprobe and ffmpeg are not run: the probed duration text and each
    command's success are parameters, and so are the temporary file names.
    The file system is modelled only as far as the two-pass log files go. */
module VideoCompressor {
  import opened Wrappers
  import opened Strings
  import opened Utils

  // ---------------------------------------------------------------------
  // Durations and the bitrate formula
  // ---------------------------------------------------------------------

  /** The compressor's `_get_video_duration`: `float(format.duration)` from
      ffprobe, and 0 when the probe fails (`None`) or the text is not a
      number. */
  function ProbedDuration(probe: Option<string>): real {
    match probe
    case None => 0.0
    case Some(t) => match ParseFloat(t) case None => 0.0 case Some(d) => d
  }

  const MinBitrate: int := 200

  /** `max(int((target_size_mb * 8 * 1024) / duration), 200)`, or `None` when
      the division raises because the duration is 0. */
  function TargetBitrate(targetMb: real, duration: real): (r: Option<int>)
    ensures r.None? <==> duration == 0.0
    ensures r.Some? ==> r.value >= MinBitrate
  {
    if duration == 0.0 then None
    else
      var b := Trunc(targetMb * 8.0 * 1024.0 / duration);
      Some(if b < MinBitrate then MinBitrate else b)
  }

  /** The bitrate is never below 200 kbps, and above the floor it fits the
      target: bitrate times duration is at most the target size in kilobits,
      and one more kbps would exceed it. */
  lemma TargetBitrateBounds(targetMb: real, duration: real)
    requires duration > 0.0 && targetMb >= 0.0
    ensures TargetBitrate(targetMb, duration).Some?
    ensures TargetBitrate(targetMb, duration).value >= MinBitrate
    ensures var b := TargetBitrate(targetMb, duration).value;
      b > MinBitrate ==>
        b as real * duration <= targetMb * 8192.0 < (b + 1) as real * duration
  {
    var k := targetMb * 8.0 * 1024.0;
    var x := k / duration;
    assert x >= 0.0 by { DivAntitone(k, duration, duration); }
    var t := Trunc(x);
    assert x * duration == k by { DivMul(k, duration); }
    assert t as real * duration <= x * duration by { MulNonneg(x - t as real, duration); }
    assert x * duration < (t as real + 1.0) * duration by { MulPos(t as real + 1.0 - x, duration); }
    assert k == targetMb * 8192.0;
    var b := TargetBitrate(targetMb, duration).value;
    assert b > MinBitrate ==> b == t;
    if b > MinBitrate {
      var c := (b + 1) as real;
      assert c == t as real + 1.0;
      assert c * duration == (t as real + 1.0) * duration;
      assert x * duration < c * duration;
      assert k < c * duration;
      assert targetMb * 8192.0 < c * duration;
      assert targetMb * 8192.0 < (b + 1) as real * duration;
    }
  }

  lemma MulPos(a: real, b: real)
    requires a > 0.0 && b > 0.0
    ensures a * b > 0.0
  {
  }

  lemma DivMul(k: real, d: real)
    requires d != 0.0
    ensures (k / d) * d == k
  {
  }

  /** Dividing by a larger positive number gives a smaller quotient, and a
      non-negative numerator gives a non-negative one. */
  lemma DivAntitone(k: real, d1: real, d2: real)
    requires k >= 0.0 && 0.0 < d1 <= d2
    ensures 0.0 <= k / d2 <= k / d1
  {
    var x1, x2 := k / d1, k / d2;
    DivMul(k, d1);
    DivMul(k, d2);
    if x1 < 0.0 {
      MulPos(-x1, d1);
      assert false;
    }
    if x2 < 0.0 {
      MulPos(-x2, d2);
      assert false;
    }
    if x2 > x1 {
      MulPos(x2 - x1, d2);
      MulNonneg(x1, d2 - d1);
      assert false;
    }
  }

  /** A longer (positive) duration never gets a higher bitrate. */
  lemma TargetBitrateAntitone(targetMb: real, d1: real, d2: real)
    requires targetMb >= 0.0 && 0.0 < d1 <= d2
    ensures TargetBitrate(targetMb, d2).value <= TargetBitrate(targetMb, d1).value
  {
    var k := targetMb * 8.0 * 1024.0;
    DivAntitone(k, d1, d2);
    assert Trunc(k / d2) <= Trunc(k / d1);
  }

  // ---------------------------------------------------------------------
  // The chain of encoders
  // ---------------------------------------------------------------------

  /** How each ffmpeg command of one compression ends, and which files the
      first pass leaves in the working directory. */
  datatype Commands = Commands(trimOk: bool, pass1Ok: bool, pass2Ok: bool, singleOk: bool,
                               passLogs: set<string>)

  /** The names `NamedTemporaryFile` hands out for the trimmed copy, the
      two-pass output and the single-pass output. */
  datatype TempNames = TempNames(trimmed: string, twoPass: string, singlePass: string)

  /** The first attempt that succeeds gives the path; `fallback` when none
      does. */
  function FirstSuccess(attempts: seq<(bool, string)>, fallback: string): (r: string)
    ensures r == fallback || exists k | 0 <= k < |attempts| :: attempts[k].0 && r == attempts[k].1
    ensures forall k | 0 <= k < |attempts| :: attempts[k].0 ==>
      exists j | 0 <= j <= k :: attempts[j].0 && r == attempts[j].1
    decreases |attempts|
  {
    if attempts == [] then fallback
    else if attempts[0].0 then attempts[0].1
    else
      var r := FirstSuccess(attempts[1..], fallback);
      assert forall k | 1 <= k < |attempts| :: attempts[k] == attempts[1..][k - 1];
      r
  }

  /** `_compress_single_pass`: its output, or its input when ffmpeg fails. */
  function SinglePass(inputPath: string, names: TempNames, cmds: Commands): string {
    if cmds.singleOk then names.singlePass else inputPath
  }

  /** `_compress_with_ffmpeg`: the two-pass output when both passes succeed,
      otherwise single-pass at the same bitrate. */
  function EncodeChain(inputPath: string, names: TempNames, cmds: Commands): (r: string)
    ensures r in {names.twoPass, names.singlePass, inputPath}
    ensures cmds.pass1Ok && cmds.pass2Ok ==> r == names.twoPass
    ensures !(cmds.pass1Ok && cmds.pass2Ok) && !cmds.singleOk ==> r == inputPath
  {
    if !cmds.pass1Ok then SinglePass(inputPath, names, cmds)
    else if !cmds.pass2Ok then SinglePass(inputPath, names, cmds)
    else names.twoPass
  }

  /** The chain is "first success" over two-pass then single-pass, with the
      encoder's input as the last resort. */
  lemma EncodeChainFirstSuccess(inputPath: string, names: TempNames, cmds: Commands)
    ensures EncodeChain(inputPath, names, cmds)
      == FirstSuccess([(cmds.pass1Ok && cmds.pass2Ok, names.twoPass), (cmds.singleOk, names.singlePass)], inputPath)
  {
    var attempts := [(cmds.pass1Ok && cmds.pass2Ok, names.twoPass), (cmds.singleOk, names.singlePass)];
    assert attempts[1..] == [(cmds.singleOk, names.singlePass)];
    assert attempts[1..][1..] == [];
  }

  // ---------------------------------------------------------------------
  // compress_video
  // ---------------------------------------------------------------------

  /** The file the encoders read: the trimmed copy when the input was too
      long and trimming worked, otherwise the input. */
  function EncoderInput(inputPath: string, duration: real, maxDuration: real,
                        names: TempNames, cmds: Commands): string {
    if duration > maxDuration then (if cmds.trimOk then names.trimmed else inputPath)
    else inputPath
  }

  /** The duration the bitrate is computed from: the maximum after trimming
      was attempted, whether or not it worked. */
  function BitrateDuration(duration: real, maxDuration: real): real {
    if duration > maxDuration then maxDuration else duration
  }

  /** The path `compress_video` returns. */
  function CompressedPath(inputPath: string, sizeMb: real, targetMb: real, maxDuration: real,
                          probe: Option<string>, names: TempNames, cmds: Commands): (r: string)
    ensures sizeMb <= targetMb ==> r == inputPath
    ensures r in {inputPath, names.trimmed, names.twoPass, names.singlePass}
  {
    if sizeMb <= targetMb then inputPath
    else
      var duration := ProbedDuration(probe);
      var encoderInput := EncoderInput(inputPath, duration, maxDuration, names, cmds);
      match TargetBitrate(targetMb, BitrateDuration(duration, maxDuration))
      case None => encoderInput
      case Some(_) => EncodeChain(encoderInput, names, cmds)
  }

  /** The bitrate handed to the encoders, when they run. */
  function UsedBitrate(sizeMb: real, targetMb: real, maxDuration: real, probe: Option<string>): Option<int> {
    if sizeMb <= targetMb then None
    else TargetBitrate(targetMb, BitrateDuration(ProbedDuration(probe), maxDuration))
  }

  /** Which of the three encoder commands ran. */
  datatype EncoderPass = FirstPass | SecondPass | SinglePassRun

  /** One run of an encoder command: which one, the file it read and the
      video bitrate (kbps) it was given. */
  datatype EncoderRun = EncoderRun(pass: EncoderPass, input: string, bitrateKbps: int)

  /** The encoder commands `_compress_with_ffmpeg` runs, in order: pass 1,
      then pass 2 when pass 1 worked, then the single pass when either
      failed; all on the same input at the same bitrate. */
  function EncoderRuns(inputPath: string, bitrate: int, cmds: Commands): seq<EncoderRun> {
    if !cmds.pass1Ok then [EncoderRun(FirstPass, inputPath, bitrate), EncoderRun(SinglePassRun, inputPath, bitrate)]
    else if !cmds.pass2Ok then
      [EncoderRun(FirstPass, inputPath, bitrate), EncoderRun(SecondPass, inputPath, bitrate),
       EncoderRun(SinglePassRun, inputPath, bitrate)]
    else [EncoderRun(FirstPass, inputPath, bitrate), EncoderRun(SecondPass, inputPath, bitrate)]
  }

  /** The encoder commands `compress_video` runs: none when no bitrate is
      computed, otherwise the chain on the encoder input at that bitrate. */
  function CompressionRuns(inputPath: string, sizeMb: real, targetMb: real, maxDuration: real,
                           probe: Option<string>, names: TempNames, cmds: Commands): seq<EncoderRun>
  {
    match UsedBitrate(sizeMb, targetMb, maxDuration, probe)
    case None => []
    case Some(b) => EncoderRuns(EncoderInput(inputPath, ProbedDuration(probe), maxDuration, names, cmds), b, cmds)
  }

  /** Every encoder command reads the file that `CompressedPath` would fall
      back to and gets the one computed bitrate, at least 200 kbps; the
      encoders run exactly when a bitrate is computed, and the path is the
      two-pass output exactly when no single pass ran. */
  lemma CompressionRunsBitrate(inputPath: string, sizeMb: real, targetMb: real, maxDuration: real,
                               probe: Option<string>, names: TempNames, cmds: Commands)
    ensures var runs := CompressionRuns(inputPath, sizeMb, targetMb, maxDuration, probe, names, cmds);
      var b := UsedBitrate(sizeMb, targetMb, maxDuration, probe);
      (runs == [] <==> b.None?)
      && (b.Some? ==> 2 <= |runs| <= 3 && runs[0].pass == FirstPass)
      && forall k | 0 <= k < |runs| ::
           runs[k].bitrateKbps == b.value && runs[k].bitrateKbps >= MinBitrate
           && runs[k].input == EncoderInput(inputPath, ProbedDuration(probe), maxDuration, names, cmds)
    ensures var runs := CompressionRuns(inputPath, sizeMb, targetMb, maxDuration, probe, names, cmds);
      runs != [] ==>
        (runs[|runs| - 1].pass == SecondPass
         <==> CompressedPath(inputPath, sizeMb, targetMb, maxDuration, probe, names, cmds) == names.twoPass
              && cmds.pass1Ok && cmds.pass2Ok)
  {
    UsedBitrateFloor(sizeMb, targetMb, maxDuration, probe);
  }

  /** The log files the two-pass encoder removes after a successful run. */
  const PassLogNames: seq<string> := ["ffmpeg2pass-0.log", "ffmpeg2pass-0.log.mbtree"]

  /** The working directory after the encoders ran on it: pass 1 leaves its
      logs, and only a successful pass 2 is followed by the clean-up. */
  function FilesAfterEncoding(files: set<string>, cmds: Commands): set<string> {
    if !cmds.pass1Ok then files
    else if !cmds.pass2Ok then files + cmds.passLogs
    else (files + cmds.passLogs) - set n | n in PassLogNames
  }

  /** The working directory after `compress_video`. */
  function FilesAfter(files: set<string>, sizeMb: real, targetMb: real, maxDuration: real,
                      probe: Option<string>, cmds: Commands): set<string>
  {
    if UsedBitrate(sizeMb, targetMb, maxDuration, probe).None? then files
    else FilesAfterEncoding(files, cmds)
  }

  /** The entries of the working directory that the pass-log clean-up
      touches, and the log of the encoder commands run so far. */
  class Workdir {
    var files: set<string>
    ghost var runs: seq<EncoderRun>

    constructor (files0: set<string>)
      ensures files == files0 && runs == []
    {
      files := files0;
      runs := [];
    }

    /** The clean-up loop of `_compress_with_ffmpeg`: each pass-log file that
        exists is removed. */
    method RemovePassLogs()
      modifies this
      ensures files == old(files) - set n | n in PassLogNames
      ensures runs == old(runs)
    {
      var i := 0;
      while i < |PassLogNames|
        invariant 0 <= i <= |PassLogNames|
        invariant files == old(files) - set n | n in PassLogNames[..i]
        invariant runs == old(runs)
      {
        var passFile := PassLogNames[i];
        if passFile in files {
          files := files - {passFile};
        }
        assert PassLogNames[..i + 1] == PassLogNames[..i] + [passFile];
        i := i + 1;
      }
      assert PassLogNames[..i] == PassLogNames;
    }

    /** `_trim_video`: the trimmed copy, or the input when ffmpeg fails. */
    method TrimVideo(inputPath: string, names: TempNames, cmds: Commands) returns (path: string)
      ensures path == (if cmds.trimOk then names.trimmed else inputPath)
    {
      if cmds.trimOk {
        return names.trimmed;
      }
      return inputPath;
    }

    /** `_compress_single_pass`. */
    method CompressSinglePass(inputPath: string, bitrate: int, names: TempNames, cmds: Commands)
      returns (path: string)
      modifies this
      ensures path == SinglePass(inputPath, names, cmds)
      ensures files == old(files)
      ensures runs == old(runs) + [EncoderRun(SinglePassRun, inputPath, bitrate)]
    {
      runs := runs + [EncoderRun(SinglePassRun, inputPath, bitrate)];
      if cmds.singleOk {
        return names.singlePass;
      }
      return inputPath;
    }

    /** `_compress_with_ffmpeg`: two passes, falling back to a single pass;
        pass 1 leaves its logs, which are removed after pass 2 succeeds. */
    method CompressWithFfmpeg(inputPath: string, bitrate: int, names: TempNames, cmds: Commands)
      returns (path: string)
      modifies this
      ensures path == EncodeChain(inputPath, names, cmds)
      ensures files == FilesAfterEncoding(old(files), cmds)
      ensures runs == old(runs) + EncoderRuns(inputPath, bitrate, cmds)
    {
      runs := runs + [EncoderRun(FirstPass, inputPath, bitrate)];
      if !cmds.pass1Ok {
        path := CompressSinglePass(inputPath, bitrate, names, cmds);
        return;
      }
      files := files + cmds.passLogs;
      runs := runs + [EncoderRun(SecondPass, inputPath, bitrate)];
      if !cmds.pass2Ok {
        path := CompressSinglePass(inputPath, bitrate, names, cmds);
        return;
      }
      RemovePassLogs();
      path := names.twoPass;
    }

    /** `compress_video(input_path, target_size_mb, max_duration_seconds)`:
        `inputBytes` is the input's size (`None` when it does not exist) and
        `probe` the duration text ffprobe reports. */
    method CompressVideo(inputPath: string, inputBytes: Option<nat>, targetMb: real, maxDuration: real,
                         probe: Option<string>, names: TempNames, cmds: Commands)
      returns (path: string)
      modifies this
      ensures path == CompressedPath(inputPath, FileSizeMb(inputBytes), targetMb, maxDuration, probe, names, cmds)
      ensures files == FilesAfter(old(files), FileSizeMb(inputBytes), targetMb, maxDuration, probe, cmds)
      ensures runs == old(runs) + CompressionRuns(inputPath, FileSizeMb(inputBytes), targetMb, maxDuration, probe, names, cmds)
    {
      var originalSizeMb := FileSizeMb(inputBytes);
      if originalSizeMb <= targetMb {
        return inputPath;
      }
      var encoderInput := inputPath;
      var duration := ProbedDuration(probe);
      if duration > maxDuration {
        encoderInput := TrimVideo(encoderInput, names, cmds);
        duration := maxDuration;
      }
      if duration == 0.0 {
        // int(... / duration) raises; the handler returns the current path.
        return encoderInput;
      }
      var targetBitrate := Trunc(targetMb * 8.0 * 1024.0 / duration);
      if targetBitrate < MinBitrate {
        targetBitrate := MinBitrate;
      }
      path := CompressWithFfmpeg(encoderInput, targetBitrate, names, cmds);
    }
  }

  /** An input no larger than the target comes back unchanged, with no probe,
      no encoder run and the directory untouched. */
  lemma SmallInputUntouched(inputPath: string, sizeMb: real, targetMb: real, maxDuration: real,
                            probe: Option<string>, names: TempNames, cmds: Commands, files: set<string>)
    requires sizeMb <= targetMb
    ensures CompressedPath(inputPath, sizeMb, targetMb, maxDuration, probe, names, cmds) == inputPath
    ensures UsedBitrate(sizeMb, targetMb, maxDuration, probe).None?
    ensures FilesAfter(files, sizeMb, targetMb, maxDuration, probe, cmds) == files
  {
  }

  /** The result is always the input, the trimmed copy (only when the input
      was too long and trimming worked), or a new encoder output. */
  lemma CompressedPathCases(inputPath: string, sizeMb: real, targetMb: real, maxDuration: real,
                            probe: Option<string>, names: TempNames, cmds: Commands)
    ensures var r := CompressedPath(inputPath, sizeMb, targetMb, maxDuration, probe, names, cmds);
      r == inputPath
      || (r == names.trimmed && ProbedDuration(probe) > maxDuration && cmds.trimOk)
      || (r == names.twoPass && cmds.pass1Ok && cmds.pass2Ok)
      || (r == names.singlePass && cmds.singleOk && !(cmds.pass1Ok && cmds.pass2Ok))
  {
  }

  /** The encoders, when they run, get a bitrate of at least 200 kbps,
      computed from a duration of at most the maximum. */
  lemma UsedBitrateFloor(sizeMb: real, targetMb: real, maxDuration: real, probe: Option<string>)
    ensures var b := UsedBitrate(sizeMb, targetMb, maxDuration, probe);
      b.Some? ==> (b.value >= MinBitrate
        && b == TargetBitrate(targetMb, BitrateDuration(ProbedDuration(probe), maxDuration)))
    ensures BitrateDuration(ProbedDuration(probe), maxDuration) <= maxDuration
  {
  }

  /** A failed probe (duration 0) makes the bitrate division fail: the
      input comes back and nothing is encoded. */
  lemma FailedProbeReturnsInput(inputPath: string, sizeMb: real, targetMb: real, maxDuration: real,
                                names: TempNames, cmds: Commands, files: set<string>)
    requires sizeMb > targetMb && maxDuration >= 0.0
    ensures CompressedPath(inputPath, sizeMb, targetMb, maxDuration, None, names, cmds) == inputPath
    ensures FilesAfter(files, sizeMb, targetMb, maxDuration, None, cmds) == files
  {
  }

  /** A too-long input is trimmed and the bitrate is computed for the
      maximum duration; when trimming fails the untrimmed input is encoded
      at that same bitrate. */
  lemma LongInputTrimmed(inputPath: string, sizeMb: real, targetMb: real, maxDuration: real,
                         probe: Option<string>, names: TempNames, cmds: Commands)
    requires sizeMb > targetMb && ProbedDuration(probe) > maxDuration > 0.0
    ensures UsedBitrate(sizeMb, targetMb, maxDuration, probe) == TargetBitrate(targetMb, maxDuration)
    ensures CompressedPath(inputPath, sizeMb, targetMb, maxDuration, probe, names, cmds)
      == EncodeChain(if cmds.trimOk then names.trimmed else inputPath, names, cmds)
  {
  }

  /** After a successful two-pass run no pass-log file is left; when pass 2
      fails, the logs of pass 1 stay. Nothing else in the directory changes. */
  lemma PassLogsCleaned(files: set<string>, cmds: Commands)
    ensures cmds.pass1Ok && cmds.pass2Ok ==>
      forall n | n in PassLogNames :: n !in FilesAfterEncoding(files, cmds)
    ensures cmds.pass1Ok && !cmds.pass2Ok ==> cmds.passLogs <= FilesAfterEncoding(files, cmds)
    ensures forall n | n !in PassLogNames && n !in cmds.passLogs ::
      n in FilesAfterEncoding(files, cmds) <==> n in files
  {
  }
}

=== FILE: video_processor.dfy ===
/** The bookkeeping of video_processor.py: which duration the stream probe
    yields, how a frame rate is read, which rasterised frame files become
    frames and with what timestamp and name, and how a transcription
    attempt ends. ffprobe, ffmpeg, PIL and the speech-to-text service are
    not run: their answers are parameters. */
module VideoProcessor {
  import opened Wrappers
  import opened Strings
  import opened Utils

  // ---------------------------------------------------------------------
  // Probing: _get_video_duration and get_video_info
  // ---------------------------------------------------------------------

  /** One entry of the `streams` list ffprobe reports, with the fields the
      processor reads; a field ffprobe leaves out is `None`. */
  datatype Stream = Stream(
    codecType: Option<string>,
    duration: Option<string>,
    width: Option<int>,
    height: Option<int>,
    rFrameRate: Option<string>)

  predicate IsVideo(s: Stream) {
    s.codecType == Some("video")
  }

  /** `float(stream.get('duration', 0))`; `None` when `float` raises. */
  function StreamDuration(s: Stream): Option<real> {
    match s.duration
    case None => Some(0.0)
    case Some(t) => ParseFloat(t)
  }

  /** What `_get_video_duration` returns for the listed streams, where
      `dur` reads a stream's duration: the duration of the first video
      stream whose duration is positive, and 0 when there is none or when
      reading a video stream's duration fails (the exception ends the
      search). */
  function FirstPositive(streams: seq<Stream>, dur: Stream -> Option<real>): (r: real)
    ensures r >= 0.0
    decreases |streams|
  {
    if streams == [] then 0.0
    else if IsVideo(streams[0]) then
      match dur(streams[0])
      case None => 0.0
      case Some(d) => if d > 0.0 then d else FirstPositive(streams[1..], dur)
    else FirstPositive(streams[1..], dur)
  }

  /** `_get_video_duration` over the listed streams. */
  function DurationOf(streams: seq<Stream>): real {
    FirstPositive(streams, StreamDuration)
  }

  /** `_get_video_duration(video_path)`, where `probe` is `None` when
      ffprobe fails or its output is not readable. */
  function VideoDuration(probe: Option<seq<Stream>>): real {
    if probe.None? then 0.0 else DurationOf(probe.value)
  }

  /** The search goes on past this stream: it is not a video stream, or its
      duration is a number that is not positive. */
  predicate PassedOver(s: Stream, dur: Stream -> Option<real>) {
    IsVideo(s) ==> dur(s).Some? && dur(s).value <= 0.0
  }

  /** Every stream before index `i` is passed over. */
  predicate NoEarlierPositive(streams: seq<Stream>, dur: Stream -> Option<real>, i: int)
    requires 0 <= i <= |streams|
  {
    forall j | 0 <= j < i :: PassedOver(streams[j], dur)
  }

  /** Stream `i` is the one whose duration is reported. */
  predicate ReportedStream(streams: seq<Stream>, dur: Stream -> Option<real>, i: int)
  {
    0 <= i < |streams| && IsVideo(streams[i]) && dur(streams[i]).Some?
    && dur(streams[i]).value > 0.0 && NoEarlierPositive(streams, dur, i)
  }

  /** The reported duration is that of the first video stream with a
      positive duration. */
  lemma {:induction false} FirstPositiveReported(streams: seq<Stream>, dur: Stream -> Option<real>, i: int)
    requires ReportedStream(streams, dur, i)
    ensures FirstPositive(streams, dur) == dur(streams[i]).value
    decreases |streams|
  {
    if i > 0 {
      assert NoEarlierPositive(streams[1..], dur, i - 1) by {
        forall j | 0 <= j < i - 1 ensures PassedOver(streams[1..][j], dur) {
          assert streams[1..][j] == streams[j + 1];
        }
      }
      FirstPositiveReported(streams[1..], dur, i - 1);
    }
  }

  /** A stream passed over, put in front, keeps the earlier streams'
      property. */
  lemma NoEarlierPositiveCons(streams: seq<Stream>, dur: Stream -> Option<real>, i: nat)
    requires streams != [] && i < |streams|
    requires PassedOver(streams[0], dur)
    requires NoEarlierPositive(streams[1..], dur, i)
    ensures NoEarlierPositive(streams, dur, i + 1)
  {
    forall j | 0 <= j < i + 1 ensures PassedOver(streams[j], dur) {
      if j > 0 {
        assert streams[j] == streams[1..][j - 1];
      }
    }
  }

  /** A positive duration always comes from such a stream. */
  lemma {:induction false} FirstPositiveFound(streams: seq<Stream>, dur: Stream -> Option<real>)
    requires FirstPositive(streams, dur) > 0.0
    ensures exists i :: ReportedStream(streams, dur, i) && FirstPositive(streams, dur) == dur(streams[i]).value
    decreases |streams|
  {
    var s0 := streams[0];
    if IsVideo(s0) && dur(s0).Some? && dur(s0).value > 0.0 {
      assert ReportedStream(streams, dur, 0);
    } else {
      assert FirstPositive(streams, dur) == FirstPositive(streams[1..], dur);
      FirstPositiveFound(streams[1..], dur);
      var i :| ReportedStream(streams[1..], dur, i) && FirstPositive(streams[1..], dur) == dur(streams[1..][i]).value;
      NoEarlierPositiveCons(streams, dur, i);
      assert streams[1..][i] == streams[i + 1];
      assert ReportedStream(streams, dur, i + 1);
    }
  }

  /** `_get_video_duration` reports a positive duration exactly when some
      video stream has a positive duration and every video stream before it
      has a readable, non-positive one; the duration is then that stream's. */
  lemma DurationOfFirstPositive(streams: seq<Stream>)
    ensures DurationOf(streams) > 0.0 <==> exists i :: ReportedStream(streams, StreamDuration, i)
    ensures forall i | ReportedStream(streams, StreamDuration, i) :: DurationOf(streams) == StreamDuration(streams[i]).value
  {
    if DurationOf(streams) > 0.0 {
      FirstPositiveFound(streams, StreamDuration);
    }
    forall i | ReportedStream(streams, StreamDuration, i)
      ensures DurationOf(streams) == StreamDuration(streams[i]).value
    {
      FirstPositiveReported(streams, StreamDuration, i);
    }
  }

  /** `_get_video_duration`, walking the streams in order. */
  method GetVideoDuration(probe: Option<seq<Stream>>) returns (duration: real)
    ensures duration == VideoDuration(probe)
  {
    if probe.None? {
      return 0.0;
    }
    var streams := probe.value;
    var i := 0;
    while i < |streams|
      invariant 0 <= i <= |streams|
      invariant FirstPositive(streams[i..], StreamDuration) == DurationOf(streams)
    {
      assert streams[i..][1..] == streams[i + 1..];
      var stream := streams[i];
      if IsVideo(stream) {
        match StreamDuration(stream)
        case None =>
          return 0.0;
        case Some(d) =>
          if d > 0.0 {
            return d;
          }
      }
      i := i + 1;
    }
    return 0.0;
  }

  /** The index of the first video stream (`next(...)` over the streams). */
  function FirstVideo(streams: seq<Stream>): (r: Option<nat>)
    ensures r.Some? ==> r.value < |streams| && IsVideo(streams[r.value])
    ensures r.Some? ==> forall j | 0 <= j < r.value :: !IsVideo(streams[j])
    ensures r.None? ==> forall j | 0 <= j < |streams| :: !IsVideo(streams[j])
    decreases |streams|
  {
    if streams == [] then None
    else if IsVideo(streams[0]) then Some(0)
    else match FirstVideo(streams[1..])
      case None => None
      case Some(k) => Some(k + 1)
  }

  /** The frame rate read from ffprobe's `r_frame_rate`: `num/den` as
      floats, and 0 when there is no '/', when there are not exactly two
      parts, when a part is not a number, or when `den` is 0. */
  function FpsFromRate(rate: string): real {
    if '/' !in rate then 0.0
    else
      var parts := SplitOn(rate, '/');
      if |parts| != 2 then 0.0
      else match (ParseFloat(parts[0]), ParseFloat(parts[1]))
        case (Some(num), Some(den)) => if den != 0.0 then num / den else 0.0
        case _ => 0.0
  }

  lemma NoSlashInDigits(a: string)
    requires AllDigits(a)
    ensures '/' !in a
  {
    forall k | 0 <= k < |a| ensures a[k] != '/' {
      assert IsDigit(a[k]);
    }
  }

  lemma FpsFromParts(rate: string, x: string, y: string, num: real, den: real)
    requires '/' in rate && SplitOn(rate, '/') == [x, y]
    requires ParseFloat(x) == Some(num) && ParseFloat(y) == Some(den)
    ensures FpsFromRate(rate) == if den != 0.0 then num / den else 0.0
  {
  }

  /** A rate without '/' reads as 0, and so does one with more than one. */
  lemma FpsMalformed(rate: string)
    requires '/' !in rate || |SplitOn(rate, '/')| != 2
    ensures FpsFromRate(rate) == 0.0
  {
  }

  /** `a + "/" + b` splits at its one '/' when neither side holds one. */
  lemma RateSplits(a: string, b: string)
    requires AllDigits(a) && AllDigits(b)
    ensures '/' in a + "/" + b && SplitOn(a + "/" + b, '/') == [a, b]
  {
    var rate := a + "/" + b;
    assert rate == a + ['/'] + b;
    NoSlashInDigits(a);
    NoSlashInDigits(b);
    assert rate[|a|] == '/';
    SplitOnSingleSep(a, '/', b);
  }

  /** A rate written as two whole numbers reads as their quotient, or 0 for
      a zero denominator; the default "0/1" reads as 0. */
  lemma FpsFromWholeRate(num: nat, den: nat)
    ensures FpsFromRate(NatToString(num) + "/" + NatToString(den))
            == if den == 0 then 0.0 else num as real / den as real
  {
    var a, b := NatToString(num), NatToString(den);
    var rate := a + "/" + b;
    assert '/' in rate && SplitOn(rate, '/') == [a, b] by {
      RateSplits(a, b);
    }
    assert ParseFloat(a) == Some(num as real) by {
      ParseFloatNat(num);
    }
    assert ParseFloat(b) == Some(den as real) by {
      ParseFloatNat(den);
    }
    FpsFromParts(rate, a, b, num as real, den as real);
  }

  /** The record `get_video_info` returns. */
  datatype VideoInfo = VideoInfo(duration: real, width: int, height: int, fps: real)

  const NoInfo := VideoInfo(0.0, 0, 0, 0.0)

  /** `r_frame_rate`, defaulting to "0/1". */
  function RateText(s: Stream): string {
    match s.rFrameRate
    case None => "0/1"
    case Some(t) => t
  }

  /** A whole-number stream field, 0 when absent. */
  function IntOrZero(field: Option<int>): int {
    match field
    case None => 0
    case Some(v) => v
  }

  /** `get_video_info(video_path)`: the first video stream's duration, size
      and frame rate, or the all-zero record on any failure. */
  function GetVideoInfo(probe: Option<seq<Stream>>): (r: VideoInfo)
    ensures probe.None? ==> r == NoInfo
    ensures probe.Some? && FirstVideo(probe.value).None? ==> r == NoInfo
    ensures probe.Some? && FirstVideo(probe.value).Some? ==>
      var s := probe.value[FirstVideo(probe.value).value];
      (StreamDuration(s).None? ==> r == NoInfo)
      && (StreamDuration(s).Some? ==>
            r == VideoInfo(StreamDuration(s).value, IntOrZero(s.width), IntOrZero(s.height),
                           FpsFromRate(RateText(s))))
    ensures r != NoInfo ==>
      probe.Some? && FirstVideo(probe.value).Some?
      && var s := probe.value[FirstVideo(probe.value).value];
         StreamDuration(s) == Some(r.duration) && r.fps == FpsFromRate(RateText(s))
  {
    if probe.None? then NoInfo
    else match FirstVideo(probe.value)
      case None => NoInfo
      case Some(i) =>
        var s := probe.value[i];
        var fps := FpsFromRate(RateText(s));
        match StreamDuration(s)
        case None => NoInfo
        case Some(d) =>
          VideoInfo(d, IntOrZero(s.width), IntOrZero(s.height), fps)
  }

  // ---------------------------------------------------------------------
  // extract_frames
  // ---------------------------------------------------------------------

  datatype Dims = Dims(width: int, height: int)

  /** The processed JPEG of a frame: its pixel size and the frame file it
      was read from. */
  datatype Picture = Picture(dims: Dims, source: string)

  /** One element of the list `extract_frames` returns. */
  datatype FrameData = FrameData(timestamp: real, image: Picture, filename: string)

  lemma ScaleBounds(t: real, x: real, w: real)
    requires w > 0.0 && t <= x < t + 1.0
    ensures t * w <= x * w < (t + 1.0) * w
  {
    MulNonneg(x - t, w);
    MulNonneg(t + 1.0 - x, w);
  }

  /** The resize rule: a frame wider than 800 pixels becomes 800 wide, with
      its height scaled by the same ratio and truncated; `None` when that
      height comes out below one pixel, where the image library refuses to
      resize and the frame is dropped. */
  function Resize(d: Dims): (r: Option<Dims>)
    ensures d.width <= 800 ==> r == Some(d)
    ensures d.width > 800 && d.height >= 0 ==> (r.None? <==> d.height * 800 < d.width)
    ensures d.width > 800 && r.Some? ==> r.value.width == 800 && r.value.height >= 1
    ensures d.width > 800 && d.height >= 0 && r.Some? ==>
      r.value.height as real * d.width as real <= d.height as real * 800.0
      && d.height as real * 800.0 < (r.value.height + 1) as real * d.width as real
  {
    if d.width > 800 then
      var t := Trunc(d.height as real * (800.0 / d.width as real));
      ScaledHeight(d.height, d.width);
      if t <= 0 then None else Some(Dims(800, t))
    else Some(d)
  }

  /** `int(h * (800 / w))` is at most 0 exactly when h·800 < w; for a
      non-negative height it is within one pixel below the proportional
      height. */
  lemma ScaledHeight(h: int, w: int)
    requires w > 800
    ensures var t := Trunc(h as real * (800.0 / w as real));
      (t <= 0 <==> h * 800 < w)
      && (h >= 0 ==>
            t >= 0 && t as real * w as real <= h as real * 800.0
            && h as real * 800.0 < (t + 1) as real * w as real)
  {
    var x := h as real * (800.0 / w as real);
    var t := Trunc(x);
    assert x * w as real == h as real * 800.0;
    if h >= 0 {
      ScaleBounds(t as real, x, w as real);
      if t >= 1 {
        MulNonneg(t as real - 1.0, w as real);
      }
    } else {
      MulNonneg(-x, w as real);
    }
  }

  /** A 1601 by 1 frame would be resized to zero height, so it is dropped;
      a 1600 by 2 frame keeps one row. */
  lemma ResizeTooFlat()
    ensures Resize(Dims(1601, 1)).None?
    ensures Resize(Dims(1600, 2)) == Some(Dims(800, 1))
  {
    assert 1 * 800 < 1601;
    assert !(2 * 800 < 1600);
  }

  /** `f"frame_{i+1:04d}.jpg"`. */
  function FrameName(i: nat): string {
    "frame_" + ZeroPad(NatToString(i + 1), 4) + ".jpg"
  }

  /** A frame's name reads back as its one-based position. */
  lemma FrameNameReadsBack(i: nat)
    ensures var n := FrameName(i);
      |n| >= 14 && StartsWith(n, "frame_") && n[|n| - 4..] == ".jpg"
      && AllDigits(n[6..|n| - 4]) && DigitsValue(n[6..|n| - 4]) == i + 1
  {
    var d := ZeroPad(NatToString(i + 1), 4);
    var n := FrameName(i);
    ZeroPadValue(i + 1, 4);
    assert n[6..|n| - 4] == d;
    assert n[..6] == "frame_";
  }

  /** Different positions get different names. */
  lemma FrameNameInjective(i: nat, j: nat)
    requires FrameName(i) == FrameName(j)
    ensures i == j
  {
    var n := FrameName(i);
    assert DigitsValue(n[6..|n| - 4]) == i + 1 by { FrameNameReadsBack(i); }
    assert DigitsValue(n[6..|n| - 4]) == j + 1 by { FrameNameReadsBack(j); }
  }

  /** A directory entry that names an extracted frame. */
  predicate IsFrameFile(name: string) {
    StartsWith(name, "frame_")
  }

  /** `sorted([f for f in os.listdir(temp_dir) if f.startswith('frame_')])`. */
  function FrameFiles(listing: seq<string>): seq<string> {
    Sort(Filter(listing, IsFrameFile))
  }

  /** The frame files are exactly the "frame_" entries, in sorted order. */
  lemma FrameFilesSorted(listing: seq<string>)
    ensures Sorted(FrameFiles(listing))
    ensures multiset(FrameFiles(listing)) == multiset(Filter(listing, IsFrameFile))
    ensures forall x :: x in FrameFiles(listing) <==> x in listing && StartsWith(x, "frame_")
  {
    SortCorrect(Filter(listing, IsFrameFile));
    FilterMembers(listing, IsFrameFile);
    forall x ensures x in FrameFiles(listing) <==> x in Filter(listing, IsFrameFile) {
      assert x in FrameFiles(listing) <==> x in multiset(FrameFiles(listing));
    }
  }

  /** The size a frame file ends up with: `None` when the image oracle
      `decode` fails on it or the resize refuses it. */
  function Processed(decode: string -> Option<Dims>, f: string): Option<Dims> {
    match decode(f)
    case None => None
    case Some(d) => Resize(d)
  }

  /** The frame built from file `j` when it is processed. */
  function FrameOf(files: seq<string>, fps: real, decode: string -> Option<Dims>, j: nat): FrameData
    requires j < |files| && fps != 0.0 && Processed(decode, files[j]).Some?
  {
    FrameData(j as real / fps, Picture(Processed(decode, files[j]).value, files[j]), FrameName(j))
  }

  /** The frames emitted for the first `n` files: one per file the image
      oracle reads and the resize accepts, none for any other. */
  function Emitted(files: seq<string>, fps: real, decode: string -> Option<Dims>, n: nat): seq<FrameData>
    requires n <= |files| && fps != 0.0
  {
    if n == 0 then []
    else Emitted(files, fps, decode, n - 1)
         + (if Processed(decode, files[n - 1]).Some? then [FrameOf(files, fps, decode, n - 1)] else [])
  }

  /** The positions, below `n`, of the files that are processed. */
  function Readable(files: seq<string>, decode: string -> Option<Dims>, n: nat): (r: seq<nat>)
    requires n <= |files|
    ensures forall k | 0 <= k < |r| :: r[k] < n && Processed(decode, files[r[k]]).Some?
    ensures forall k, l | 0 <= k < l < |r| :: r[k] < r[l]
    ensures forall j | 0 <= j < n && Processed(decode, files[j]).Some? :: j in r
    ensures |r| <= n
  {
    if n == 0 then []
    else Readable(files, decode, n - 1) + (if Processed(decode, files[n - 1]).Some? then [n - 1] else [])
  }

  /** The `k`-th emitted frame comes from the `k`-th processed file: frames
      are skipped exactly for the files that fail, and nothing else
      changes. */
  lemma {:induction false} EmittedReadable(files: seq<string>, fps: real, decode: string -> Option<Dims>, n: nat)
    requires n <= |files| && fps != 0.0
    ensures |Emitted(files, fps, decode, n)| == |Readable(files, decode, n)| <= n
    ensures forall k | 0 <= k < |Emitted(files, fps, decode, n)| ::
      Emitted(files, fps, decode, n)[k] == FrameOf(files, fps, decode, Readable(files, decode, n)[k])
    decreases n
  {
    if n > 0 {
      EmittedReadable(files, fps, decode, n - 1);
    }
  }

  lemma DivMonotone(a: real, b: real, f: real)
    requires a < b && f > 0.0
    ensures a / f < b / f
  {
    var x, y := a / f, b / f;
    assert x * f == a && y * f == b;
    if x >= y {
      MulNonneg(x - y, f);
    }
  }

  /** With a positive rate, emitted timestamps strictly increase. */
  lemma EmittedIncreasing(files: seq<string>, fps: real, decode: string -> Option<Dims>, n: nat)
    requires n <= |files| && fps > 0.0
    ensures var e := Emitted(files, fps, decode, n);
      forall k, l | 0 <= k < l < |e| :: e[k].timestamp < e[l].timestamp
  {
    EmittedReadable(files, fps, decode, n);
    var e := Emitted(files, fps, decode, n);
    var r := Readable(files, decode, n);
    forall k, l | 0 <= k < l < |e| ensures e[k].timestamp < e[l].timestamp {
      DivMonotone(r[k] as real, r[l] as real, fps);
    }
  }

  /** What `extract_frames` returns: nothing when the probed duration is not
      positive, when rasterising fails, or when a zero rate makes the first
      timestamp raise; otherwise the frames of the sorted frame files. */
  function ExtractedFrames(probe: Option<seq<Stream>>, fps: real, rasterOk: bool,
                           listing: seq<string>, decode: string -> Option<Dims>): seq<FrameData>
  {
    if VideoDuration(probe) <= 0.0 || !rasterOk || fps == 0.0 then []
    else Emitted(FrameFiles(listing), fps, decode, |FrameFiles(listing)|)
  }

  /** `extract_frames(video_path, fps)`. `rasterOk` is whether the ffmpeg
      rasterising command succeeded, `listing` the names it left in the
      temporary directory, and `decode` the outcome of opening and
      re-encoding a frame file (`None` when that raises). */
  method ExtractFrames(probe: Option<seq<Stream>>, fps: real, rasterOk: bool,
                       listing: seq<string>, decode: string -> Option<Dims>)
    returns (framesData: seq<FrameData>)
    ensures framesData == ExtractedFrames(probe, fps, rasterOk, listing, decode)
  {
    var duration := GetVideoDuration(probe);
    if duration <= 0.0 {
      return [];
    }
    if !rasterOk {
      return [];
    }
    var frameFiles := Sort(Filter(listing, IsFrameFile));
    framesData := [];
    var i := 0;
    while i < |frameFiles|
      invariant 0 <= i <= |frameFiles|
      invariant fps != 0.0 ==> framesData == Emitted(frameFiles, fps, decode, i)
      invariant fps == 0.0 ==> i == 0 && framesData == []
    {
      if fps == 0.0 {
        return [];
      }
      var timestamp := i as real / fps;
      var image := decode(frameFiles[i]);
      if image.Some? {
        var size := Resize(image.value);
        if size.Some? {
          framesData := framesData + [FrameData(timestamp, Picture(size.value, frameFiles[i]), FrameName(i))];
        }
      }
      i := i + 1;
    }
    if fps == 0.0 {
      return [];
    }
  }

  /** The `k`-th emitted frame comes from a processed file at some position
      `i`, whose timestamp and name it carries. */
  lemma EmittedFrameOrigin(files: seq<string>, fps: real, decode: string -> Option<Dims>, k: nat)
    returns (i: nat)
    requires fps != 0.0 && k < |Emitted(files, fps, decode, |files|)|
    ensures var f := Emitted(files, fps, decode, |files|)[k];
      i < |files| && files[i] == f.image.source && files[i] in files
      && Processed(decode, files[i]).Some? && f.timestamp == i as real / fps && f.filename == FrameName(i)
  {
    var r := Readable(files, decode, |files|);
    assert Emitted(files, fps, decode, |files|)[k] == FrameOf(files, fps, decode, r[k])
    by { EmittedReadable(files, fps, decode, |files|); }
    i := r[k];
  }

  /** Every frame emitted from the sorted frame files comes from a
      "frame_" file of the listing that is processed, and carries
      `i / fps` and `frame_{i+1:04d}.jpg` for its position `i` among them. */
  lemma EmittedFromListing(listing: seq<string>, fps: real, decode: string -> Option<Dims>)
    requires fps != 0.0
    ensures var files := FrameFiles(listing);
      var e := Emitted(files, fps, decode, |files|);
      |e| <= |files|
      && forall k | 0 <= k < |e| ::
           e[k].image.source in listing && StartsWith(e[k].image.source, "frame_")
           && Processed(decode, e[k].image.source).Some?
           && exists i | 0 <= i < |files| ::
                files[i] == e[k].image.source && e[k].timestamp == i as real / fps && e[k].filename == FrameName(i)
  {
    var files := FrameFiles(listing);
    var e := Emitted(files, fps, decode, |files|);
    assert |e| <= |files| by { EmittedReadable(files, fps, decode, |files|); }
    assert forall x :: x in files <==> x in listing && StartsWith(x, "frame_")
    by { FrameFilesSorted(listing); }
    forall k | 0 <= k < |e|
      ensures e[k].image.source in files && Processed(decode, e[k].image.source).Some?
      ensures exists i | 0 <= i < |files| ::
               files[i] == e[k].image.source && e[k].timestamp == i as real / fps && e[k].filename == FrameName(i)
    {
      var i := EmittedFrameOrigin(files, fps, decode, k);
    }
  }

  /** What `extract_frames` returns is empty when the duration is not
      positive, rasterising fails or the rate is 0, and otherwise exactly
      the frames emitted for the sorted frame files as described above, with
      strictly increasing timestamps when the rate is positive. */
  lemma ExtractedFramesFacts(probe: Option<seq<Stream>>, fps: real, rasterOk: bool,
                             listing: seq<string>, decode: string -> Option<Dims>)
    ensures var e := ExtractedFrames(probe, fps, rasterOk, listing, decode);
      (VideoDuration(probe) <= 0.0 || !rasterOk ==> e == [])
      && (fps == 0.0 ==> e == [])
      && (VideoDuration(probe) > 0.0 && rasterOk && fps != 0.0 ==>
            e == Emitted(FrameFiles(listing), fps, decode, |FrameFiles(listing)|))
      && (e != [] ==> fps != 0.0 && e == Emitted(FrameFiles(listing), fps, decode, |FrameFiles(listing)|))
      && (fps > 0.0 ==> forall k, l | 0 <= k < l < |e| :: e[k].timestamp < e[l].timestamp)
  {
    if fps > 0.0 {
      EmittedIncreasing(FrameFiles(listing), fps, decode, |FrameFiles(listing)|);
    }
  }

  /** A file that is processed is never skipped. */
  lemma ReadableNotSkipped(files: seq<string>, fps: real, decode: string -> Option<Dims>, j: nat)
    requires j < |files| && fps != 0.0 && Processed(decode, files[j]).Some?
    ensures FrameOf(files, fps, decode, j) in Emitted(files, fps, decode, |files|)
  {
    EmittedReadable(files, fps, decode, |files|);
    var r := Readable(files, decode, |files|);
    var k :| 0 <= k < |r| && r[k] == j;
    assert Emitted(files, fps, decode, |files|)[k] == FrameOf(files, fps, decode, j);
  }

  // ---------------------------------------------------------------------
  // transcribe_audio
  // ---------------------------------------------------------------------

  // The fixed messages are written as concatenations of words, which keeps
  // the character-level facts proved about them cheap to check.
  const QuotaMessage := "OpenAI " + "API " + "quota " + "exceeded. " + "Please " + "check " + "your "
    + "billing " + "or " + "try " + "again " + "later."
  const InvalidKeyMessage := "OpenAI " + "API " + "key " + "is " + "invalid. " + "Please " + "check " + "your "
    + "API " + "key " + "configuration."
  const FailurePrefix := "Transcription " + "failed: "
  const ExtractionFailedMessage := "Failed " + "to " + "extract " + "audio " + "from " + "video."
  const NoAudioMessage := "No " + "audio " + "content " + "found in the video."
  const NoSpeechMessage := "No " + "speech " + "detected " + "in " + "the " + "audio."

  predicate QuotaError(msg: string) {
    Contains(msg, "insufficient_quota") || Contains(msg, "429")
  }

  predicate KeyError(msg: string) {
    Contains(msg, "401") || Contains(Lower(msg), "unauthorized")
  }

  /** The text returned when the speech-to-text request raises. */
  function ClassifyApiError(msg: string): string {
    if QuotaError(msg) then QuotaMessage
    else if KeyError(msg) then InvalidKeyMessage
    else FailurePrefix + msg
  }

  /** The three outcomes are told apart exactly by the order of the tests:
      quota first, then the key, then everything else. */
  lemma ClassifyApiErrorIff(msg: string)
    ensures ClassifyApiError(msg) == QuotaMessage <==> QuotaError(msg)
    ensures ClassifyApiError(msg) == InvalidKeyMessage <==> !QuotaError(msg) && KeyError(msg)
    ensures StartsWith(ClassifyApiError(msg), FailurePrefix) <==> !QuotaError(msg) && !KeyError(msg)
    ensures !QuotaError(msg) && !KeyError(msg) ==> ClassifyApiError(msg) == FailurePrefix + msg
  {
    assert QuotaMessage[0] == 'O' && InvalidKeyMessage[0] == 'O' && FailurePrefix[0] == 'T';
    assert QuotaMessage[11] != InvalidKeyMessage[11];
    var r := ClassifyApiError(msg);
    if !QuotaError(msg) && !KeyError(msg) {
      assert r[..|FailurePrefix|] == FailurePrefix;
    } else {
      assert r[0] == 'O';
    }
  }

  /** How extracting the audio track went: an exception, a failing ffmpeg
      run, or a run after which the audio file has the given size (`None`
      when it does not exist). */
  datatype AudioExtraction = ExtractionRaised(error: string) | ExtractionFailed | Extracted(size: Option<nat>)

  /** What the speech-to-text service answered, when it was asked. */
  datatype SpeechReply = Transcript(text: string) | ApiError(error: string)

  predicate HasAudio(extraction: AudioExtraction) {
    extraction.Extracted? && extraction.size.Some? && extraction.size.value > 0
  }

  /** The text `transcribe_audio` returns, and whether it asked the service. */
  function Transcription(extraction: AudioExtraction, reply: SpeechReply): (string, bool) {
    match extraction
    case ExtractionRaised(e) => (FailurePrefix + e, false)
    case ExtractionFailed => (ExtractionFailedMessage, false)
    case Extracted(size) =>
      if size.None? || size.value == 0 then (NoAudioMessage, false)
      else match reply
        case Transcript(t) => (if t == [] then NoSpeechMessage else t, true)
        case ApiError(e) => (ClassifyApiError(e), true)
  }

  /** `transcribe_audio(video_path)`: a sequence of early returns; the
      temporary audio file is not modelled. */
  method TranscribeAudio(extraction: AudioExtraction, reply: SpeechReply) returns (text: string, calledApi: bool)
    ensures (text, calledApi) == Transcription(extraction, reply)
  {
    calledApi := false;
    if extraction.ExtractionRaised? {
      return FailurePrefix + extraction.error, false;
    }
    if extraction.ExtractionFailed? {
      return ExtractionFailedMessage, false;
    }
    if extraction.size.None? || extraction.size.value == 0 {
      return NoAudioMessage, false;
    }
    calledApi := true;
    match reply
    case Transcript(t) =>
      text := if t != [] then t else NoSpeechMessage;
    case ApiError(e) =>
      text := ClassifyApiError(e);
  }

  /** The service is asked exactly when there is audio; without it the text
      is one of the fixed messages or the failure text; the result is never
      empty, a spoken transcript comes back unchanged, and a service error
      gives its classified text. */
  lemma TranscriptionOutcome(extraction: AudioExtraction, reply: SpeechReply)
    ensures Transcription(extraction, reply).1 <==> HasAudio(extraction)
    ensures Transcription(extraction, reply).0 != []
    ensures !HasAudio(extraction) ==>
      Transcription(extraction, reply).0 in {ExtractionFailedMessage, NoAudioMessage}
      || (extraction.ExtractionRaised? && Transcription(extraction, reply).0 == FailurePrefix + extraction.error)
    ensures HasAudio(extraction) && reply.Transcript? && reply.text != [] ==>
      Transcription(extraction, reply).0 == reply.text
    ensures HasAudio(extraction) && reply.Transcript? && reply.text == [] ==>
      Transcription(extraction, reply).0 == NoSpeechMessage
    ensures HasAudio(extraction) && reply.ApiError? ==>
      Transcription(extraction, reply).0 == ClassifyApiError(reply.error)
  {
  }
}

=== FILE: wrappers.dfy ===
/** The optional value used wherever the source has `None` or a failed lookup. */
module Wrappers {
  datatype Option<+T> = None | Some(value: T)
}
